=== FILE: README.md ===
# napari core, modelled in Dafny

This project models the sequential cores underneath napari's viewer. The Qt widgets, vispy
visuals and plugin hooks are left out. The project covers:

- **Chunk requests** (`ChunkRequest`): flattening index tuples, layer and chunk keys and their
  equality, and the `ChunkRequest` bundle of named arrays. The bundle's operations are counting,
  byte totals, loading with timers, transposing, and the `image` / `thumbnail_source` fallback.
  Arrays are records of shape, byte count and whether they are in memory. `hash` is a function
  parameter.
- **Viewer models**:
  - `LayerRanges`: the per-axis range merge the two viewer models share. Layers are aligned at
    their trailing axis.
  - `ViewerModel`: the current viewer (`napari/components/viewer_model.py`). It has guarded
    setters with an event log, the theme, the active layer (the *unique* selected layer),
    `reset_view` and `add_layer`.
  - `LegacyViewer`: the older viewer (`napari/components/_viewer/model.py`). It has guarded
    setters, `active_markers`, the *topmost* selected layer, max/min shapes and the default SVG
    view box.
- **Shape utilities** (`Misc`): the multichannel test and guess, the metadata merge, and the
  left-aligned maximum shape.
- **Coordinate transforms** (`Transforms`, over `real`; matrix helpers in `LinAlg`):
  - the base transform and its inverse;
  - identity, translate and scale, with numpy broadcasting written out;
  - axis slicing;
  - the scale/translate fold of a chain;
  - the affine constructor's validation and composition.
- **Texture fitting** (`ImageTexture`): the dtype coercion table, the 2-D to 3-D expansion, and
  the downsampling factors and tile scale.
- **Box annotation layers**:
  - `BoxGeometry`: the shared geometry, which is corner expansion in two corner orders, slicing
    by the non-displayed indices, the hit test (the last vertex hit, else the last containing
    box), the layer shape and the status message.
  - `BoxEdit`: the clamped add and move arithmetic.
  - `Rectangles`, `Ellipses` and `BoxLayer`: the three layers' selection and editing state.

Events, emitted signals and calls into the display are an appended log in each state record.
Nothing is mutated in place: every operation returns the new state. Python exceptions are the
`Err` side of a `Result`. Most operations return only the error. Where the source has already
written state before it raises, the model returns that state alongside the error:
`ChunkRequest.TransposeAll` and `ChunkRequest.TransposeChunks` return the chunks transposed
before the failing one, and `ViewerModel.AddLayer` returns the viewer with the layer appended
when the first reset raises IndexError.

## Model

| member | source | states |
|---|---|---|
| ChunkRequest.FlattenLength | napari/components/experimental/chunk/_request.py:20-31 | a flattened index tuple has one entry per plain index and three per slice |
| ChunkRequest.FlattenAppend | napari/components/experimental/chunk/_request.py:20-31 | flattening works index by index: flattening a concatenation concatenates the flattenings, so order is preserved |
| ChunkRequest.FlattenAt | napari/components/experimental/chunk/_request.py:20-31 | the entries of index `i` sit between the flattened prefix and the flattened suffix |
| ChunkRequest.MakeChunkKey | napari/components/experimental/chunk/_request.py:54-86 | the chunk key keeps the given indices and hashes the 4-tuple of the layer's ids, level and flattened indices |
| ChunkRequest.SameInputsGiveEqualKeys | napari/components/experimental/chunk/_request.py:81-99 | keys built from the same layer and equal flattened indices compare equal, whatever the hash |
| ChunkRequest.EqualKeysWithInjectiveHash | napari/components/experimental/chunk/_request.py:81-99 | with an injective hash, equal keys mean the same layer and the same flattened indices |
| ChunkRequest.SliceAndIntsCollide | napari/components/experimental/chunk/_request.py:20-31 | the slice `1:2:3` and the integers `1, 2, 3` give equal keys |
| ChunkRequest.Lookup | napari/components/experimental/chunk/_request.py:196-221 | a chunk is found exactly when its name is present, and it is the chunk stored under that name |
| ChunkRequest.NewRequest | napari/components/experimental/chunk/_request.py:122-131 | construction fails exactly when some array is missing; otherwise it keeps the key and the named chunks in order, and timers start empty |
| ChunkRequest.NumChunksCountsNames | napari/components/experimental/chunk/_request.py:137-140 | with distinct names, the chunk count equals the number of names |
| ChunkRequest.SumBytesAppend | napari/components/experimental/chunk/_request.py:142-145 | the byte total is additive over concatenation |
| ChunkRequest.SumBytesBoundsEach | napari/components/experimental/chunk/_request.py:142-145 | each chunk's bytes are at most the total, and the total is zero exactly when every chunk is empty |
| ChunkRequest.LoadChunks | napari/components/experimental/chunk/_request.py:147-183 | every chunk is loaded in place under the same name, so the request is then in memory; the name set is unchanged; the timers gain one entry per name plus the load timer, and the other timers are kept |
| ChunkRequest.LoadKeepsBytes | napari/components/experimental/chunk/_request.py:173-183 | loading chunks does not change the byte total |
| ChunkRequest.Permute | napari/components/experimental/chunk/_request.py:185-194 | axis `i` of the transposed shape is axis `order[i]` of the original, with negative axes counted from the end |
| ChunkRequest.TransposeAll | napari/components/experimental/chunk/_request.py:185-194 | names and byte counts are kept; the transpose fails exactly when the order is not a valid axis order for some chunk; otherwise each shape is permuted by the same order |
| ChunkRequest.TransposeChunks | napari/components/experimental/chunk/_request.py:185-194 | key, timers, name set and byte total are preserved; all chunks get the same permutation, or the first invalid one raises |
| ChunkRequest.TransposeRoundTrip | napari/components/experimental/chunk/_request.py:185-194 | transposing by a permutation and then by its inverse restores the shape |
| ChunkRequest.PermutationCovers | napari/components/experimental/chunk/_request.py:185-194 | every axis appears in a permutation, so the inverse order is defined |
| ChunkRequest.DataId | napari/components/experimental/chunk/_request.py:133-135 | the data id is the layer's data id that the key was built from |
| ChunkRequest.Image | napari/components/experimental/chunk/_request.py:196-205 | the 'image' chunk when present, otherwise nothing |
| ChunkRequest.ThumbnailSource | napari/components/experimental/chunk/_request.py:207-221 | the 'thumbnail_source' chunk when present, otherwise the 'image' chunk, otherwise nothing |
| LayerRanges.NumDims | napari/components/viewer_model.py:702-711 | the largest layer dimensionality, or 0 without layers: it bounds every layer and is attained by one of them |
| LayerRanges.MergedIsAxisMerge | napari/components/viewer_model.py:671-687 | the folded zip of the reversed layers has one entry per axis, and each entry is that axis's merge over the layers |
| LayerRanges.AxisMergeCovers | napari/components/viewer_model.py:678-685 | a merged axis has a min at most, a max at least and a step at most those of every layer with that axis |
| LayerRanges.AxisMergeAttained | napari/components/viewer_model.py:678-685 | each merged component comes from some layer having that axis; with no such layer the axis is the fill value |
| LayerRanges.LayersRanges | napari/components/viewer_model.py:671-687 | the result has one range per axis of the widest layer; each range covers every layer aligned at the trailing axis, and each component is attained by one of them |
| LayerRanges.AxisCorrect | napari/components/viewer_model.py:671-687 | one axis of the result, read through the trailing alignment, covers and is attained by the layers |
| LayerRanges.AddingLayerWidens | napari/components/viewer_model.py:678-685 | adding a layer never shrinks an existing axis: the min does not grow, the max does not fall, the step does not grow |
| LayerRanges.LayersRangesAxis | napari/components/viewer_model.py:671-687 | the `j`-th axis from the end of the result is the finite merge of axis `j` from the end of every layer |
| LayerRanges.ShapesBoundLayers | napari/components/_viewer/model.py:344-360 | on every axis of the merged ranges, `max_shape` is at least every layer's max and `min_shape` at most every layer's min (layers aligned at their last axis), and some layer attains each |
| ViewerModel.Initial | napari/components/viewer_model.py:36-68 | the state before `self.theme = 'dark'`: no layers, events, active layer or palette; 'Ready', with empty help, the 'standard' cursor and interactive |
| ViewerModel.New | napari/components/viewer_model.py:36-69 | a new viewer is that state with the 'dark' theme's palette and exactly one palette event; without a 'dark' theme construction raises ValueError |
| ViewerModel.SetProperty | napari/components/viewer_model.py:88-207 | after a guarded setter the property holds the value; an unchanged value leaves the viewer as it was; a changed one appends exactly its event; nothing else changes |
| ViewerModel.SetPropertyIdempotent | napari/components/viewer_model.py:88-207 | setting the same value twice is the same as setting it once |
| ViewerModel.SetPropertyEmitsIffChanged | napari/components/viewer_model.py:88-207 | a setter emits one event exactly when the value changes |
| ViewerModel.PaletteIndex | napari/components/viewer_model.py:96-102 | the first theme whose palette is the current one, or none |
| ViewerModel.NameIndex | napari/components/viewer_model.py:104-115 | the first theme with the given name, or none |
| ViewerModel.Theme | napari/components/viewer_model.py:96-102 | the theme getter returns no name exactly when no theme has the current palette; a returned name is paired with the current palette |
| ViewerModel.SetTheme | napari/components/viewer_model.py:104-115 | an unknown name raises ValueError; otherwise the palette becomes that theme's palette through the guarded palette setter |
| ViewerModel.ThemeRoundTrip | napari/components/viewer_model.py:96-115 | with distinct names and palettes, setting a theme and reading it back gives the same name |
| ViewerModel.ActiveIndex | napari/components/viewer_model.py:635-666 | a layer is active exactly when exactly one layer is selected, and it is that selected layer |
| ViewerModel.ScanSelectedFound | napari/components/viewer_model.py:635-652 | once one selected layer has been seen, the scan keeps it only when no further layer is selected |
| ViewerModel.ScanSelectedNone | napari/components/viewer_model.py:635-652 | the scan finds a layer exactly when exactly one is selected, and that layer is selected |
| ViewerModel.SingleSelectedIsUnique | napari/components/viewer_model.py:635-666 | when one layer is selected, any two selected layers are the same |
| ViewerModel.SetSelectionProperties | napari/components/viewer_model.py:653-666 | status, help, cursor, interactive and the active layer take the given values through the guarded setters; layers, palette, title and cursor size are kept; at most five events are appended |
| ViewerModel.UpdateActiveLayer | napari/components/viewer_model.py:635-666 | with exactly one selected layer the viewer copies its status, help, cursor and interactive and makes it active; otherwise these reset to 'Ready', '', 'standard', True and there is no active layer; events are only appended |
| ViewerModel.SelectionIgnoresIndices | napari/components/viewer_model.py:635-666 | changing a layer's indices does not change which layer is active |
| ViewerModel.SelectionOnly | napari/components/viewer_model.py:635-652 | the active layer depends only on the layers' selected flags and ids |
| ViewerModel.NumDims | napari/components/viewer_model.py:702-711 | the viewer's dimensionality bounds every layer's and is attained by one, or is 0 |
| ViewerModel.SingleLayerDims | napari/components/viewer_model.py:702-711 | with one layer, the viewer's dimensionality is that layer's |
| ViewerModel.LayersRanges | napari/components/viewer_model.py:671-687 | the viewer's ranges have one entry per dimension |
| ViewerModel.ViewBoxOf | napari/components/viewer_model.py:209-221 | fewer than two axes raise IndexError; otherwise the box is 1.1 times the extent of the last two axes (x is the last), centred on them, and contains them |
| ViewerModel.ResetView | napari/components/viewer_model.py:209-221 | reset fails exactly below two dimensions; otherwise it only appends one reset event carrying that view box |
| ViewerModel.AppendLayer | napari/components/viewer_model.py:309-313 | the layer goes last with the dims indices; earlier layers are kept; ranges and the active layer are recomputed; events are only appended |
| ViewerModel.AddLayer | napari/components/viewer_model.py:291-313 | the layer goes last; the view is reset only when it is the first layer, and that reset raises IndexError exactly when the layer has fewer than two axes |
| ViewerModel.ResetFirst | napari/components/viewer_model.py:312-313 | the reset after the first layer fails exactly when it has fewer than two axes, leaving the viewer as it was; otherwise it keeps the layers, ranges and active layer and ends the log with a reset event |
| LegacyViewer.Initial | napari/components/_viewer/model.py:34-63 | a new legacy viewer starts 'Ready', with empty help, the 'standard' cursor and interactive, no top layer, no markers attribute and empty logs |
| LegacyViewer.SetProperty | napari/components/_viewer/model.py:93-164 | after a guarded setter the property holds the value; an unchanged value changes nothing; a changed one either emits one event or makes one display call, and a cursor call carries the current other half of shape and size; nothing else changes |
| LegacyViewer.SetPropertyIdempotent | napari/components/_viewer/model.py:93-164 | setting the same value twice is the same as setting it once |
| LegacyViewer.SetActiveMarkers | napari/components/_viewer/model.py:166-177 | as written: the setter compares against an attribute that is never initialised, so it raises AttributeError exactly when markers were never set; otherwise it is a guarded setter |
| LegacyViewer.ActiveMarkersFailsOnFreshViewer | napari/components/_viewer/model.py:34-63 | on a freshly built viewer, setting active markers raises AttributeError |
| LegacyViewer.SetActiveMarkersInitialised | napari/components/_viewer/model.py:166-177 | with the attribute initialised, the setter stores the index and emits an event exactly when it changes |
| LegacyViewer.ActiveMarkersRoundTrip | napari/components/_viewer/model.py:166-177 | on a fresh viewer with the attribute initialised, the index set is the index read back, with one event |
| LegacyViewer.TopSelected | napari/components/_viewer/model.py:306-316 | no top layer exactly when none is selected; otherwise the last selected layer in the list |
| LegacyViewer.UpdateLayerSelection | napari/components/_viewer/model.py:306-324 | the top layer is the last selected one and its status, help, cursor and interactive are copied; without one they reset to 'Ready', '', 'standard', True; the layer list display call comes first and the focus call last |
| LegacyViewer.CallsGrow | napari/components/_viewer/model.py:93-164 | a run of setters only appends to the display call log |
| LegacyViewer.LayersRanges | napari/components/_viewer/model.py:329-342 | the same trailing-aligned merge as the current viewer: one range per axis of the widest layer, covering and attained by the layers |
| LegacyViewer.SvgViewBox | napari/components/_viewer/model.py:231-235 | the default view box is the min of the last axis, then the second-to-last, then their extents in the same order |
| LegacyViewer.SvgViewBoxParts | napari/components/_viewer/model.py:231-235 | reversing the last two mins and the last two extents gives that box, also for fewer than two axes |
| LegacyViewer.SvgViewBoxTwo | napari/components/_viewer/model.py:231-235 | with at least two axes the box has four numbers, x before y |
| Misc.IsMultichannel | gui/util/misc.py:9-15 | true exactly when the 'itype' entry is one of rgb, rgba, multi or multichannel; a missing key is false |
| Misc.GuessMultichannel | gui/util/misc.py:18-36 | an empty shape raises IndexError and a one-axis shape ZeroDivisionError; inside the band around the mean of the other axes the answer is false; outside it, a last axis of 3 or 4 with mean above 10, or a mean exceeding the last axis by over 100 times it |
| Misc.GuessedMultichannelShape | gui/util/misc.py:18-36 | a positive guess on a non-negative shape means the last axis is 3 or 4 with mean above 10, or the mean is over 101 times the last axis |
| Misc.GuessMetadata | gui/util/misc.py:39-70 | fails exactly when it must guess and the guess fails; otherwise the keys are those of the metadata and the kwargs, plus 'itype' when multichannel; kwargs win over the metadata; 'itype' becomes 'multi' when multichannel |
| Misc.MetadataRoundTrip | gui/util/misc.py:39-70 | metadata guessed as multichannel is recognised as multichannel |
| Misc.MaxLen | gui/util/misc.py:89-94 | the longest shape's length: it bounds every shape and is attained |
| Misc.AxisMaxBounds | gui/util/misc.py:96-105 | an axis maximum starts from 0, dominates every shape having that axis, and is 0 or attained |
| Misc.ComputeMaxShape | gui/util/misc.py:73-105 | no shapes and no length raise ValueError; the result has the given length (negative counts as empty) or the longest shape's; each entry is the maximum over the shapes having that axis, so it dominates them all |
| ImageTexture.CoerceDType | napari/_vispy/vispy_image_layer.py:100-110 | a texture dtype is kept; otherwise signed ints become int16, floats float32, unsigned uint16 and bools uint8; any other kind raises TypeError; a result is always a texture dtype |
| ImageTexture.CoerceIdempotent | napari/_vispy/vispy_image_layer.py:100-110 | coercing a coerced dtype changes nothing |
| ImageTexture.CeilDiv | napari/_vispy/vispy_image_layer.py:210-212 | the least multiple count covering the length |
| ImageTexture.AxisFactor | napari/_vispy/vispy_image_layer.py:210-212 | an axis's factor is 0 exactly when it is empty and 1 exactly when it is non-empty and already fits |
| ImageTexture.FactorsAllOneIffFits | napari/_vispy/vispy_image_layer.py:196-212 | every factor is 1 exactly when no axis is empty and none exceeds the maximum texture size |
| ImageTexture.TileScale | napari/_vispy/vispy_image_layer.py:213-216 | the tile scale has one entry per data axis: the factor on displayed axes and 1 elsewhere; an out-of-range displayed axis raises IndexError |
| ImageTexture.AssignScale | napari/_vispy/vispy_image_layer.py:213-216 | after the first `k` displayed axes are written, exactly those carry factors |
| ImageTexture.SlicedAxisFits | napari/_vispy/vispy_image_layer.py:210-219 | striding a non-empty axis by its factor leaves at most the maximum size, and an axis that already fits is unchanged |
| ImageTexture.SlicedShapeFits | napari/_vispy/vispy_image_layer.py:210-219 | every strided axis fits the texture size |
| ImageTexture.Downsample | napari/_vispy/vispy_image_layer.py:196-220 | data that fits is returned as is; too-large multiscale data raises ValueError; too-large non-multiscale data raises IndexError when a displayed axis is out of range (lines 213-214), otherwise ValueError exactly when some axis is empty (its slice step is 0, lines 217-218); otherwise every axis is strided to fit and the tile scale records the factors |
| ImageTexture.DownsampleSucceeds | napari/_vispy/vispy_image_layer.py:196-220 | non-multiscale data with non-empty axes always downsamples, provided there are no more displayed axes than data axes and every displayed axis is below `ndim` |
| ImageTexture.NodeData | napari/_vispy/vispy_image_layer.py:96-125 | the dtype is coerced first (its TypeError propagates); the expanded shape then fits the 2-D or 3-D limit when one applies, and is kept when none does |
| Transforms.Broadcast | napari/layers/transforms.py:179-214 | element-wise operation under numpy broadcasting of two vectors: defined exactly when the lengths are equal or one is 1, else ValueError |
| Transforms.MakeBase | napari/layers/transforms.py:22-29 | an identity function's inverse is the identity; otherwise the given inverse is kept |
| Transforms.DefaultInverseIsIdentity | napari/layers/transforms.py:22-44 | the default transform is the identity and is its own inverse |
| Transforms.Inverse | napari/layers/transforms.py:39-44 | a missing inverse raises ValueError; identity is its own inverse; translate negates (the two translations add to zero); scale takes reciprocals (the products are 1) |
| Transforms.BaseDoubleInverse | napari/layers/transforms.py:39-44 | inverting twice gives the original back except when only the inverse was the identity |
| Transforms.TranslateCall | napari/layers/transforms.py:179-184 | a translation shorter than the coordinates shifts only the trailing axes; otherwise broadcasting decides |
| Transforms.ScaleCallAsWritten | napari/layers/transforms.py:208-214 | as written: the call fails with UnboundLocalError exactly when the coordinates have no more axes than the scale; otherwise leading axes are scaled by 1 |
| Transforms.ScaleCallFailsAtFullLength | napari/layers/transforms.py:208-214 | scaling a one-axis point by a one-axis scale fails as written and gives the product when corrected |
| Transforms.ScaleCall | napari/layers/transforms.py:208-214 | corrected: scale padded with leading 1s up to the coordinates, otherwise broadcast |
| Transforms.CallsBroadcast | napari/layers/transforms.py:179-214 | both calls are broadcasting against the padded vector, and the corrected scale call agrees with the written one whenever that one is bound |
| Transforms.TranslateRoundTrip | napari/layers/transforms.py:179-188 | translating and then translating by the inverse returns the coordinates |
| Transforms.ScaleInverse | napari/layers/transforms.py:216-218 | a scale without zeros inverts to the reciprocal scale |
| Transforms.ScaleRoundTrip | napari/layers/transforms.py:208-218 | scaling and then scaling by the reciprocal returns the coordinates |
| Transforms.Take | napari/layers/transforms.py:155-221 | the listed axes, negative ones counted from the end; an axis out of range raises IndexError |
| Transforms.SetSlice | napari/layers/transforms.py:35-37 | the base transform raises NotImplementedError; identity, translate and scale keep exactly the listed axes of their vectors |
| Transforms.TranslateSliceCommutes | napari/layers/transforms.py:190-191 | slicing a translation and then applying it equals applying it and then slicing |
| Transforms.ScaleSliceCommutes | napari/layers/transforms.py:220-221 | slicing a scale and then applying it equals applying it and then slicing |
| Transforms.ChainAttributes | napari/layers/transforms.py:92-110 | an empty chain is scale (1) and translate (0); a single member gives its own, a missing scale counting as 1 and a missing translate as 0; mismatched lengths raise ValueError |
| Transforms.FoldMember | napari/layers/transforms.py:101-110 | folding one member fails exactly when the scale, the translate or their product does not broadcast |
| Transforms.ChainAttributesDescribeChain | napari/layers/transforms.py:73-110 | with the scale call corrected (`ScaleCall`), running a chain of translates and scales maps `x` to `x * scale + translate` with the folded attributes |
| Transforms.CallLinearIsCorrectedCall | napari/layers/transforms.py:179-214 | on a row of its vector's length, the chain's member step is `Call` for a translate and the corrected `ScaleCall` for a scale, while `Call` as written raises UnboundLocalError on that scale |
| Transforms.ChainCall | napari/layers/transforms.py:73-74 | the chain's call pipes the row through the members as written; an empty chain returns it, and only a translate or scale member can raise |
| Transforms.ChainCallTranslates | napari/layers/transforms.py:73-74 | a chain of translates runs, as written, to the same row as the folded description's pipe |
| Transforms.ChainCallFailsOnScale | napari/layers/transforms.py:73-74 | as written, a chain of translates and scales over rows of their length raises UnboundLocalError as soon as it holds a scale |
| Transforms.ChainSetSlice | napari/layers/transforms.py:79-80 | the chain slices every member, failing exactly when some member fails, with that member's error |
| Transforms.CheckAffine | napari/layers/transforms.py:249-258 | validation accepts exactly a square matrix with a vector of its size, else ValueError |
| Transforms.ScaleSetterBeforeA | napari/layers/transforms.py:277-279 | the affine's scale setter fails before `A` exists: ValueError from `np.diag(None)` for a missing scale, AttributeError on `A` otherwise |
| Transforms.AffineInitAsWritten | napari/layers/transforms.py:22-29 | as written: the base initialisation assigns `scale = None` through the affine's setter, so every affine construction raises ValueError |
| Transforms.AffineNeverConstructed | napari/layers/transforms.py:233-234 | the 2 by 2 identity is rejected as written and accepted, with zero translation, once the base initialisation is repaired |
| Transforms.MakeAffine | napari/layers/transforms.py:235-258 | with the base initialisation repaired: neither A nor b raises ValueError; b alone gives the identity; A alone is accepted only when it is 2 by 2 |
| Transforms.AffineDefaultTranslationRejects3D | napari/layers/transforms.py:247-248 | a 3 by 3 matrix without b is rejected as written and accepted with zero translation when corrected |
| Transforms.MakeAffineCorrected | napari/layers/transforms.py:233-258 | corrected: A alone is accepted when square, with a zero translation of its size; with b given it agrees with the written constructor |
| Transforms.ComposeAsWritten | napari/layers/transforms.py:310-313 | as written: composition always raises ValueError, from the products for different dimensions and from the constructor otherwise |
| Transforms.Compose | napari/layers/transforms.py:310-313 | with a working constructor: composition is defined exactly for equal dimensions, else ValueError, and is a valid affine of that dimension |
| Transforms.ComposeMeansSequence | napari/layers/transforms.py:310-313 | the composite maps every point to the first transform applied after the second |
| Transforms.AffineSetSlice | napari/layers/transforms.py:298-299 | as written, with a working constructor: the selected matrix is 1-D, so slicing an affine always fails, with ValueError when the axes are valid |
| Transforms.AffineSetSliceCorrected | napari/layers/transforms.py:298-299 | corrected: the sub-matrix and sub-vector over the listed axes, or IndexError for an axis out of range |
| BoxGeometry.Delete | gui/layers/_rectangles_layer.py:413 | deleting box `i` keeps the others in order and the data well formed |
| BoxGeometry.Expand | gui/layers/_rectangles_layer.py:186-191 | the four corners of a box, each coordinate the min or the max of the two stored corners as the corner order dictates |
| BoxGeometry.ExpandSymmetric | gui/layers/_rectangles_layer.py:186-191 | the corners do not depend on which stored corner comes first |
| BoxGeometry.ExpandSpansBox | gui/layers/_rectangles_layer.py:186-191 | every corner lies in the box, and opposite corners span both ends of each axis |
| BoxGeometry.StoredCornersAreVertices | gui/layers/_rectangles_layer.py:186-191 | both stored corners are among the four expanded corners |
| BoxGeometry.VertexOf | gui/layers/_box_layer.py:212-217 | each choice of min or max side on the two axes is exactly one corner number |
| BoxGeometry.BoxLayerOrderSwapsSides | gui/layers/_box_layer.py:212-217 | the box layer's order lists the rectangles' corners 0, 3, 2, 1 |
| BoxGeometry.Nonzero | gui/layers/_rectangles_layer.py:226-227 | the positions of the true entries, increasing and complete |
| BoxGeometry.NonzeroMonotone | gui/layers/_rectangles_layer.py:242-253 | positions in the nonzero list are ordered as the entries are |
| BoxGeometry.SliceBoxes | gui/layers/_rectangles_layer.py:193-213 | the mask over all boxes and the in-slice boxes, reduced to two coordinates, in data order; empty data gives empty results |
| BoxGeometry.SliceTwoDimensional | gui/layers/_rectangles_layer.py:193-213 | with two-axis data every box is in the slice unchanged |
| BoxGeometry.LastVertex | gui/layers/_rectangles_layer.py:233-247 | the last corner within half the vertex size on both axes, or none |
| BoxGeometry.LastBoxVertex | gui/layers/_rectangles_layer.py:233-247 | the last box with a vertex hit and its last hit vertex, or none |
| BoxGeometry.LastContaining | gui/layers/_rectangles_layer.py:248-256 | the last box containing the point between its first and third corner, or none |
| BoxGeometry.HitTest | gui/layers/_rectangles_layer.py:215-258 | a vertex hit wins and is the last such box in the slice; otherwise the last in-slice box containing the point, with no vertex; otherwise nothing, and then no in-slice box contains it; indices refer to the full data |
| BoxGeometry.SelectedAt | gui/layers/_rectangles_layer.py:215-258 | the rectangles and ellipses layers' selection at the cursor names an in-slice box and one of its four vertices |
| BoxGeometry.HitFromSlice | gui/layers/_rectangles_layer.py:233-256 | the hit test over the sliced corners, mapped back through the mask, has the same meaning over the full data |
| BoxGeometry.CursorOnVertexSelectsIt | gui/layers/_rectangles_layer.py:233-247 | with the cursor on a corner of the last box, that box is selected with a vertex hit at that corner or a later one |
| BoxGeometry.GetShape | gui/layers/_box_layer.py:152-156 | one more than the largest coordinate on each axis, attained by some corner; all ones for empty data |
| BoxGeometry.Message | gui/layers/_box_layer.py:317-329 | the message is the coordinate, then the name and index only when a box is selected, then the vertex only when one is hit |
| BoxGeometry.MessageRecoversSelection | gui/layers/_box_layer.py:317-329 | the selection can be read back from the message |
| BoxGeometry.GetValue | gui/layers/_rectangles_layer.py:318-353 | the coordinate, the hit test's selection, and the message that carries exactly that selection |
| BoxEdit.Proposed | gui/layers/_rectangles_layer.py:368-379 | a click proposes a 50 by 50 box centred on the cursor; a drag keeps both corners, widening an axis by 1 where they coincide |
| BoxEdit.ClampHigh | gui/layers/_rectangles_layer.py:381-386 | a box past the far edge is pinned to end at the edge with the default extent; other axes are untouched |
| BoxEdit.ClampLow | gui/layers/_rectangles_layer.py:387-392 | a box past the near edge is pinned to start at 0 with the default extent; other axes are untouched |
| BoxEdit.AddedCorners | gui/layers/_rectangles_layer.py:368-392 | the clamped corners keep the proposed corners' lengths |
| BoxEdit.AddedAxis | gui/layers/_rectangles_layer.py:368-392 | per axis: an in-canvas box is kept, one past the far edge ends at the edge, and one past the near edge starts at 0, the near check applied last |
| BoxEdit.DefaultBoxShape | gui/layers/_rectangles_layer.py:368-392 | a click-added box is 50 wide on each axis, on the canvas when the canvas is wide enough, and centred on the cursor when it fits |
| BoxEdit.DraggedBoxNotFlat | gui/layers/_rectangles_layer.py:372-379 | a dragged box never has zero width on a displayed axis and keeps the other axes of its corners |
| BoxEdit.Placed | gui/layers/_rectangles_layer.py:433-443 | a moved box keeps its extent and is centred on the cursor, or shifted by the cursor's motion since the drag start |
| BoxEdit.ShiftIntoLow | gui/layers/_rectangles_layer.py:447-452 | a box starting below 0 is shifted to start at 0 with its extent kept |
| BoxEdit.ShiftIntoHigh | gui/layers/_rectangles_layer.py:453-458 | a box ending past the edge is shifted to end at the edge with its extent kept |
| BoxEdit.MovedBoxStaysOnCanvas | gui/layers/_rectangles_layer.py:433-459 | a whole-box move keeps the extent and stays on the canvas when the box fits it; a placement already on the canvas is not shifted |
| BoxEdit.OppositeSides | gui/layers/_rectangles_layer.py:461-463 | the corner two places on is on the other side on both axes |
| BoxEdit.DraggedCorner | gui/layers/_rectangles_layer.py:465-477 | the dragged corner follows the cursor but is moved one step off the fixed corner, towards its own side, on any axis where they coincide |
| BoxEdit.VertexKeepsItsIndex | gui/layers/_rectangles_layer.py:461-477 | a cursor on the dragged vertex's side keeps it the same vertex of the new box, with the fixed corner opposite |
| Rectangles.Add | gui/layers/_rectangles_layer.py:355-396 | the clamped box is appended last and selected, with vertex 2 when dragged; a click-added box on data with more than two axes raises ValueError |
| Rectangles.Remove | gui/layers/_rectangles_layer.py:398-415 | no selection changes nothing; otherwise exactly the selected box is deleted and the selection is recomputed at the cursor |
| Rectangles.RemoveUndoesAdd | gui/layers/_rectangles_layer.py:355-415 | removing right after adding restores the layer, with the selection recomputed at the cursor |
| Rectangles.Move | gui/layers/_rectangles_layer.py:417-490 | no selection changes nothing; only the selected box changes; a whole box moves and is kept on the canvas; a vertex is dragged against the corner fixed on first use; data with more than two axes raises ValueError |
| Rectangles.VertexMoveKeepsArea | gui/layers/_rectangles_layer.py:461-477 | a vertex drag never flattens the box, and the fixed corner stays one of its vertices |
| Rectangles.WholeMoveStaysOnCanvas | gui/layers/_rectangles_layer.py:433-459 | a whole-box move keeps the extent and stays on a canvas that fits the box |
| Ellipses.SetSelectedBoxes | gui/layers/_ellipses_layer.py:211-260 | the selection becomes the one at the cursor, an in-slice box and one of its four vertices; nothing else changes |
| Ellipses.Add | gui/layers/_ellipses_layer.py:353-394 | the clamped box is appended last and selected, with vertex 2 when dragged; a click-added box on wider data raises ValueError |
| Ellipses.Remove | gui/layers/_ellipses_layer.py:396-414 | no selection changes nothing; otherwise exactly the selected box is deleted, the others keeping their order, and the selection becomes the hit test at the cursor over the remaining boxes (`_select`, lines 479-490) |
| Ellipses.RemoveUndoesAdd | gui/layers/_ellipses_layer.py:353-414 | removing right after adding restores the layer, with the selection being the hit test at the cursor |
| Ellipses.Move | gui/layers/_ellipses_layer.py:416-477 | only the selected box changes; a whole box moves and is kept on the canvas; a vertex is dragged against the current box's opposite corner, taken afresh each time |
| Ellipses.VertexMoveHoldsOppositeCorner | gui/layers/_ellipses_layer.py:458-477 | a vertex drag keeps the opposite corner as a vertex, on the other side on both axes, so the box never collapses |
| BoxLayer.SetSelectedBoxes | gui/layers/_box_layer.py:198-251 | the selection names an in-slice box and a vertex below 4; nothing is selected only when no in-slice box contains the cursor; nothing else changes |
| BoxLayer.GetValue | gui/layers/_box_layer.py:296-329 | the box layer's value is its selection at the cursor, reported with the unswapped coordinate in a message that carries exactly that selection |
| BoxLayer.NoneMeansNoHit | gui/layers/_box_layer.py:219-251 | nothing is selected exactly when no in-slice box has a vertex hit or contains the cursor |
| BoxLayer.BoxLayerSelectsSameBox | gui/layers/_box_layer.py:212-251 | the box layer's corner order changes only the vertex number reported, never which box is selected or whether a vertex was hit |

## Left out

- Qt widgets, vispy visuals, node `set_data` / `update` calls, and the colours and +0.5 display offset of `_set_view_slice`: they are display code. Calls into them appear only as entries in a call log.
- Plugin readers, file I/O, SVG serialisation (`to_svg` beyond its default view box) and `screenshot`: these are library I/O.
- `_get_coord`, which maps canvas positions through vispy transforms: the cursor coordinate is a parameter.
- `_select`, `_unselect` and `interact` in the box layers: they dispatch mouse events to the modelled operations. The selection `_select` recomputes is modelled (in `Remove`); its highlight flag and stored copy of the selection are display state.
- Rectangles.Move: does not model the aspect-ratio lock of a vertex drag (the `_fixed_aspect` branch), which needs floating-point division of the stored ratio.
- BoxGeometry.HitTest: the vertex size is one scalar for all boxes, as the layers store it.
- BoxGeometry.SliceBoxes: requires the indices to have one entry per data axis, which is what the viewer's dims supply.
- Rectangles.Add and Ellipses.Add: the in-place update of the caller's coordinate lists (Python aliasing) is not modelled.
- State written before an exception is raised is returned only by ChunkRequest.TransposeAll, ChunkRequest.TransposeChunks and ViewerModel.AddLayer. Every other failing operation returns only the error.
- Rectangles.Move and Ellipses.Move: on data with more than two axes the error is returned alone. Before the row assignment raises, the source has already stored the new drag start (whole-box move with a drag in progress) and, in the rectangles layer, the fixed corner (first vertex move); those writes are not kept. The `_is_moving = True` flag that the rectangles layer's `_move` sets first (gui/layers/_rectangles_layer.py:428) and `interact` reads is interaction state and is not modelled.
- BoxGeometry.Delete: requires a valid index. The layers only delete the stored selection, which `Valid` keeps in range.
- Dims internals, the event emitter and `block_timer` timings: events are an abstract log, and timers are `PerfEvent` records without times.
- Misc.GuessMetadata: returns a fresh map. When the metadata is None the source uses the caller's kwargs dict itself and writes 'itype' into it (gui/util/misc.py:61-68); that mutation of the caller's dict is not modelled, nor is the case where the kwargs and the metadata dict are the same object.
- Transforms.Inverse: a zero scale entry is a ZeroDivisionError rather than numpy's infinity with a warning.
- `Affine.scale`, `Affine.inverse`, `Affine.__call__` and the remaining affine helpers: these are floating-point linear algebra in foreign libraries.
- `TransformChain` write-back of the folded scale and translate into its members, and the chain's list methods: they are list plumbing.
- ImageTexture.Downsample: requires a positive maximum texture size, which is a hardware constant.
- A layer is modelled by its ranges: its `ndim` (read by `_calc_layers_num_dims`) is taken to be the number of its ranges.
- Floating-point rounding: coordinates, scales and ranges are exact reals, and `guess_multichannel` uses exact rational arithmetic.
- ChunkRequest.NewRequest: the assertion that every name is a string holds by typing; the array check is the `Option` in each entry.
- The downsampling warning in `ImageTexture.Downsample` (napari/_vispy/vispy_image_layer.py:203-208): it changes no state.

## Findings

| source | as written | input that shows it | evidently intended | confidence | as-written member | corrected member |
|---|---|---|---|---|---|---|
| napari/layers/transforms.py:208-214 | `scale` is bound only when the coordinates have more axes than the scale vector, so every transform chain holding a scale as long as the rows also raises (`Transforms.ChainCallFailsOnScale`) | a one-axis scale `[2]` applied to the point `[3]` raises UnboundLocalError | pad with leading 1s when shorter, otherwise use the scale as is | not executed | Transforms.ScaleCallAsWritten | Transforms.ScaleCall |
| napari/layers/transforms.py:28-29 | `Transform.__init__` assigns `translate = None` and `scale = None`; on an affine these go through its property setters, and the scale setter evaluates `np.diag(None)` (line 279) | `Affine(A=np.eye(2))` raises ValueError at line 234 | the base defaults do not go through the affine's setters (set `A` and `b` first, or assign the base fields directly) | not executed | Transforms.AffineInitAsWritten | Transforms.MakeAffineCorrected |
| napari/layers/transforms.py:247-248 | latent behind the line 234 failure, showing once the constructor is repaired: a missing `b` defaults to `zeros(A.ndim)`, always length 2 for a matrix | the 3 by 3 identity without `b` fails validation with ValueError | a zero vector of length `A.shape[0]` | not executed | Transforms.MakeAffine | Transforms.MakeAffineCorrected |
| napari/layers/transforms.py:298-299 | latent behind the line 234 failure, since no affine can be built to slice: `A[axes, axes]` pairs the two index lists and yields a 1-D diagonal | any valid axes list gives a 1-D `A`, which the constructor rejects with ValueError | the square sub-matrix `A[np.ix_(axes, axes)]` | not executed | Transforms.AffineSetSlice | Transforms.AffineSetSliceCorrected |
| napari/components/_viewer/model.py:166-177 | the `active_markers` setter reads `_active_markers`, which `__init__` never assigns | setting active markers on a fresh viewer raises AttributeError | initialise `_active_markers` in `__init__` | not executed | LegacyViewer.ActiveMarkersFailsOnFreshViewer | LegacyViewer.ActiveMarkersRoundTrip |

=== FILE: box_edit.dfy ===
/** The corner arithmetic of the rectangles and ellipses layers' editing
    operations, which the two layers share line for line: the corners of a
    newly added box, a whole-box move with its clamping to the canvas, and
    a vertex move against the opposite, fixed corner. */
module BoxEdit {
  import opened Common
  import opened BoxGeometry

  /** Side of the default box added by a click, and the size a clamped box is reset to. */
  const DefaultExtent: real := 50.0

  // ---------------------------------------------------------------------
  // _add

  /** The two corners before clamping: a box of `DefaultExtent` centred on
      `coord`, or `coord` and the drag end with coordinates equal to
      `coord`'s moved one further on the displayed axes. */
  function Proposed(coord: Point, second: Option<Point>): (r: (Point, Point))
    requires |coord| >= 2 && (second.Some? ==> |second.value| == |coord|)
    ensures second.None? ==> |r.0| == 2 && |r.1| == 2
    ensures second.None? ==> forall k :: 0 <= k < 2 ==>
      r.0[k] + DefaultExtent / 2.0 == coord[k] && r.1[k] - DefaultExtent / 2.0 == coord[k]
    ensures second.Some? ==> r.0 == coord && |r.1| == |coord|
    ensures second.Some? ==> forall k :: 0 <= k < |coord| ==>
      r.1[k] == if k < 2 && second.value[k] == coord[k] then coord[k] + 1.0 else second.value[k]
  {
    match second
    case None => ([coord[0] - 25.0, coord[1] - 25.0], [coord[0] + 25.0, coord[1] + 25.0])
    case Some(b) =>
      var b0 := if b[0] == coord[0] then b[0 := coord[0] + 1.0] else b;
      var b1 := if b0[1] == coord[1] then b0[1 := coord[1] + 1.0] else b0;
      (coord, b1)
  }

  /** A corner past the last row or column moves the box to end there, `DefaultExtent` long. */
  function ClampHigh(c: (Point, Point), k: nat, m: real): (r: (Point, Point))
    requires k < |c.0| && k < |c.1|
    ensures |r.0| == |c.0| && |r.1| == |c.1|
    ensures c.1[k] > m - 1.0 ==> r.0[k] == m - 1.0 - DefaultExtent && r.1[k] == m - 1.0
    ensures c.1[k] <= m - 1.0 ==> r == c
    ensures forall j :: 0 <= j < |c.0| && j != k ==> r.0[j] == c.0[j]
    ensures forall j :: 0 <= j < |c.1| && j != k ==> r.1[j] == c.1[j]
  {
    if c.1[k] > m - 1.0 then (c.0[k := m - 1.0 - DefaultExtent], c.1[k := m - 1.0]) else c
  }

  /** A corner before the first row or column moves the box to start at 0, `DefaultExtent` long. */
  function ClampLow(c: (Point, Point), k: nat): (r: (Point, Point))
    requires k < |c.0| && k < |c.1|
    ensures |r.0| == |c.0| && |r.1| == |c.1|
    ensures c.0[k] < 0.0 ==> r.0[k] == 0.0 && r.1[k] == DefaultExtent
    ensures c.0[k] >= 0.0 ==> r == c
    ensures forall j :: 0 <= j < |c.0| && j != k ==> r.0[j] == c.0[j]
    ensures forall j :: 0 <= j < |c.1| && j != k ==> r.1[j] == c.1[j]
  {
    if c.0[k] < 0.0 then (c.0[k := 0.0], c.1[k := DefaultExtent]) else c
  }

  /** The corners `_add` appends: the proposed corners, clamped on axis 0
      then 1 at the far edge, then on axis 0 then 1 at the near edge. */
  function AddedCorners(coord: Point, second: Option<Point>, maxShape: seq<real>): (r: (Point, Point))
    requires |coord| >= 2 && (second.Some? ==> |second.value| == |coord|) && |maxShape| >= 2
    ensures |r.0| == |Proposed(coord, second).0| && |r.1| == |Proposed(coord, second).1|
  {
    var c := Proposed(coord, second);
    var c := ClampHigh(c, 0, maxShape[0]);
    var c := ClampHigh(c, 1, maxShape[1]);
    var c := ClampLow(c, 0);
    ClampLow(c, 1)
  }

  /** The corners on one displayed axis after the clamps: a box reset by a
      clamp is `DefaultExtent` long, and an untouched one keeps its proposed corners. */
  lemma AddedAxis(coord: Point, second: Option<Point>, maxShape: seq<real>, k: nat)
    requires |coord| >= 2 && (second.Some? ==> |second.value| == |coord|) && |maxShape| >= 2 && k < 2
    ensures var p := Proposed(coord, second);
      var r := AddedCorners(coord, second, maxShape);
      && (p.0[k] >= 0.0 && p.1[k] <= maxShape[k] - 1.0 ==> r.0[k] == p.0[k] && r.1[k] == p.1[k])
      && (p.1[k] > maxShape[k] - 1.0 && maxShape[k] - 1.0 - DefaultExtent >= 0.0 ==>
            r.0[k] == maxShape[k] - 1.0 - DefaultExtent && r.1[k] == maxShape[k] - 1.0)
      && (p.1[k] > maxShape[k] - 1.0 && maxShape[k] - 1.0 - DefaultExtent < 0.0 ==>
            r.0[k] == 0.0 && r.1[k] == DefaultExtent)
      && (p.1[k] <= maxShape[k] - 1.0 && p.0[k] < 0.0 ==> r.0[k] == 0.0 && r.1[k] == DefaultExtent)
  {
  }

  /** A click adds a box exactly `DefaultExtent` long on both displayed
      axes, centred on the click when it fits, and inside the canvas
      whenever the canvas is longer than `DefaultExtent`. */
  lemma DefaultBoxShape(coord: Point, maxShape: seq<real>)
    requires |coord| >= 2 && |maxShape| >= 2
    ensures var r := AddedCorners(coord, None, maxShape);
      forall k :: 0 <= k < 2 ==>
        && r.1[k] - r.0[k] == DefaultExtent
        && (maxShape[k] - 1.0 >= DefaultExtent ==> 0.0 <= r.0[k] && r.1[k] <= maxShape[k] - 1.0)
        && (coord[k] - 25.0 >= 0.0 && coord[k] + 25.0 <= maxShape[k] - 1.0 ==>
              r.0[k] == coord[k] - 25.0 && r.1[k] == coord[k] + 25.0)
  {
    forall k | 0 <= k < 2 {
      AddedAxis(coord, None, maxShape, k);
    }
  }

  /** A dragged box is never flat on a displayed axis, and keeps the drag's
      start and end on every other axis. */
  lemma DraggedBoxNotFlat(coord: Point, second: Point, maxShape: seq<real>)
    requires |coord| >= 2 && |second| == |coord| && |maxShape| >= 2
    ensures var r := AddedCorners(coord, Some(second), maxShape);
      && (forall k :: 0 <= k < 2 ==> r.0[k] != r.1[k])
      && (forall k :: 2 <= k < |coord| ==> r.0[k] == coord[k] && r.1[k] == second[k])
  {
    forall k | 0 <= k < 2 {
      AddedAxis(coord, Some(second), maxShape, k);
    }
  }

  // ---------------------------------------------------------------------
  // Whole-box _move

  /** Where a dragged box goes before clamping: centred on the cursor when
      no drag start is recorded, otherwise shifted by the cursor's motion
      since the drag start. */
  function Placed(box: Box, coord: Point, dragStart: Option<Point>): (r: (Point, Point))
    requires |box.p| >= 2 && |box.q| >= 2 && |coord| >= 2
    requires dragStart.Some? ==> |dragStart.value| >= 2
    ensures |r.0| == 2 && |r.1| == 2
    ensures forall k :: 0 <= k < 2 ==>
      r.1[k] - r.0[k] == Expand(box, RectangleOrder)[2][k] - Expand(box, RectangleOrder)[0][k]
    ensures dragStart.None? ==> forall k :: 0 <= k < 2 ==> (r.0[k] + r.1[k]) / 2.0 == coord[k]
    ensures dragStart.Some? ==> forall k :: 0 <= k < 2 ==>
      r.0[k] == Expand(box, RectangleOrder)[0][k] + (coord[k] - dragStart.value[k])
  {
    var c := Expand(box, RectangleOrder);
    match dragStart
    case None =>
      var h0 := (c[2][0] - c[0][0]) / 2.0;
      var h1 := (c[2][1] - c[0][1]) / 2.0;
      ([coord[0] - h0, coord[1] - h1], [coord[0] + h0, coord[1] + h1])
    case Some(d) =>
      ([c[0][0] - (d[0] - coord[0]), c[0][1] - (d[1] - coord[1])],
       [c[2][0] - (d[0] - coord[0]), c[2][1] - (d[1] - coord[1])])
  }

  /** A box starting before 0 on axis `k` is shifted to start at 0. */
  function ShiftIntoLow(c: (Point, Point), k: nat): (r: (Point, Point))
    requires |c.0| == 2 && |c.1| == 2 && k < 2
    ensures |r.0| == 2 && |r.1| == 2
    ensures r.1[k] - r.0[k] == c.1[k] - c.0[k] && r.0[k] >= 0.0
    ensures c.0[k] >= 0.0 ==> r == c
    ensures r.0[1 - k] == c.0[1 - k] && r.1[1 - k] == c.1[1 - k]
  {
    if c.0[k] < 0.0 then (c.0[k := 0.0], c.1[k := c.1[k] - c.0[k]]) else c
  }

  /** A box ending past `m - 1` on axis `k` is shifted to end there. */
  function ShiftIntoHigh(c: (Point, Point), k: nat, m: real): (r: (Point, Point))
    requires |c.0| == 2 && |c.1| == 2 && k < 2
    ensures |r.0| == 2 && |r.1| == 2
    ensures r.1[k] - r.0[k] == c.1[k] - c.0[k] && r.1[k] <= m - 1.0
    ensures c.1[k] <= m - 1.0 ==> r == c
    ensures r.0[1 - k] == c.0[1 - k] && r.1[1 - k] == c.1[1 - k]
  {
    if c.1[k] > m - 1.0 then (c.0[k := m - 1.0 - (c.1[k] - c.0[k])], c.1[k := m - 1.0]) else c
  }

  /** The corners a whole-box move stores: the placed box shifted back
      onto the canvas, first at the near edges, then at the far edges. */
  function MovedBox(box: Box, coord: Point, dragStart: Option<Point>, maxShape: seq<real>): (r: (Point, Point))
    requires |box.p| >= 2 && |box.q| >= 2 && |coord| >= 2 && |maxShape| >= 2
    requires dragStart.Some? ==> |dragStart.value| >= 2
    ensures |r.0| == 2 && |r.1| == 2
  {
    var c := Placed(box, coord, dragStart);
    var c := ShiftIntoLow(c, 0);
    var c := ShiftIntoLow(c, 1);
    var c := ShiftIntoHigh(c, 0, maxShape[0]);
    ShiftIntoHigh(c, 1, maxShape[1])
  }

  /** A whole-box move keeps the box's extent; the box lands within
      `[0, maxShape - 1]` on each displayed axis that is long enough for
      it; and a placement already on the canvas is not changed. */
  lemma MovedBoxStaysOnCanvas(box: Box, coord: Point, dragStart: Option<Point>, maxShape: seq<real>)
    requires |box.p| >= 2 && |box.q| >= 2 && |coord| >= 2 && |maxShape| >= 2
    requires dragStart.Some? ==> |dragStart.value| >= 2
    ensures var c := Expand(box, RectangleOrder);
      var r := MovedBox(box, coord, dragStart, maxShape);
      forall k :: 0 <= k < 2 ==>
        && r.1[k] - r.0[k] == c[2][k] - c[0][k]
        && (c[2][k] - c[0][k] <= maxShape[k] - 1.0 ==> 0.0 <= r.0[k] && r.1[k] <= maxShape[k] - 1.0)
    ensures var p := Placed(box, coord, dragStart);
      (forall k :: 0 <= k < 2 ==> 0.0 <= p.0[k] && p.1[k] <= maxShape[k] - 1.0) ==>
        MovedBox(box, coord, dragStart, maxShape) == p
  {
  }

  // ---------------------------------------------------------------------
  // Vertex _move

  /** The opposite corner of vertex `v` in the rectangles' corner order. */
  function Opposite(v: nat): nat
  {
    (v + 2) % 4
  }

  /** Corners `v` and `(v + 2) % 4` lie on opposite sides of both axes. */
  lemma OppositeSides(order: Order, v: nat, k: nat)
    requires v < 4 && k < 2
    ensures OnMaxSide(order, Opposite(v), k) <==> !OnMaxSide(order, v, k)
  {
  }

  /** The dragged corner of a vertex move: the cursor, moved one step
      toward vertex `v`'s own side on any displayed axis where it is level
      with the fixed corner. */
  function DraggedCorner(coord: Point, fixed: Point, v: nat): (r: Point)
    requires |coord| >= 2 && |fixed| >= 2
    ensures |r| == |coord|
    ensures forall k :: 0 <= k < 2 ==> r[k] != fixed[k]
    ensures forall k :: 0 <= k < 2 && coord[k] != fixed[k] ==> r[k] == coord[k]
    ensures forall k :: 0 <= k < 2 && coord[k] == fixed[k] ==>
      r[k] == if OnMaxSide(RectangleOrder, v, k) then fixed[k] + 1.0 else fixed[k] - 1.0
    ensures forall k :: 2 <= k < |coord| ==> r[k] == coord[k]
  {
    var c0 := if coord[0] == fixed[0] then coord[0 := if v == 1 || v == 2 then coord[0] + 1.0 else coord[0] - 1.0] else coord;
    if c0[1] == fixed[1] then c0[1 := if v == 2 || v == 3 then c0[1] + 1.0 else c0[1] - 1.0] else c0
  }

  /** When the cursor stays on vertex `v`'s side of the fixed corner (or
      level with it), the new box has the dragged corner as vertex `v` and
      the fixed corner as the opposite vertex, so the selected vertex index
      still names the corner under the cursor. */
  lemma VertexKeepsItsIndex(coord: Point, fixed: Point, v: nat)
    requires |coord| >= 2 && |fixed| == 2 && v < 4
    requires forall k :: 0 <= k < 2 ==>
      coord[k] == fixed[k] || (coord[k] > fixed[k] <==> OnMaxSide(RectangleOrder, v, k))
    ensures var r := DraggedCorner(coord, fixed, v);
      var c := Expand(Box(r, fixed), RectangleOrder);
      c[v] == r[..2] && c[Opposite(v)] == fixed
  {
    var r := DraggedCorner(coord, fixed, v);
    var c := Expand(Box(r, fixed), RectangleOrder);
    OppositeSides(RectangleOrder, v, 0);
    OppositeSides(RectangleOrder, v, 1);
    assert c[v][0] == r[0] && c[v][1] == r[1];
    assert c[Opposite(v)][0] == fixed[0] && c[Opposite(v)][1] == fixed[1];
  }
}

=== FILE: box_geometry.dfy ===
/** Geometry shared by the three box annotation layers (rectangles,
    ellipses and the plain box layer): a box is stored as two opposite
    corners over all data axes; only the first two axes are displayed, the
    remaining axes place the box in one slice. This module defines the
    four-corner expansion, slicing by the non-displayed indices, the
    hit test (vertex first, then containment) and the data shape. */
module BoxGeometry {
  import opened Common

  type Point = seq<real>

  /** Two opposite corners as stored in the layer's `(N, 2, D)` data array. */
  datatype Box = Box(p: Point, q: Point)

  /** What a hit test selects: a box by its index in the full data, and
      the vertex under the cursor when one is hit. */
  datatype Selection = Selection(index: nat, vertex: Option<nat>)

  /** The layer data is an `(N, 2, dim)` array with at least the two displayed axes. */
  predicate WellFormed(data: seq<Box>, dim: nat)
  {
    dim >= 2 && forall i :: 0 <= i < |data| ==> |data[i].p| == dim && |data[i].q| == dim
  }

  /** `data` without its `i`-th box (`np.delete(data, i, axis=0)`). */
  function Delete(data: seq<Box>, i: nat): (r: seq<Box>)
    requires i < |data|
    ensures |r| == |data| - 1
    ensures forall j :: 0 <= j < i ==> r[j] == data[j]
    ensures forall j :: i <= j < |r| ==> r[j] == data[j + 1]
    ensures forall dim: nat :: WellFormed(data, dim) ==> WellFormed(r, dim)
  {
    data[..i] + data[i + 1..]
  }

  // ---------------------------------------------------------------------
  // Four-corner expansion

  /** The rectangles and ellipses layers list the corners as top-left,
      (max, min), bottom-right, (min, max); the box layer lists
      (min, max) second and (max, min) fourth. */
  datatype Order = RectangleOrder | BoxLayerOrder

  /** Whether corner `v` of the expansion sits on the larger side of
      displayed axis `k`. Corner 0 is always the all-minimum corner and
      corner 2 the all-maximum one. */
  predicate OnMaxSide(order: Order, v: nat, k: nat)
  {
    match order
    case RectangleOrder => if k == 0 then v == 1 || v == 2 else v == 2 || v == 3
    case BoxLayerOrder => if k == 0 then v == 2 || v == 3 else v == 1 || v == 2
  }

  /** `_expand_box`: the four corners of the axis-aligned rectangle spanned
      by the two stored corners on the displayed axes. */
  function Expand(b: Box, order: Order): (c: seq<Point>)
    requires |b.p| >= 2 && |b.q| >= 2
    ensures |c| == 4
    ensures forall v :: 0 <= v < 4 ==> |c[v]| == 2
    ensures forall v, k :: 0 <= v < 4 && 0 <= k < 2 ==>
      c[v][k] == if OnMaxSide(order, v, k) then MaxReal(b.p[k], b.q[k]) else MinReal(b.p[k], b.q[k])
  {
    var lo0 := MinReal(b.p[0], b.q[0]);
    var lo1 := MinReal(b.p[1], b.q[1]);
    var hi0 := MaxReal(b.p[0], b.q[0]);
    var hi1 := MaxReal(b.p[1], b.q[1]);
    match order
    case RectangleOrder => [[lo0, lo1], [hi0, lo1], [hi0, hi1], [lo0, hi1]]
    case BoxLayerOrder => [[lo0, lo1], [lo0, hi1], [hi0, hi1], [hi0, lo1]]
  }

  /** The expansion does not depend on which stored corner comes first. */
  lemma ExpandSymmetric(b: Box, order: Order)
    requires |b.p| >= 2 && |b.q| >= 2
    ensures Expand(Box(b.q, b.p), order) == Expand(b, order)
  {
    var c := Expand(b, order);
    var d := Expand(Box(b.q, b.p), order);
    forall v | 0 <= v < 4 ensures d[v] == c[v] {
      assert d[v][0] == c[v][0] && d[v][1] == c[v][1];
    }
  }

  /** Every vertex lies within the box (corner 0 is the smallest and corner
      2 the largest on both displayed axes), and the pairs `v`, `(v + 2) % 4`
      are opposite: together they hold both ends of each axis. */
  lemma ExpandSpansBox(b: Box, order: Order)
    requires |b.p| >= 2 && |b.q| >= 2
    ensures var c := Expand(b, order); forall v :: 0 <= v < 4 ==> Contains(c, c[v])
    ensures var c := Expand(b, order);
      forall k :: 0 <= k < 2 ==>
        var ends := {MinReal(b.p[k], b.q[k]), MaxReal(b.p[k], b.q[k])};
        {c[0][k], c[2][k]} == ends && {c[1][k], c[3][k]} == ends
  {
  }

  /** Both stored corners (on the displayed axes) are among the four vertices. */
  lemma StoredCornersAreVertices(b: Box, order: Order)
    requires |b.p| >= 2 && |b.q| >= 2
    ensures exists v :: 0 <= v < 4 && Expand(b, order)[v] == b.p[..2]
    ensures exists v :: 0 <= v < 4 && Expand(b, order)[v] == b.q[..2]
  {
    var c := Expand(b, order);
    var vp := VertexOf(order, b.p[0] == MaxReal(b.p[0], b.q[0]), b.p[1] == MaxReal(b.p[1], b.q[1]));
    var vq := VertexOf(order, b.q[0] == MaxReal(b.p[0], b.q[0]), b.q[1] == MaxReal(b.p[1], b.q[1]));
    assert c[vp] == b.p[..2] by {
      assert c[vp][0] == b.p[0] && c[vp][1] == b.p[1];
    }
    assert c[vq] == b.q[..2] by {
      assert c[vq][0] == b.q[0] && c[vq][1] == b.q[1];
    }
  }

  /** The vertex lying on the given sides of the two displayed axes. */
  function VertexOf(order: Order, max0: bool, max1: bool): (v: nat)
    ensures v < 4 && (OnMaxSide(order, v, 0) <==> max0) && (OnMaxSide(order, v, 1) <==> max1)
  {
    match order
    case RectangleOrder => if max0 then (if max1 then 2 else 1) else (if max1 then 3 else 0)
    case BoxLayerOrder => if max0 then (if max1 then 2 else 3) else (if max1 then 1 else 0)
  }

  /** The box layer's order is the rectangles' order with corners 1 and 3 exchanged. */
  lemma BoxLayerOrderSwapsSides(b: Box)
    requires |b.p| >= 2 && |b.q| >= 2
    ensures var r := Expand(b, RectangleOrder);
      Expand(b, BoxLayerOrder) == [r[0], r[3], r[2], r[1]]
  {
    var r := Expand(b, RectangleOrder);
    var s := Expand(b, BoxLayerOrder);
    assert s[1] == r[3] by { assert s[1][0] == r[3][0] && s[1][1] == r[3][1]; }
    assert s[3] == r[1] by { assert s[3][0] == r[1][0] && s[3][1] == r[1][1]; }
  }

  // ---------------------------------------------------------------------
  // Slicing

  /** Both corners lie in the slice: they equal `indices` on every non-displayed axis. */
  predicate InSlice(b: Box, indices: Point)
    requires |b.p| == |indices| && |b.q| == |indices|
  {
    forall k :: 2 <= k < |indices| ==> b.p[k] == indices[k] && b.q[k] == indices[k]
  }

  /** The box restricted to the displayed axes (`coords[..., :2]`). */
  function Project(b: Box): (r: Box)
    requires |b.p| >= 2 && |b.q| >= 2
    ensures |r.p| == 2 && |r.q| == 2
    ensures r.p == b.p[..2] && r.q == b.q[..2]
  {
    Box(b.p[..2], b.q[..2])
  }

  /** `mask.nonzero()[0]`: the positions holding `true`, in increasing order. */
  function Nonzero(mask: seq<bool>): (idx: seq<nat>)
    ensures forall j :: 0 <= j < |idx| ==> idx[j] < |mask| && mask[idx[j]]
    ensures forall j, j' :: 0 <= j < j' < |idx| ==> idx[j] < idx[j']
    ensures forall i :: 0 <= i < |mask| && mask[i] ==> exists j :: 0 <= j < |idx| && idx[j] == i
  {
    if mask == [] then []
    else
      var n := |mask| - 1;
      var rest := Nonzero(mask[..n]);
      assert forall i :: 0 <= i < n ==> mask[..n][i] == mask[i];
      if mask[n] then
        var r := rest + [n];
        assert forall j :: 0 <= j < |rest| ==> r[j] == rest[j];
        assert r[|rest|] == n;
        r
      else rest
  }

  /** A later position in the nonzero list is a later data index, and back. */
  lemma NonzeroMonotone(mask: seq<bool>, j: nat, j': nat)
    requires j < |Nonzero(mask)| && j' < |Nonzero(mask)|
    ensures j < j' <==> Nonzero(mask)[j] < Nonzero(mask)[j']
  {
  }

  /** The per-box slice mask. */
  function SliceMask(data: seq<Box>, dim: nat, indices: Point): (m: seq<bool>)
    requires WellFormed(data, dim) && |indices| == dim
    ensures |m| == |data| && forall i :: 0 <= i < |data| ==> (m[i] <==> InSlice(data[i], indices))
  {
    seq(|data|, i requires 0 <= i < |data| => InSlice(data[i], indices))
  }

  /** `_slice_boxes`: the in-slice boxes restricted to the displayed axes,
      in data order, and the mask over the full data; empty results for empty data. */
  function SliceBoxes(data: seq<Box>, dim: nat, indices: Point): (r: (seq<Box>, seq<bool>))
    requires WellFormed(data, dim) && |indices| == dim
    ensures data == [] ==> r.0 == [] && r.1 == []
    ensures |r.1| == |data| && forall i :: 0 <= i < |data| ==> (r.1[i] <==> InSlice(data[i], indices))
    ensures |r.0| == |Nonzero(r.1)|
    ensures forall j :: 0 <= j < |r.0| ==> r.0[j] == Project(data[Nonzero(r.1)[j]])
  {
    if |data| > 0 then
      var mask := SliceMask(data, dim, indices);
      var idx := Nonzero(mask);
      (seq(|idx|, j requires 0 <= j < |idx| => Project(data[idx[j]])), mask)
    else ([], [])
  }

  /** Every box of two-dimensional data is in every slice, so slicing keeps all boxes in order. */
  lemma SliceTwoDimensional(data: seq<Box>, indices: Point)
    requires WellFormed(data, 2) && |indices| == 2
    ensures SliceBoxes(data, 2, indices).0 == data
  {
    var r := SliceBoxes(data, 2, indices);
    EveryBoxInPlaneSlice(data, indices);
    AllTrueNonzero(r.1);
    ProjectAll(data, r.0, Nonzero(r.1));
  }

  lemma EveryBoxInPlaneSlice(data: seq<Box>, indices: Point)
    requires WellFormed(data, 2) && |indices| == 2
    ensures forall i :: 0 <= i < |data| ==> SliceBoxes(data, 2, indices).1[i]
  {
  }

  lemma ProjectAll(data: seq<Box>, boxes: seq<Box>, idx: seq<nat>)
    requires WellFormed(data, 2) && |boxes| == |idx| == |data|
    requires forall j :: 0 <= j < |idx| ==> idx[j] == j
    requires forall j :: 0 <= j < |boxes| ==> idx[j] < |data| && boxes[j] == Project(data[idx[j]])
    ensures boxes == data
  {
    forall j | 0 <= j < |data| ensures boxes[j] == data[j] {
      ProjectTwo(data[j]);
    }
  }

  /** A box with two coordinates per corner is its own projection. */
  lemma ProjectTwo(b: Box)
    requires |b.p| == 2 && |b.q| == 2
    ensures Project(b) == b
  {
    assert b.p[..2] == b.p && b.q[..2] == b.q;
  }

  lemma {:induction false} AllTrueNonzero(mask: seq<bool>)
    requires forall i :: 0 <= i < |mask| ==> mask[i]
    ensures |Nonzero(mask)| == |mask|
    ensures forall j :: 0 <= j < |mask| ==> Nonzero(mask)[j] == j
  {
    if mask != [] {
      var n := |mask| - 1;
      AllTrueNonzero(mask[..n]);
    }
  }

  // ---------------------------------------------------------------------
  // Hit test

  /** The cursor is within half a vertex size of corner `c` on both displayed axes. */
  predicate VertexHit(c: Point, pt: Point, half: real)
    requires |c| >= 2 && |pt| >= 2
  {
    Abs(pt[0] - c[0]) <= half && Abs(pt[1] - c[1]) <= half
  }

  /** The cursor lies between the minimum corner and the maximum corner. */
  predicate Contains(c: seq<Point>, pt: Point)
    requires |c| == 4 && |c[0]| == 2 && |c[2]| == 2 && |pt| >= 2
  {
    c[0][0] <= pt[0] <= c[2][0] && c[0][1] <= pt[1] <= c[2][1]
  }

  predicate AnyVertexHit(c: seq<Point>, pt: Point, half: real)
    requires |c| == 4 && (forall v :: 0 <= v < 4 ==> |c[v]| == 2) && |pt| >= 2
  {
    exists v :: 0 <= v < 4 && VertexHit(c[v], pt, half)
  }

  /** The last of the first `n` corners that the cursor hits. */
  function LastVertex(c: seq<Point>, pt: Point, half: real, n: nat): (r: Option<nat>)
    requires n <= |c| && (forall v :: 0 <= v < |c| ==> |c[v]| == 2) && |pt| >= 2
    ensures r.Some? ==> r.value < n && VertexHit(c[r.value], pt, half)
    ensures r.Some? ==> forall w :: r.value < w < n ==> !VertexHit(c[w], pt, half)
    ensures r.None? ==> forall w :: 0 <= w < n ==> !VertexHit(c[w], pt, half)
  {
    if n == 0 then None
    else if VertexHit(c[n - 1], pt, half) then Some(n - 1)
    else LastVertex(c, pt, half, n - 1)
  }

  /** Expanded corner lists, one per in-slice box. */
  predicate CornerLists(e: seq<seq<Point>>)
  {
    forall j :: 0 <= j < |e| ==> |e[j]| == 4 && forall v :: 0 <= v < 4 ==> |e[j][v]| == 2
  }

  /** The last (box, vertex) pair among the first `n` boxes with a vertex hit:
      the largest box position, then its largest vertex (`nonzero()[-1]`). */
  function LastBoxVertex(e: seq<seq<Point>>, pt: Point, half: real, n: nat): (r: Option<(nat, nat)>)
    requires n <= |e| && CornerLists(e) && |pt| >= 2
    ensures r.Some? ==> r.value.0 < n && r.value.1 < 4
    ensures r.Some? ==> LastVertex(e[r.value.0], pt, half, 4) == Some(r.value.1)
    ensures r.Some? ==> forall j :: r.value.0 < j < n ==> !AnyVertexHit(e[j], pt, half)
    ensures r.None? ==> forall j :: 0 <= j < n ==> !AnyVertexHit(e[j], pt, half)
  {
    if n == 0 then None
    else
      match LastVertex(e[n - 1], pt, half, 4)
      case Some(v) => Some((n - 1, v))
      case None => LastBoxVertex(e, pt, half, n - 1)
  }

  /** The last of the first `n` boxes that contains the cursor. */
  function LastContaining(e: seq<seq<Point>>, pt: Point, n: nat): (r: Option<nat>)
    requires n <= |e| && CornerLists(e) && |pt| >= 2
    ensures r.Some? ==> r.value < n && Contains(e[r.value], pt)
    ensures r.Some? ==> forall j :: r.value < j < n ==> !Contains(e[j], pt)
    ensures r.None? ==> forall j :: 0 <= j < n ==> !Contains(e[j], pt)
  {
    if n == 0 then None
    else if Contains(e[n - 1], pt) then Some(n - 1)
    else LastContaining(e, pt, n - 1)
  }

  /** The four corners of stored box `b` as the layer displays them. */
  function Corners(b: Box, order: Order): (c: seq<Point>)
    requires |b.p| >= 2 && |b.q| >= 2
    ensures |c| == 4 && forall v :: 0 <= v < 4 ==> |c[v]| == 2
  {
    Expand(Project(b), order)
  }

  /** Box `i` is in the slice and one of its vertices is under the cursor. */
  predicate SliceVertexHit(data: seq<Box>, dim: nat, indices: Point, half: real, order: Order, i: int)
    requires WellFormed(data, dim) && |indices| == dim
  {
    0 <= i < |data| && InSlice(data[i], indices) && AnyVertexHit(Corners(data[i], order), indices, half)
  }

  /** Box `i` is in the slice and contains the cursor. */
  predicate SliceContains(data: seq<Box>, dim: nat, indices: Point, order: Order, i: int)
    requires WellFormed(data, dim) && |indices| == dim
  {
    0 <= i < |data| && InSlice(data[i], indices) && Contains(Corners(data[i], order), indices)
  }

  /** `_get_selected_shapes` / `_set_selected_boxes`: among the boxes in the
      slice of `indices`, the last one with a vertex within `half` of the
      cursor wins, with its last such vertex; failing that, the last box
      containing the cursor, with no vertex; failing that, nothing. Indices
      refer to the full data. */
  function HitTest(data: seq<Box>, dim: nat, indices: Point, half: real, order: Order): (r: Option<Selection>)
    requires WellFormed(data, dim) && |indices| == dim
    ensures r.Some? ==> r.value.index < |data| && InSlice(data[r.value.index], indices)
    ensures (r.Some? && r.value.vertex.Some?) <==> exists i :: SliceVertexHit(data, dim, indices, half, order, i)
    ensures r.Some? && r.value.vertex.Some? ==>
      && LastVertex(Corners(data[r.value.index], order), indices, half, 4) == r.value.vertex
      && forall i :: r.value.index < i ==> !SliceVertexHit(data, dim, indices, half, order, i)
    ensures r.Some? && r.value.vertex.None? ==>
      && Contains(Corners(data[r.value.index], order), indices)
      && forall i :: r.value.index < i ==> !SliceContains(data, dim, indices, order, i)
    ensures r.None? ==> forall i :: !SliceContains(data, dim, indices, order, i)
  {
    var (boxes, mask) := SliceBoxes(data, dim, indices);
    if |boxes| > 0 then
      var e := seq(|boxes|, j requires 0 <= j < |boxes| => Expand(boxes[j], order));
      assert SliceCorners(data, dim, indices, order, mask, e);
      HitFromSlice(data, dim, indices, half, order, mask, e)
    else
      NothingInSlice(data, dim, indices, mask);
      None
  }

  /** `_get_selected_shapes` / `_set_selected_boxes` of the rectangles and
      ellipses layers: the hit test in rectangle corner order, with half the
      vertex size as tolerance. */
  function SelectedAt(data: seq<Box>, dim: nat, size: real, coord: Point): (r: Option<Selection>)
    requires WellFormed(data, dim) && |coord| == dim
    ensures r.Some? ==> r.value.index < |data| && InSlice(data[r.value.index], coord)
    ensures r.Some? && r.value.vertex.Some? ==> r.value.vertex.value < 4
  {
    HitTest(data, dim, coord, size / 2.0, RectangleOrder)
  }

  /** The hit test on the expanded corner lists `e` of the in-slice boxes,
      with the winning slice position mapped back to its data index. */
  function HitFromSlice(data: seq<Box>, dim: nat, indices: Point, half: real, order: Order,
                        mask: seq<bool>, e: seq<seq<Point>>): (r: Option<Selection>)
    requires WellFormed(data, dim) && |indices| == dim && CornerLists(e)
    requires SliceCorners(data, dim, indices, order, mask, e)
    ensures r.Some? ==> r.value.index < |data| && InSlice(data[r.value.index], indices)
    ensures (r.Some? && r.value.vertex.Some?) <==> exists i :: SliceVertexHit(data, dim, indices, half, order, i)
    ensures r.Some? && r.value.vertex.Some? ==>
      && LastVertex(Corners(data[r.value.index], order), indices, half, 4) == r.value.vertex
      && forall i :: r.value.index < i ==> !SliceVertexHit(data, dim, indices, half, order, i)
    ensures r.Some? && r.value.vertex.None? ==>
      && Contains(Corners(data[r.value.index], order), indices)
      && forall i :: r.value.index < i ==> !SliceContains(data, dim, indices, order, i)
    ensures r.None? ==> forall i :: !SliceContains(data, dim, indices, order, i)
  {
    var idx := Nonzero(mask);
    match LastBoxVertex(e, indices, half, |e|)
    case Some((j, v)) =>
      assert VertexHit(e[j][v], indices, half);
      assert SliceVertexHit(data, dim, indices, half, order, idx[j]);
      VertexHitIsLast(data, dim, indices, half, order, mask, e, j);
      Some(Selection(idx[j], Some(v)))
    case None =>
      NoVertexHitInSlice(data, dim, indices, half, order, mask, e);
      match LastContaining(e, indices, |e|)
      case Some(j) =>
        ContainingIsLast(data, dim, indices, order, mask, e, j);
        Some(Selection(idx[j], None))
      case None =>
        NoContainingInSlice(data, dim, indices, order, mask, e);
        None
  }

  lemma NothingInSlice(data: seq<Box>, dim: nat, indices: Point, mask: seq<bool>)
    requires WellFormed(data, dim) && |indices| == dim
    requires mask == SliceMask(data, dim, indices) && |Nonzero(mask)| == 0
    ensures forall i :: 0 <= i < |data| ==> !InSlice(data[i], indices)
  {
  }

  /** Every in-slice data index sits at some position of the slice list. */
  lemma InSlicePosition(data: seq<Box>, dim: nat, indices: Point, mask: seq<bool>, i: nat)
    requires WellFormed(data, dim) && |indices| == dim
    requires mask == SliceMask(data, dim, indices)
    requires i < |data| && InSlice(data[i], indices)
    ensures exists j :: 0 <= j < |Nonzero(mask)| && Nonzero(mask)[j] == i
  {
    var idx := Nonzero(mask);
    assert mask[i];
    assert exists j :: 0 <= j < |idx| && idx[j] == i;
  }

  /** An in-slice data index beyond the one at position `j` sits at a later position. */
  lemma LaterPosition(data: seq<Box>, dim: nat, indices: Point, mask: seq<bool>, j: nat, i: nat)
    requires WellFormed(data, dim) && |indices| == dim
    requires mask == SliceMask(data, dim, indices)
    requires j < |Nonzero(mask)| && Nonzero(mask)[j] < i < |data| && InSlice(data[i], indices)
    ensures exists j' :: j < j' < |Nonzero(mask)| && Nonzero(mask)[j'] == i
  {
    InSlicePosition(data, dim, indices, mask, i);
    var j' :| 0 <= j' < |Nonzero(mask)| && Nonzero(mask)[j'] == i;
    NonzeroMonotone(mask, j, j');
  }

  /** The corner lists of the in-slice boxes, in slice order. */
  predicate SliceCorners(data: seq<Box>, dim: nat, indices: Point, order: Order, mask: seq<bool>, e: seq<seq<Point>>)
    requires WellFormed(data, dim) && |indices| == dim
  {
    && mask == SliceMask(data, dim, indices)
    && |e| == |Nonzero(mask)|
    && forall j :: 0 <= j < |e| ==> e[j] == Corners(data[Nonzero(mask)[j]], order)
  }

  /** No in-slice box at all satisfies `P` when no slice position does: for vertex hits. */
  lemma NoVertexHitInSlice(data: seq<Box>, dim: nat, indices: Point, half: real, order: Order,
                           mask: seq<bool>, e: seq<seq<Point>>)
    requires WellFormed(data, dim) && |indices| == dim && CornerLists(e)
    requires SliceCorners(data, dim, indices, order, mask, e)
    requires forall j :: 0 <= j < |e| ==> !AnyVertexHit(e[j], indices, half)
    ensures forall i :: !SliceVertexHit(data, dim, indices, half, order, i)
  {
    forall i | 0 <= i < |data|
      ensures !SliceVertexHit(data, dim, indices, half, order, i)
    {
      if InSlice(data[i], indices) {
        InSlicePosition(data, dim, indices, mask, i);
      }
    }
  }

  /** The same for containment. */
  lemma NoContainingInSlice(data: seq<Box>, dim: nat, indices: Point, order: Order,
                            mask: seq<bool>, e: seq<seq<Point>>)
    requires WellFormed(data, dim) && |indices| == dim && CornerLists(e)
    requires SliceCorners(data, dim, indices, order, mask, e)
    requires forall j :: 0 <= j < |e| ==> !Contains(e[j], indices)
    ensures forall i :: !SliceContains(data, dim, indices, order, i)
  {
    forall i | 0 <= i < |data|
      ensures !SliceContains(data, dim, indices, order, i)
    {
      if InSlice(data[i], indices) {
        InSlicePosition(data, dim, indices, mask, i);
      }
    }
  }

  /** A vertex hit at slice position `j` is the last one among the data's in-slice boxes. */
  lemma VertexHitIsLast(data: seq<Box>, dim: nat, indices: Point, half: real, order: Order,
                        mask: seq<bool>, e: seq<seq<Point>>, j: nat)
    requires WellFormed(data, dim) && |indices| == dim && CornerLists(e)
    requires SliceCorners(data, dim, indices, order, mask, e) && j < |e|
    requires forall j' :: j < j' < |e| ==> !AnyVertexHit(e[j'], indices, half)
    ensures forall i :: Nonzero(mask)[j] < i ==> !SliceVertexHit(data, dim, indices, half, order, i)
  {
    forall i | Nonzero(mask)[j] < i < |data|
      ensures !SliceVertexHit(data, dim, indices, half, order, i)
    {
      if InSlice(data[i], indices) {
        LaterPosition(data, dim, indices, mask, j, i);
      }
    }
  }

  /** A containing box at slice position `j` is the last one among the data's in-slice boxes. */
  lemma ContainingIsLast(data: seq<Box>, dim: nat, indices: Point, order: Order,
                         mask: seq<bool>, e: seq<seq<Point>>, j: nat)
    requires WellFormed(data, dim) && |indices| == dim && CornerLists(e)
    requires SliceCorners(data, dim, indices, order, mask, e) && j < |e|
    requires forall j' :: j < j' < |e| ==> !Contains(e[j'], indices)
    ensures forall i :: Nonzero(mask)[j] < i ==> !SliceContains(data, dim, indices, order, i)
  {
    forall i | Nonzero(mask)[j] < i < |data|
      ensures !SliceContains(data, dim, indices, order, i)
    {
      if InSlice(data[i], indices) {
        LaterPosition(data, dim, indices, mask, j, i);
      }
    }
  }


  /** A box's own vertices hit: with the cursor exactly on a vertex of the
      last in-slice box and a non-negative vertex size, a vertex of that box is selected. */
  lemma CursorOnVertexSelectsIt(data: seq<Box>, dim: nat, indices: Point, half: real, order: Order, v: nat)
    requires WellFormed(data, dim) && |indices| == dim && |data| > 0 && half >= 0.0 && v < 4
    requires InSlice(data[|data| - 1], indices)
    requires Corners(data[|data| - 1], order)[v] == indices[..2]
    ensures var r := HitTest(data, dim, indices, half, order);
      r.Some? && r.value.index == |data| - 1 && r.value.vertex.Some? && r.value.vertex.value >= v
  {
    var c := Corners(data[|data| - 1], order);
    assert c[v][0] == indices[0] && c[v][1] == indices[1];
    assert VertexHit(c[v], indices, half);
  }

  // ---------------------------------------------------------------------
  // Data shape

  /** Some box among the first `n` has a corner with value `m` on axis `k`. */
  predicate Attained(data: seq<Box>, dim: nat, k: nat, n: nat, m: real)
    requires WellFormed(data, dim) && k < dim && n <= |data|
  {
    exists i :: 0 <= i < n && (data[i].p[k] == m || data[i].q[k] == m)
  }

  /** The largest value on axis `k` over the first `n` boxes (both corners). */
  function AxisMax(data: seq<Box>, dim: nat, k: nat, n: nat): (m: real)
    requires WellFormed(data, dim) && k < dim && 0 < n <= |data|
    ensures forall i :: 0 <= i < n ==> data[i].p[k] <= m && data[i].q[k] <= m
    ensures Attained(data, dim, k, n, m)
  {
    var here := MaxReal(data[n - 1].p[k], data[n - 1].q[k]);
    if n == 1 then here
    else MaxReal(AxisMax(data, dim, k, n - 1), here)
  }

  /** `_get_shape`: one past the largest coordinate on every axis, or ones
      for every axis when there are no boxes. */
  function GetShape(data: seq<Box>, dim: nat): (s: seq<real>)
    requires WellFormed(data, dim)
    ensures |s| == dim
    ensures data == [] ==> forall k :: 0 <= k < dim ==> s[k] == 1.0
    ensures forall i, k :: 0 <= i < |data| && 0 <= k < dim ==> data[i].p[k] + 1.0 <= s[k] && data[i].q[k] + 1.0 <= s[k]
    ensures data != [] ==> forall k :: 0 <= k < dim ==> Attained(data, dim, k, |data|, s[k] - 1.0)
  {
    if |data| == 0 then seq(dim, _ => 1.0)
    else seq(dim, k requires 0 <= k < dim => AxisMax(data, dim, k, |data|) + 1.0)
  }

  // ---------------------------------------------------------------------
  // Status message

  /** The pieces of a `get_value` status message. */
  datatype Field = CoordField(coord: Point) | NameField(name: string) | IndexField(index: nat) | VertexField(vertex: nat)

  /** `coord` with its first two entries exchanged (`coord_shift`). */
  function SwapDisplayed(coord: Point): (r: Point)
    requires |coord| >= 2
    ensures |r| == |coord| && r[0] == coord[1] && r[1] == coord[0]
    ensures forall k :: 2 <= k < |coord| ==> r[k] == coord[k]
  {
    [coord[1], coord[0]] + coord[2..]
  }

  /** `get_value`'s message: the coordinate (swapped on the displayed axes
      by the rectangles and ellipses layers), then the layer name and box
      index when a box is selected, then the vertex when one is hit. */
  function Message(coord: Point, swap: bool, name: string, value: Option<Selection>): (msg: seq<Field>)
    requires |coord| >= 2
    ensures |msg| >= 1 && msg[0] == CoordField(if swap then SwapDisplayed(coord) else coord)
    ensures value.None? <==> |msg| == 1
    ensures value.Some? ==> |msg| >= 3 && msg[1] == NameField(name) && msg[2] == IndexField(value.value.index)
    ensures value.Some? ==> (value.value.vertex.Some? <==> |msg| == 4)
    ensures |msg| == 4 ==> msg[3] == VertexField(value.value.vertex.value)
  {
    var head := [CoordField(if swap then SwapDisplayed(coord) else coord)];
    match value
    case None => head
    case Some(Selection(i, None)) => head + [NameField(name), IndexField(i)]
    case Some(Selection(i, Some(v))) => head + [NameField(name), IndexField(i), VertexField(v)]
  }

  /** Reads the selection back out of a status message. */
  function SelectionOf(msg: seq<Field>): Option<Selection>
  {
    if |msg| >= 3 && msg[2].IndexField? then
      Some(Selection(msg[2].index, if |msg| >= 4 && msg[3].VertexField? then Some(msg[3].vertex) else None))
    else None
  }

  /** The message carries the whole selection: it can be read back. */
  lemma MessageRecoversSelection(coord: Point, swap: bool, name: string, value: Option<Selection>)
    requires |coord| >= 2
    ensures SelectionOf(Message(coord, swap, name, value)) == value
  {
  }

  /** `get_value`: the selection under the cursor and the status message describing it. */
  function GetValue(data: seq<Box>, dim: nat, coord: Point, half: real, order: Order, swap: bool, name: string)
    : (r: (Point, Option<Selection>, seq<Field>))
    requires WellFormed(data, dim) && |coord| == dim
    ensures r.0 == coord && r.1 == HitTest(data, dim, coord, half, order)
    ensures r.2 == Message(coord, swap, name, r.1) && SelectionOf(r.2) == r.1
  {
    var value := HitTest(data, dim, coord, half, order);
    MessageRecoversSelection(coord, swap, name, value);
    (coord, value, Message(coord, swap, name, value))
  }
}

=== FILE: box_layer.dfy ===
/** The box layer: boxes stored as two corners over all axes, sliced and
    hit-tested like the rectangles layer but with its corners listed
    (min, min), (min, max), (max, max), (max, min). It has no editing
    operations of its own. */
module BoxLayer {
  import opened Common
  import opened BoxGeometry

  datatype Layer = Layer(
    coords: seq<Box>,
    dim: nat,
    size: real,
    name: string,
    selected: Option<Selection>)

  /** `_set_selected_boxes`: the hit test in the box layer's corner order,
      stored as the selection; nothing else changes. */
  function SetSelectedBoxes(l: Layer, coord: Point): (r: Layer)
    requires WellFormed(l.coords, l.dim) && |coord| == l.dim
    ensures r == l.(selected := r.selected)
    ensures r.selected.Some? ==> r.selected.value.index < |l.coords| && InSlice(l.coords[r.selected.value.index], coord)
    ensures r.selected.Some? && r.selected.value.vertex.Some? ==> r.selected.value.vertex.value < 4
    ensures r.selected.None? ==> forall i :: !SliceContains(l.coords, l.dim, coord, BoxLayerOrder, i)
  {
    l.(selected := HitTest(l.coords, l.dim, coord, l.size / 2.0, BoxLayerOrder))
  }

  /** `get_value`: selects at the cursor and reports the unswapped
      coordinate; the message carries the new selection. */
  function GetValue(l: Layer, coord: Point): (r: (Layer, Point, Option<Selection>, seq<Field>))
    requires WellFormed(l.coords, l.dim) && |coord| == l.dim
    ensures r.0 == SetSelectedBoxes(l, coord) && r.2 == r.0.selected
    ensures r.1 == coord && r.3 == Message(coord, false, l.name, r.2)
    ensures SelectionOf(r.3) == r.2
  {
    var l' := SetSelectedBoxes(l, coord);
    MessageRecoversSelection(coord, false, l.name, l'.selected);
    (l', coord, l'.selected, Message(coord, false, l.name, l'.selected))
  }

  // ---------------------------------------------------------------------
  // Agreement with the rectangles' corner order

  /** A box's vertex hits and containment do not depend on the corner order. */
  lemma OrderIndependentHits(b: Box, pt: Point, half: real)
    requires |b.p| >= 2 && |b.q| >= 2 && |pt| >= 2
    ensures AnyVertexHit(Corners(b, BoxLayerOrder), pt, half) <==> AnyVertexHit(Corners(b, RectangleOrder), pt, half)
    ensures Contains(Corners(b, BoxLayerOrder), pt) <==> Contains(Corners(b, RectangleOrder), pt)
  {
    var s := Corners(b, BoxLayerOrder);
    var r := Corners(b, RectangleOrder);
    BoxLayerOrderSwapsSides(Project(b));
    assert s[0] == r[0] && s[1] == r[3] && s[2] == r[2] && s[3] == r[1];
    if AnyVertexHit(s, pt, half) {
      var v :| 0 <= v < 4 && VertexHit(s[v], pt, half);
      var w := if v == 1 then 3 else if v == 3 then 1 else v;
      assert VertexHit(r[w], pt, half);
    }
    if AnyVertexHit(r, pt, half) {
      var v :| 0 <= v < 4 && VertexHit(r[v], pt, half);
      var w := if v == 1 then 3 else if v == 3 then 1 else v;
      assert VertexHit(s[w], pt, half);
    }
  }

  lemma SliceHitsAgree(data: seq<Box>, dim: nat, indices: Point, half: real)
    requires WellFormed(data, dim) && |indices| == dim
    ensures forall i :: SliceVertexHit(data, dim, indices, half, BoxLayerOrder, i) <==> SliceVertexHit(data, dim, indices, half, RectangleOrder, i)
    ensures forall i :: SliceContains(data, dim, indices, BoxLayerOrder, i) <==> SliceContains(data, dim, indices, RectangleOrder, i)
  {
    forall i | 0 <= i < |data|
      ensures SliceVertexHit(data, dim, indices, half, BoxLayerOrder, i) <==> SliceVertexHit(data, dim, indices, half, RectangleOrder, i)
      ensures SliceContains(data, dim, indices, BoxLayerOrder, i) <==> SliceContains(data, dim, indices, RectangleOrder, i)
    {
      OrderIndependentHits(data[i], indices, half);
    }
  }

  /** Whether anything is selected, whether it is a vertex, and which box:
      the hit test says the same in either order. */
  predicate SameBox(data: seq<Box>, dim: nat, indices: Point, half: real, a: Option<Selection>, b: Option<Selection>)
  {
    && (a.None? <==> b.None?)
    && (a.Some? && b.Some? ==> a.value.index == b.value.index && (a.value.vertex.Some? <==> b.value.vertex.Some?))
  }

  /** A selected vertex belongs to a box with a vertex hit. */
  lemma VertexResultHits(data: seq<Box>, dim: nat, indices: Point, half: real, order: Order)
    requires WellFormed(data, dim) && |indices| == dim
    ensures var r := HitTest(data, dim, indices, half, order);
      r.Some? && r.value.vertex.Some? ==> SliceVertexHit(data, dim, indices, half, order, r.value.index)
  {
    var r := HitTest(data, dim, indices, half, order);
    if r.Some? && r.value.vertex.Some? {
      var c := Corners(data[r.value.index], order);
      var v := r.value.vertex.value;
      assert LastVertex(c, indices, half, 4) == Some(v);
      assert VertexHit(c[v], indices, half);
    }
  }

  /** Nothing is selected exactly when no box in the slice has a vertex hit
      or contains the cursor. */
  lemma NoneMeansNoHit(data: seq<Box>, dim: nat, indices: Point, half: real, order: Order)
    requires WellFormed(data, dim) && |indices| == dim
    ensures var r := HitTest(data, dim, indices, half, order);
      r.None? <==> (forall i :: !SliceVertexHit(data, dim, indices, half, order, i)) && (forall i :: !SliceContains(data, dim, indices, order, i))
  {
    var r := HitTest(data, dim, indices, half, order);
    if r.Some? && r.value.vertex.None? {
      assert SliceContains(data, dim, indices, order, r.value.index);
    }
  }

  /** The box layer's corner order changes only the vertex number it
      reports, never which box it selects or whether a vertex was hit. */
  lemma {:induction false} BoxLayerSelectsSameBox(data: seq<Box>, dim: nat, indices: Point, half: real)
    requires WellFormed(data, dim) && |indices| == dim
    ensures SameBox(data, dim, indices, half,
                    HitTest(data, dim, indices, half, BoxLayerOrder), HitTest(data, dim, indices, half, RectangleOrder))
  {
    var a := HitTest(data, dim, indices, half, BoxLayerOrder);
    var b := HitTest(data, dim, indices, half, RectangleOrder);
    SliceHitsAgree(data, dim, indices, half);
    VertexResultHits(data, dim, indices, half, BoxLayerOrder);
    VertexResultHits(data, dim, indices, half, RectangleOrder);
    NoneMeansNoHit(data, dim, indices, half, BoxLayerOrder);
    NoneMeansNoHit(data, dim, indices, half, RectangleOrder);
    if a.Some? && b.Some? {
      var i, j := a.value.index, b.value.index;
      if a.value.vertex.Some? {
        assert SliceVertexHit(data, dim, indices, half, RectangleOrder, i);
        assert SliceVertexHit(data, dim, indices, half, BoxLayerOrder, j);
      } else if b.value.vertex.None? {
        assert SliceContains(data, dim, indices, RectangleOrder, i);
        assert SliceContains(data, dim, indices, BoxLayerOrder, j);
      }
    }
  }
}

=== FILE: chunk_request.dfy ===
/** Identity of an asynchronous chunk load and the bundle of named arrays
    one load request carries (`ChunkKey`, `LayerKey`, `ChunkRequest`).

    Arrays are abstract records: their shape, their byte count and whether
    they are already in memory. Python's `hash` is a parameter, so every
    statement about keys holds for any hash function. */
module ChunkRequest {
  import opened Common

  // ---------------------------------------------------------------------
  // Index tuples and their flattening

  /** One value of a flattened index tuple: an int or Python's None. */
  datatype Entry = Num(n: int) | Nil

  /** One element of an index tuple: an integer, None, or a slice. */
  datatype Index =
    | At(i: int)
    | NoIndex
    | Slice(start: Entry, stop: Entry, step: Entry)

  /** The entries one index contributes to the flat tuple. */
  function EntriesOf(x: Index): seq<Entry>
  {
    match x
    case At(i) => [Num(i)]
    case NoIndex => [Nil]
    case Slice(start, stop, step) => [start, stop, step]
  }

  /** Number of slices in an index tuple. */
  function SliceCount(xs: seq<Index>): nat
  {
    if xs == [] then 0 else (if xs[0].Slice? then 1 else 0) + SliceCount(xs[1..])
  }

  /** The hashable flat tuple standing for an index tuple (`_flatten`). */
  function Flatten(xs: seq<Index>): seq<Entry>
  {
    if xs == [] then [] else EntriesOf(xs[0]) + Flatten(xs[1..])
  }

  /** Each slice becomes three entries and every other index one. */
  lemma {:induction false} FlattenLength(xs: seq<Index>)
    ensures |Flatten(xs)| == (|xs| - SliceCount(xs)) + 3 * SliceCount(xs)
  {
    if xs != [] {
      FlattenLength(xs[1..]);
    }
  }

  /** Flattening keeps the order of the indices: it distributes over concatenation. */
  lemma {:induction false} FlattenAppend(a: seq<Index>, b: seq<Index>)
    ensures Flatten(a + b) == Flatten(a) + Flatten(b)
  {
    if a == [] {
      assert a + b == b;
    } else {
      assert (a + b)[1..] == a[1..] + b;
      FlattenAppend(a[1..], b);
    }
  }

  /** The entries of index `i` sit, in place, between those of the indices before and after it. */
  lemma {:induction false} FlattenAt(xs: seq<Index>, i: nat)
    requires i < |xs|
    ensures Flatten(xs) == Flatten(xs[..i]) + EntriesOf(xs[i]) + Flatten(xs[i + 1..])
  {
    var rest := xs[i..];
    assert xs == xs[..i] + rest;
    FlattenAppend(xs[..i], rest);
    assert rest[0] == xs[i] && rest[1..] == xs[i + 1..];
    assert Flatten(rest) == EntriesOf(xs[i]) + Flatten(xs[i + 1..]);
  }

  // ---------------------------------------------------------------------
  // Keys

  /** The layer-specific part of a key. */
  datatype LayerKey = LayerKey(layerId: int, dataId: int, dataLevel: int, indices: seq<Index>)

  /** What gets hashed: the ids, the level and the flattened indices. */
  type HashValues = (int, int, int, seq<Entry>)

  function GetHashValues(k: LayerKey): HashValues
  {
    (k.layerId, k.dataId, k.dataLevel, Flatten(k.indices))
  }

  /** What a key needs to know about a layer: `id(layer)`, the id of its data and its level. */
  datatype LayerRef = LayerRef(id: int, dataId: int, dataLevel: int)

  datatype ChunkKey = ChunkKey(layerKey: LayerKey, key: int)

  /** Builds the key of a request for `indices` of `layer`, hashing with `hash`. */
  function MakeChunkKey(layer: LayerRef, indices: seq<Index>, hash: HashValues -> int): (r: ChunkKey)
    ensures r.layerKey.indices == indices
    ensures r.key == hash((layer.id, layer.dataId, layer.dataLevel, Flatten(indices)))
  {
    var lk := LayerKey(layer.id, layer.dataId, layer.dataLevel, indices);
    ChunkKey(lk, hash(GetHashValues(lk)))
  }

  /** Key equality compares the hashes only. */
  predicate KeysEqual(a: ChunkKey, b: ChunkKey)
  {
    a.key == b.key
  }

  /** Keys built from the same ids and level and from index tuples that flatten alike compare equal, for any hash. */
  lemma SameInputsGiveEqualKeys(l1: LayerRef, i1: seq<Index>, l2: LayerRef, i2: seq<Index>,
                                hash: HashValues -> int)
    requires l1 == l2 && Flatten(i1) == Flatten(i2)
    ensures KeysEqual(MakeChunkKey(l1, i1, hash), MakeChunkKey(l2, i2, hash))
  {
  }

  /** With an injective hash, equal keys come from equal ids, level and flattened indices. */
  lemma EqualKeysWithInjectiveHash(l1: LayerRef, i1: seq<Index>, l2: LayerRef, i2: seq<Index>,
                                   hash: HashValues -> int)
    requires forall a, b :: hash(a) == hash(b) ==> a == b
    requires KeysEqual(MakeChunkKey(l1, i1, hash), MakeChunkKey(l2, i2, hash))
    ensures l1 == l2 && Flatten(i1) == Flatten(i2)
  {
    var h1 := (l1.id, l1.dataId, l1.dataLevel, Flatten(i1));
    var h2 := (l2.id, l2.dataId, l2.dataLevel, Flatten(i2));
    assert hash(h1) == hash(h2);
  }

  /** A slice and three integer indices flatten alike, so their keys compare equal. */
  lemma SliceAndIntsCollide(layer: LayerRef, hash: HashValues -> int)
    ensures KeysEqual(MakeChunkKey(layer, [Slice(Num(1), Num(2), Num(3))], hash),
                      MakeChunkKey(layer, [At(1), At(2), At(3)], hash))
  {
    assert Flatten([Slice(Num(1), Num(2), Num(3))]) == [Num(1), Num(2), Num(3)];
    assert Flatten([At(1), At(2), At(3)]) == [Num(1), Num(2), Num(3)] by {
      assert [At(1), At(2), At(3)][1..] == [At(2), At(3)];
      assert [At(2), At(3)][1..] == [At(3)];
    }
  }

  // ---------------------------------------------------------------------
  // Requests

  /** An array to load: its shape, its size in bytes and whether it is a numpy ndarray. */
  datatype Chunk = Chunk(shape: seq<nat>, nbytes: nat, isNdarray: bool)

  /** The timing record `block_timer` produces; the times themselves are not modelled. */
  datatype PerfEvent = PerfEvent(name: string)

  /** A request: the key, the named chunks in dict order, and the timers. */
  datatype Request = Request(key: ChunkKey, chunks: seq<(string, Chunk)>, timers: map<string, PerfEvent>)

  const LoadTimerName: string := "ChunkRequest.load_chunks"

  /** The names of a chunk list are pairwise distinct (it is a dict). */
  predicate DistinctNames<T>(cs: seq<(string, T)>)
  {
    forall i, j :: 0 <= i < j < |cs| ==> cs[i].0 != cs[j].0
  }

  function NameSet<T>(cs: seq<(string, T)>): set<string>
  {
    set i | 0 <= i < |cs| :: cs[i].0
  }

  /** `chunks.get(name)`. */
  function Lookup(cs: seq<(string, Chunk)>, name: string): (r: Option<Chunk>)
    ensures r.Some? <==> name in NameSet(cs)
    ensures r.Some? ==> (name, r.value) in cs
  {
    if cs == [] then None
    else if cs[0].0 == name then Some(cs[0].1)
    else
      var r := Lookup(cs[1..], name);
      assert NameSet(cs) == {cs[0].0} + NameSet(cs[1..]) by {
        forall n | n in NameSet(cs) ensures n in {cs[0].0} + NameSet(cs[1..]) {
          var i :| 0 <= i < |cs| && cs[i].0 == n;
          if i > 0 { assert cs[1..][i - 1].0 == n; }
        }
      }
      r
  }

  /** The constructor: every array must be present (the source asserts it); timers start empty. */
  function NewRequest(key: ChunkKey, chunks: seq<(string, Option<Chunk>)>): (r: Result<Request>)
    requires DistinctNames(chunks)
    ensures r.Ok? <==> forall i :: 0 <= i < |chunks| ==> chunks[i].1.Some?
    ensures r.Ok? ==> r.value.key == key && r.value.timers == map[] && |r.value.chunks| == |chunks|
    ensures r.Ok? ==> forall i :: 0 <= i < |chunks| ==> r.value.chunks[i] == (chunks[i].0, chunks[i].1.value)
    ensures r.Ok? ==> DistinctNames(r.value.chunks)
  {
    if exists i :: 0 <= i < |chunks| && chunks[i].1.None? then
      Err(AssertionError("array is not None"))
    else
      Ok(Request(key, Unwrap(chunks), map[]))
  }

  function Unwrap(cs: seq<(string, Option<Chunk>)>): (r: seq<(string, Chunk)>)
    requires forall i :: 0 <= i < |cs| ==> cs[i].1.Some?
    ensures |r| == |cs| && forall i :: 0 <= i < |cs| ==> r[i] == (cs[i].0, cs[i].1.value)
  {
    if cs == [] then [] else [(cs[0].0, cs[0].1.value)] + Unwrap(cs[1..])
  }

  /** `num_chunks`. */
  function NumChunks(r: Request): nat
  {
    |r.chunks|
  }

  /** `num_chunks` is the number of distinct chunk names. */
  lemma {:induction false} NumChunksCountsNames<T>(cs: seq<(string, T)>)
    requires DistinctNames(cs)
    ensures |NameSet(cs)| == |cs|
  {
    if cs != [] {
      NumChunksCountsNames(cs[1..]);
      assert NameSet(cs) == {cs[0].0} + NameSet(cs[1..]) by {
        forall n | n in NameSet(cs) ensures n in {cs[0].0} + NameSet(cs[1..]) {
          var i :| 0 <= i < |cs| && cs[i].0 == n;
          if i > 0 { assert cs[1..][i - 1].0 == n; }
        }
      }
      assert cs[0].0 !in NameSet(cs[1..]);
    }
  }

  /** Sum of the byte counts of a chunk list. */
  function SumBytes(cs: seq<(string, Chunk)>): nat
  {
    if cs == [] then 0 else cs[0].1.nbytes + SumBytes(cs[1..])
  }

  /** `num_bytes`. */
  function NumBytes(r: Request): nat
  {
    SumBytes(r.chunks)
  }

  /** The byte total of two chunk lists together is the sum of their totals. */
  lemma {:induction false} SumBytesAppend(a: seq<(string, Chunk)>, b: seq<(string, Chunk)>)
    ensures SumBytes(a + b) == SumBytes(a) + SumBytes(b)
  {
    if a == [] {
      assert a + b == b;
    } else {
      assert (a + b)[1..] == a[1..] + b;
      SumBytesAppend(a[1..], b);
    }
  }

  /** The byte total bounds each chunk's bytes, and is zero only if every chunk is empty. */
  lemma {:induction false} SumBytesBoundsEach(cs: seq<(string, Chunk)>)
    ensures forall i :: 0 <= i < |cs| ==> cs[i].1.nbytes <= SumBytes(cs)
    ensures SumBytes(cs) == 0 <==> forall i :: 0 <= i < |cs| ==> cs[i].1.nbytes == 0
  {
    if cs != [] {
      SumBytesBoundsEach(cs[1..]);
      assert forall i :: 1 <= i < |cs| ==> cs[i] == cs[1..][i - 1];
    }
  }

  /** `in_memory`: every chunk is an ndarray. */
  predicate InMemory(r: Request)
  {
    forall i :: 0 <= i < |r.chunks| ==> r.chunks[i].1.isNdarray
  }

  /** `np.asarray(array)`: the same shape and bytes, now an ndarray. */
  function Loaded(c: Chunk): Chunk
  {
    c.(isNdarray := true)
  }

  /** `load_chunks`: loads each chunk in dict order, timing each one under its name and the whole under "ChunkRequest.load_chunks". */
  method LoadChunks(r: Request) returns (r': Request)
    ensures r'.key == r.key
    ensures |r'.chunks| == |r.chunks|
    ensures forall i :: 0 <= i < |r.chunks| ==> r'.chunks[i] == (r.chunks[i].0, Loaded(r.chunks[i].1))
    ensures InMemory(r')
    ensures NameSet(r'.chunks) == NameSet(r.chunks)
    ensures r'.timers.Keys == r.timers.Keys + NameSet(r.chunks) + {LoadTimerName}
    ensures forall n :: n in r'.timers && n !in NameSet(r.chunks) && n != LoadTimerName ==>
      r'.timers[n] == r.timers[n]
    ensures forall n :: n in r'.timers && (n in NameSet(r.chunks) || n == LoadTimerName) ==>
      r'.timers[n] == PerfEvent(n)
  {
    var chunks := r.chunks;
    var timers := r.timers;
    var i := 0;
    while i < |chunks|
      invariant 0 <= i <= |chunks| == |r.chunks|
      invariant forall j :: 0 <= j < i ==> chunks[j] == (r.chunks[j].0, Loaded(r.chunks[j].1))
      invariant forall j :: i <= j < |chunks| ==> chunks[j] == r.chunks[j]
      invariant timers.Keys == r.timers.Keys + (set j | 0 <= j < i :: r.chunks[j].0)
      invariant forall n :: n in timers && n !in (set j | 0 <= j < i :: r.chunks[j].0) ==>
        timers[n] == r.timers[n]
      invariant forall j :: 0 <= j < i ==> timers[r.chunks[j].0] == PerfEvent(r.chunks[j].0)
    {
      var name := chunks[i].0;
      chunks := chunks[i := (name, Loaded(chunks[i].1))];
      timers := timers[name := PerfEvent(name)];
      i := i + 1;
    }
    timers := timers[LoadTimerName := PerfEvent(LoadTimerName)];
    r' := Request(r.key, chunks, timers);
  }

  /** Loading changes no byte count. */
  lemma {:induction false} LoadKeepsBytes(cs: seq<(string, Chunk)>, ls: seq<(string, Chunk)>)
    requires |ls| == |cs|
    requires forall i :: 0 <= i < |cs| ==> ls[i] == (cs[i].0, Loaded(cs[i].1))
    ensures SumBytes(ls) == SumBytes(cs)
  {
    if cs != [] {
      LoadKeepsBytes(cs[1..], ls[1..]);
    }
  }

  // ---------------------------------------------------------------------
  // Transposition

  /** Position of `axis` in an `n`-dimensional array once negative axes wrap (numpy's rule). */
  function NormAxis(axis: int, n: nat): int
  {
    if axis < 0 then axis + n else axis
  }

  /** `order` is accepted by `transpose` on an `n`-dimensional array: one entry per axis, each in range, none repeated. */
  predicate ValidAxes(order: seq<int>, n: nat)
  {
    && |order| == n
    && (forall i :: 0 <= i < n ==> -(n as int) <= order[i] < n)
    && (forall i, j :: 0 <= i < j < n ==> NormAxis(order[i], n) != NormAxis(order[j], n))
  }

  /** Shape after `transpose(order)`: axis `i` of the result is axis `order[i]` of the input. */
  function Permute(shape: seq<nat>, order: seq<int>): (r: seq<nat>)
    requires ValidAxes(order, |shape|)
    ensures |r| == |shape|
    ensures forall i :: 0 <= i < |r| ==> r[i] == shape[NormAxis(order[i], |shape|)]
  {
    seq(|shape|, i requires 0 <= i < |shape| => shape[NormAxis(order[i], |shape|)])
  }

  /** One chunk transposed, or the error numpy raises for a bad axis order. */
  function TransposeChunk(c: Chunk, order: seq<int>): Result<Chunk>
  {
    if ValidAxes(order, |c.shape|) then Ok(c.(shape := Permute(c.shape, order)))
    else Err(ValueError("axes don't match array"))
  }

  /** The chunks after transposing them in dict order, and the error that stopped the loop, if any.
      Chunks before the failing one stay transposed, as in the source's in-place loop. */
  function TransposeAll(cs: seq<(string, Chunk)>, order: seq<int>): (r: (seq<(string, Chunk)>, Option<Error>))
    ensures |r.0| == |cs|
    ensures forall i :: 0 <= i < |cs| ==> r.0[i].0 == cs[i].0 && r.0[i].1.nbytes == cs[i].1.nbytes
    ensures r.1.None? <==> forall i :: 0 <= i < |cs| ==> ValidAxes(order, |cs[i].1.shape|)
    ensures r.1.None? ==> forall i :: 0 <= i < |cs| ==>
      r.0[i].1 == cs[i].1.(shape := Permute(cs[i].1.shape, order))
  {
    if cs == [] then ([], None)
    else
      match TransposeChunk(cs[0].1, order)
      case Err(e) => (cs, Some(e))
      case Ok(c) =>
        var rest := TransposeAll(cs[1..], order);
        assert forall i :: 1 <= i < |cs| ==> cs[i] == cs[1..][i - 1];
        ([(cs[0].0, c)] + rest.0, rest.1)
  }

  /** `transpose_chunks`: the request after the in-place loop, and the exception it raised, if any. */
  function TransposeChunks(r: Request, order: seq<int>): (out: (Request, Option<Error>))
    ensures out.0.key == r.key && out.0.timers == r.timers
    ensures |out.0.chunks| == |r.chunks| && NameSet(out.0.chunks) == NameSet(r.chunks)
    ensures SumBytes(out.0.chunks) == SumBytes(r.chunks)
    ensures out.1.None? <==> forall i :: 0 <= i < |r.chunks| ==> ValidAxes(order, |r.chunks[i].1.shape|)
    ensures out.1.None? ==> forall i :: 0 <= i < |r.chunks| ==>
      out.0.chunks[i].1.shape == Permute(r.chunks[i].1.shape, order)
  {
    var t := TransposeAll(r.chunks, order);
    SameBytes(r.chunks, t.0);
    assert NameSet(t.0) == NameSet(r.chunks) by {
      assert forall i :: 0 <= i < |r.chunks| ==> t.0[i].0 == r.chunks[i].0;
    }
    (Request(r.key, t.0, r.timers), t.1)
  }

  lemma {:induction false} SameBytes(a: seq<(string, Chunk)>, b: seq<(string, Chunk)>)
    requires |a| == |b|
    requires forall i :: 0 <= i < |a| ==> a[i].1.nbytes == b[i].1.nbytes
    ensures SumBytes(a) == SumBytes(b)
  {
    if a != [] {
      SameBytes(a[1..], b[1..]);
    }
  }

  /** The inverse permutation of `order`: where each axis went. */
  function InverseOrder(order: seq<int>): (r: seq<int>)
    ensures |r| == |order|
  {
    seq(|order|, j requires 0 <= j < |order| => IndexOf(order, j))
  }

  function IndexOf(s: seq<int>, v: int): (k: nat)
    ensures k <= |s|
    ensures k < |s| ==> s[k] == v
    ensures k == |s| <==> v !in s
    ensures forall i :: 0 <= i < k ==> s[i] != v
  {
    if s == [] then 0 else if s[0] == v then 0 else 1 + IndexOf(s[1..], v)
  }

  /** A permutation of `0..n-1` without negative entries. */
  predicate IsPermutation(order: seq<int>, n: nat)
  {
    ValidAxes(order, n) && forall i :: 0 <= i < n ==> 0 <= order[i]
  }

  /** The integers `0..n-1` as a set. */
  function Range(n: nat): (r: set<int>)
    ensures forall x :: x in r <==> 0 <= x < n
    ensures |r| == n
  {
    if n == 0 then {} else
      var r := Range(n - 1) + {n - 1};
      assert n - 1 !in Range(n - 1);
      r
  }

  /** The set of the first `k` entries of `s`. */
  function Values(s: seq<int>, k: nat): (r: set<int>)
    requires k <= |s|
    ensures forall x :: x in r <==> exists i :: 0 <= i < k && s[i] == x
  {
    if k == 0 then {} else Values(s, k - 1) + {s[k - 1]}
  }

  /** Distinct entries give as many values as there are entries. */
  lemma {:induction false} ValuesCard(s: seq<int>, k: nat)
    requires k <= |s|
    requires forall i, j :: 0 <= i < j < |s| ==> s[i] != s[j]
    ensures |Values(s, k)| == k
  {
    if k > 0 {
      ValuesCard(s, k - 1);
      assert s[k - 1] !in Values(s, k - 1);
    }
  }

  lemma SubsetCard(a: set<int>, b: set<int>)
    requires a <= b
    ensures |a| <= |b|
  {
    assert b == a + (b - a);
    assert a * (b - a) == {};
  }

  /** A permutation reaches every axis (pigeonhole over its distinct entries). */
  lemma PermutationCovers(order: seq<int>, n: nat)
    requires IsPermutation(order, n)
    ensures forall j :: 0 <= j < n ==> IndexOf(order, j) < n
  {
    var values := Values(order, n);
    assert values <= Range(n);
    ValuesCard(order, n);
    forall j | 0 <= j < n ensures IndexOf(order, j) < n {
      if j !in values {
        assert values <= Range(n) - {j};
        SubsetCard(values, Range(n) - {j});
        assert false;
      }
      var i :| 0 <= i < n && order[i] == j;
    }
  }

  /** Transposing with `order` and then with its inverse gives the original shape back. */
  lemma TransposeRoundTrip(shape: seq<nat>, order: seq<int>)
    requires IsPermutation(order, |shape|)
    ensures ValidAxes(InverseOrder(order), |shape|)
    ensures Permute(Permute(shape, order), InverseOrder(order)) == shape
  {
    var n := |shape|;
    var inv := InverseOrder(order);
    PermutationCovers(order, n);
    forall i, j | 0 <= i < j < n ensures NormAxis(inv[i], n) != NormAxis(inv[j], n) {
      assert order[inv[i]] == i && order[inv[j]] == j;
    }
    var p := Permute(shape, order);
    var q := Permute(p, inv);
    forall i | 0 <= i < n ensures q[i] == shape[i] {
      assert order[inv[i]] == i;
    }
  }

  // ---------------------------------------------------------------------
  // The image and the thumbnail source

  const ImageName: string := "image"
  const ThumbnailName: string := "thumbnail_source"

  /** `data_id`: the id of the data the request loads from. */
  function DataId(r: Request): (id: int)
    ensures forall layer, indices, hash :: r.key == MakeChunkKey(layer, indices, hash) ==> id == layer.dataId
  {
    r.key.layerKey.dataId
  }

  /** `image`: the chunk named "image", if there is one. */
  function Image(r: Request): (c: Option<Chunk>)
    ensures c.Some? <==> ImageName in NameSet(r.chunks)
    ensures c.Some? ==> (ImageName, c.value) in r.chunks
  {
    Lookup(r.chunks, ImageName)
  }

  /** `thumbnail_source`: the "thumbnail_source" chunk, else the "image" chunk, else nothing. */
  function ThumbnailSource(r: Request): (c: Option<Chunk>)
    ensures c.Some? <==> (ThumbnailName in NameSet(r.chunks) || ImageName in NameSet(r.chunks))
    ensures ThumbnailName in NameSet(r.chunks) ==> c.Some? && (ThumbnailName, c.value) in r.chunks
    ensures ThumbnailName !in NameSet(r.chunks) ==> c == Image(r)
  {
    match Lookup(r.chunks, ThumbnailName)
    case Some(t) => Some(t)
    case None => Lookup(r.chunks, ImageName)
  }
}

=== FILE: common.dfy ===
/** Shared vocabulary: optional values, the exceptions the modelled code
    raises, and a few sequence helpers used by several modules. */
module Common {

  datatype Option<+T> = None | Some(value: T)

  /** The Python exception classes that the modelled code raises. */
  datatype Error =
    | ValueError(reason: string)
    | TypeError(reason: string)
    | IndexError(reason: string)
    | AssertionError(reason: string)
    | UnboundLocalError(name: string)
    | NotImplementedError(reason: string)
    | AttributeError(name: string)
    | ZeroDivisionError(reason: string)

  /** A value, or the exception raised instead of returning one. */
  datatype Result<+T> = Ok(value: T) | Err(error: Error)

  function MaxInt(a: int, b: int): int { if a >= b then a else b }

  function MinReal(a: real, b: real): real { if a <= b then a else b }

  function MaxReal(a: real, b: real): real { if a >= b then a else b }

  function Abs(x: real): real { if x < 0.0 then -x else x }

  /** The elements of `s` in reverse order (Python's `s[::-1]`). */
  function Reverse<T>(s: seq<T>): (r: seq<T>)
    ensures |r| == |s|
    ensures forall i :: 0 <= i < |s| ==> r[i] == s[|s| - 1 - i]
  {
    if s == [] then [] else Reverse(s[1..]) + [s[0]]
  }

  /** The last `n` elements of `s`, or all of it when it is shorter (Python's `s[-n:]`). */
  function LastN<T>(s: seq<T>, n: nat): (r: seq<T>)
    ensures |r| == if |s| < n then |s| else n
    ensures forall i :: 0 <= i < |r| ==> r[i] == s[|s| - |r| + i]
  {
    if |s| < n then s else s[|s| - n..]
  }
}

=== FILE: ellipses.dfy ===
/** The ellipses annotation layer's selection and editing state. It shares
    the rectangles layer's corner arithmetic and differs in one place: a
    vertex drag takes the opposite corner afresh from the current box on
    every move instead of keeping the corner fixed on first use. */
module Ellipses {
  import opened Common
  import opened BoxGeometry
  import opened BoxEdit

  datatype Layer = Layer(
    data: seq<Box>,
    dim: nat,
    size: real,
    name: string,
    selected: Option<Selection>,
    dragStart: Option<Point>)

  /** Well-formed data, a selection naming an existing box and one of its
      four vertices, and a drag start over all axes. */
  predicate Valid(l: Layer)
  {
    && WellFormed(l.data, l.dim)
    && (l.selected.Some? ==>
          l.selected.value.index < |l.data| && (l.selected.value.vertex.Some? ==> l.selected.value.vertex.value < 4))
    && (l.dragStart.Some? ==> |l.dragStart.value| == l.dim)
  }

  /** `_set_selected_boxes`: stores the hit test's result as the selection. */
  function SetSelectedBoxes(l: Layer, coord: Point): (r: Layer)
    requires Valid(l) && |coord| == l.dim
    ensures Valid(r)
    ensures r == l.(selected := r.selected)
    ensures r.selected == SelectedAt(l.data, l.dim, l.size, coord)
  {
    l.(selected := SelectedAt(l.data, l.dim, l.size, coord))
  }

  /** `_add`: appends the clamped new box and selects it, with vertex 2 when
      it was dragged out; a click-added box on data with more than two axes
      raises ValueError. */
  function Add(l: Layer, coord: Point, second: Option<Point>, maxShape: seq<real>): (r: Result<Layer>)
    requires Valid(l) && |coord| == l.dim && (second.Some? ==> |second.value| == l.dim) && |maxShape| >= 2
    ensures r.Err? <==> second.None? && l.dim != 2
    ensures r.Err? ==> r.error.ValueError?
    ensures r.Ok? ==>
      var c := AddedCorners(coord, second, maxShape);
      && r.value.data == l.data + [Box(c.0, c.1)]
      && r.value.selected == Some(Selection(|l.data|, if second.None? then None else Some(2)))
      && r.value.dim == l.dim && r.value.size == l.size && r.value.name == l.name
      && r.value.dragStart == l.dragStart
    ensures r.Ok? ==> Valid(r.value)
  {
    if second.None? && l.dim != 2 then
      Err(ValueError("all the input array dimensions except for the concatenation axis must match exactly"))
    else
      var c := AddedCorners(coord, second, maxShape);
      Ok(l.(data := l.data + [Box(c.0, c.1)],
            selected := Some(Selection(|l.data|, if second.None? then None else Some(2)))))
  }

  /** `_remove`: nothing happens without a selection; otherwise exactly the
      selected box is deleted, the others keeping their order, and the
      selection (cleared first) is recomputed at the cursor by `_select`. */
  function Remove(l: Layer, coord: Point): (r: Layer)
    requires Valid(l) && |coord| == l.dim
    ensures Valid(r)
    ensures l.selected.None? ==> r == l
    ensures l.selected.Some? ==>
      && r.dim == l.dim && r.size == l.size && r.name == l.name && r.dragStart == l.dragStart
      && r.data == Delete(l.data, l.selected.value.index)
      && r.selected == SelectedAt(r.data, l.dim, l.size, coord)
  {
    match l.selected
    case None => l
    case Some(s) =>
      var data := Delete(l.data, s.index);
      l.(data := data, selected := SelectedAt(data, l.dim, l.size, coord))
  }

  /** Removing a box right after adding it restores the layer, with the
      selection recomputed at the cursor. */
  lemma RemoveUndoesAdd(l: Layer, coord: Point, second: Option<Point>, maxShape: seq<real>, cursor: Point)
    requires Valid(l) && |coord| == l.dim && (second.Some? ==> |second.value| == l.dim) && |maxShape| >= 2
    requires |cursor| == l.dim
    requires Add(l, coord, second, maxShape).Ok?
    ensures Remove(Add(l, coord, second, maxShape).value, cursor) == SetSelectedBoxes(l, cursor)
  {
    var a := Add(l, coord, second, maxShape).value;
    assert Delete(a.data, |l.data|) == l.data;
  }

  /** `_move`: nothing happens without a selection. A selected whole box
      moves as in the rectangles layer; a selected vertex is dragged to the
      cursor against the opposite corner of the current box. Data with
      more than two axes raises ValueError; other boxes are unchanged. */
  function Move(l: Layer, coord: Point, maxShape: seq<real>): (r: Result<Layer>)
    requires Valid(l) && |coord| == l.dim && |maxShape| >= 2
    ensures l.selected.None? ==> r == Ok(l)
    ensures r.Err? <==> l.selected.Some? && l.dim != 2
    ensures r.Err? ==> r.error.ValueError?
    ensures r.Ok? && l.selected.Some? ==>
      var i := l.selected.value.index;
      && |r.value.data| == |l.data|
      && (forall j :: 0 <= j < |l.data| && j != i ==> r.value.data[j] == l.data[j])
      && r.value.selected == l.selected
    ensures r.Ok? && l.selected.Some? && l.selected.value.vertex.None? ==>
      var i := l.selected.value.index;
      var m := MovedBox(l.data[i], coord, l.dragStart, maxShape);
      && r.value.data[i] == Box(m.0, m.1)
      && r.value.dragStart == (if l.dragStart.None? then None else Some(coord))
    ensures r.Ok? && l.selected.Some? && l.selected.value.vertex.Some? ==>
      var i := l.selected.value.index;
      var v := l.selected.value.vertex.value;
      var f := Expand(l.data[i], RectangleOrder)[Opposite(v)];
      && r.value.data[i] == Box(DraggedCorner(coord, f, v), f)
      && r.value.dragStart == l.dragStart
    ensures r.Ok? ==> Valid(r.value)
  {
    match l.selected
    case None => Ok(l)
    case Some(Selection(i, vertex)) =>
      if l.dim != 2 then Err(ValueError("could not broadcast input array into the box's row"))
      else
        match vertex
        case None =>
          var m := MovedBox(l.data[i], coord, l.dragStart, maxShape);
          Ok(l.(data := l.data[i := Box(m.0, m.1)],
                dragStart := if l.dragStart.None? then None else Some(coord)))
        case Some(v) =>
          var f := Expand(l.data[i], RectangleOrder)[Opposite(v)];
          Ok(l.(data := l.data[i := Box(DraggedCorner(coord, f, v), f)]))
  }

  /** A vertex drag holds the opposite corner of the box fixed: it stays a
      vertex of the moved box, on the opposite side from the dragged corner
      on both displayed axes, so the box never collapses. */
  lemma VertexMoveHoldsOppositeCorner(l: Layer, coord: Point, maxShape: seq<real>)
    requires Valid(l) && |coord| == l.dim && |maxShape| >= 2
    requires l.selected.Some? && l.selected.value.vertex.Some? && l.dim == 2
    ensures var i := l.selected.value.index;
      var v := l.selected.value.vertex.value;
      var b := Move(l, coord, maxShape).value.data[i];
      && b.q == Expand(l.data[i], RectangleOrder)[Opposite(v)]
      && (forall k :: 0 <= k < 2 ==> b.p[k] != b.q[k])
      && exists w :: 0 <= w < 4 && Expand(b, RectangleOrder)[w] == b.q
  {
    var b := Move(l, coord, maxShape).value.data[l.selected.value.index];
    StoredCornersAreVertices(b, RectangleOrder);
    assert b.q[..2] == b.q;
  }
}

=== FILE: layer_ranges.dfy ===
/** The viewer's merge of per-layer axis ranges (`_calc_layers_ranges`),
    shared by both viewer versions.

    Every layer has one `(min, max, step)` triple per axis. Layers are
    aligned at their LAST axis: the source reverses each layer's ranges,
    merges them with `zip_longest` against the running result (filling with
    `(inf, -inf, inf)`) and reverses the result back. */
module LayerRanges {
  import opened Common

  /** A real number or one of Python's infinities, as used for the fill value. */
  datatype Ext = NegInf | Fin(v: real) | PosInf

  predicate ExtLe(a: Ext, b: Ext)
  {
    match (a, b)
    case (NegInf, _) => true
    case (_, PosInf) => true
    case (Fin(x), Fin(y)) => x <= y
    case _ => false
  }

  function ExtMin(a: Ext, b: Ext): Ext { if ExtLe(a, b) then a else b }

  function ExtMax(a: Ext, b: Ext): Ext { if ExtLe(b, a) then a else b }

  /** One axis of one layer: `(min, max, step)`. */
  datatype Range = Range(lo: real, hi: real, step: real)

  /** One axis of the running merge. */
  datatype ExtRange = ExtRange(lo: Ext, hi: Ext, step: Ext)

  /** `(inf, -inf, inf)`: the neutral element of the merge. */
  const Fill: ExtRange := ExtRange(PosInf, NegInf, PosInf)

  function ToExt(r: Range): ExtRange { ExtRange(Fin(r.lo), Fin(r.hi), Fin(r.step)) }

  /** `(min(a, b), max(c, d), min(e, f))`. */
  function MergeAxis(a: ExtRange, b: ExtRange): ExtRange
  {
    ExtRange(ExtMin(a.lo, b.lo), ExtMax(a.hi, b.hi), ExtMin(a.step, b.step))
  }

  function GetOrFill(s: seq<ExtRange>, k: nat): ExtRange
  {
    if k < |s| then s[k] else Fill
  }

  /** `zip_longest(acc, b, fillvalue=(inf, -inf, inf))` followed by the axis merge. */
  function ZipMerge(acc: seq<ExtRange>, b: seq<ExtRange>): (r: seq<ExtRange>)
    ensures |r| == MaxInt(|acc|, |b|)
    ensures forall k :: 0 <= k < |r| ==> r[k] == MergeAxis(GetOrFill(acc, k), GetOrFill(b, k))
  {
    seq(MaxInt(|acc|, |b|), k requires 0 <= k => MergeAxis(GetOrFill(acc, k), GetOrFill(b, k)))
  }

  /** A layer's ranges reversed, so that its last axis comes first. */
  function Reversed(layer: seq<Range>): (r: seq<ExtRange>)
    ensures |r| == |layer|
    ensures forall k :: 0 <= k < |layer| ==> r[k] == ToExt(layer[|layer| - 1 - k])
  {
    seq(|layer|, k requires 0 <= k < |layer| => ToExt(layer[|layer| - 1 - k]))
  }

  /** `_calc_layers_num_dims`: the largest layer dimensionality, 0 without layers.
      The source reads `layer.ndim` here and `layer.range` in the merge; a
      layer is modelled by its ranges alone, so its `ndim` is taken to be
      `len(layer.range)`, one range per axis, for every layer. */
  function NumDims(layers: seq<seq<Range>>): (n: nat)
    ensures forall i :: 0 <= i < |layers| ==> |layers[i]| <= n
    ensures n == 0 || exists i :: 0 <= i < |layers| && |layers[i]| == n
  {
    if layers == [] then 0
    else
      var rest := NumDims(layers[..|layers| - 1]);
      var last := |layers[|layers| - 1]|;
      assert forall i :: 0 <= i < |layers| - 1 ==> layers[i] == layers[..|layers| - 1][i];
      if last > rest then last else rest
  }

  /** The loop of `_calc_layers_ranges` over the layers in order, before the final reversal. */
  function Merged(layers: seq<seq<Range>>, n: nat): seq<ExtRange>
  {
    if layers == [] then seq(n, _ => Fill)
    else ZipMerge(Merged(layers[..|layers| - 1], n), Reversed(layers[|layers| - 1]))
  }

  /** Axis `j` counted from the end of a layer, or the fill value when the layer is shorter. */
  function FromEnd(layer: seq<Range>, j: nat): ExtRange
  {
    if j < |layer| then ToExt(layer[|layer| - 1 - j]) else Fill
  }

  /** Reference definition, one axis at a time: merge axis `j` (counted from the end) of every layer that has it. */
  function AxisMerge(layers: seq<seq<Range>>, j: nat): ExtRange
  {
    if layers == [] then Fill
    else MergeAxis(AxisMerge(layers[..|layers| - 1], j), FromEnd(layers[|layers| - 1], j))
  }

  /** The whole-list loop agrees with the per-axis reference on every axis. */
  lemma {:induction false} MergedIsAxisMerge(layers: seq<seq<Range>>, n: nat)
    requires forall i :: 0 <= i < |layers| ==> |layers[i]| <= n
    ensures |Merged(layers, n)| == n
    ensures forall j :: 0 <= j < n ==> Merged(layers, n)[j] == AxisMerge(layers, j)
  {
    if layers != [] {
      var init := layers[..|layers| - 1];
      assert forall i :: 0 <= i < |init| ==> init[i] == layers[i];
      MergedIsAxisMerge(init, n);
    }
  }

  /** The three parts of a range triple. */
  datatype Part = Lo | Hi | Step

  function PartOf(r: Range, p: Part): real
  {
    match p
    case Lo => r.lo
    case Hi => r.hi
    case Step => r.step
  }

  function ExtPart(e: ExtRange, p: Part): Ext
  {
    match p
    case Lo => e.lo
    case Hi => e.hi
    case Step => e.step
  }

  /** `a` is at least as far out as `b` in the direction part `p` merges: down for min and step, up for max. */
  predicate Covers(p: Part, a: Ext, b: Ext)
  {
    if p == Hi then ExtLe(b, a) else ExtLe(a, b)
  }

  /** Layer `i` has axis `j` counted from its end. */
  predicate HasAxis(layers: seq<seq<Range>>, i: int, j: nat)
  {
    0 <= i < |layers| && j < |layers[i]|
  }

  function AxisOf(layers: seq<seq<Range>>, i: int, j: nat): Range
    requires HasAxis(layers, i, j)
  {
    layers[i][|layers[i]| - 1 - j]
  }

  /** Some layer with axis `j` has `v` as part `p` of that axis. */
  ghost predicate Attained(layers: seq<seq<Range>>, j: nat, p: Part, v: Ext)
  {
    exists i :: HasAxis(layers, i, j) && v == Fin(PartOf(AxisOf(layers, i, j), p))
  }

  lemma ExtLeTrans(a: Ext, b: Ext, c: Ext)
    requires ExtLe(a, b) && ExtLe(b, c)
    ensures ExtLe(a, c)
  {
  }

  /** Part `p` of the per-axis merge covers that part of every layer having the axis. */
  lemma {:induction false} AxisMergeCovers(layers: seq<seq<Range>>, j: nat, p: Part, i: int)
    requires HasAxis(layers, i, j)
    ensures Covers(p, ExtPart(AxisMerge(layers, j), p), Fin(PartOf(AxisOf(layers, i, j), p)))
  {
    var init := layers[..|layers| - 1];
    var m := AxisMerge(layers, j);
    var before := ExtPart(AxisMerge(init, j), p);
    var last := ExtPart(FromEnd(layers[|layers| - 1], j), p);
    var v := Fin(PartOf(AxisOf(layers, i, j), p));
    assert Covers(p, ExtPart(m, p), before) && Covers(p, ExtPart(m, p), last);
    if i < |layers| - 1 {
      assert init[i] == layers[i];
      AxisMergeCovers(init, j, p, i);
      assert Covers(p, before, v);
      if p == Hi { ExtLeTrans(v, before, ExtPart(m, p)); } else { ExtLeTrans(ExtPart(m, p), before, v); }
    } else {
      assert last == v;
    }
  }

  /** Part `p` of the per-axis merge is taken from some layer having the axis, or is the fill value when none has it. */
  lemma {:induction false} AxisMergeAttained(layers: seq<seq<Range>>, j: nat, p: Part)
    ensures (exists i :: HasAxis(layers, i, j)) ==> Attained(layers, j, p, ExtPart(AxisMerge(layers, j), p))
    ensures (forall i :: !HasAxis(layers, i, j)) ==> AxisMerge(layers, j) == Fill
  {
    if layers != [] {
      var init := layers[..|layers| - 1];
      var n := |layers| - 1;
      assert forall i :: 0 <= i < |init| ==> init[i] == layers[i];
      assert forall i :: HasAxis(init, i, j) ==> HasAxis(layers, i, j) && AxisOf(init, i, j) == AxisOf(layers, i, j);
      AxisMergeAttained(init, j, p);
      var m := ExtPart(AxisMerge(layers, j), p);
      var before := ExtPart(AxisMerge(init, j), p);
      var last := ExtPart(FromEnd(layers[n], j), p);
      var initHas := exists i :: HasAxis(init, i, j);
      if !initHas {
        assert forall i :: !HasAxis(init, i, j);
        assert AxisMerge(init, j) == Fill;
      }
      if HasAxis(layers, n, j) {
        assert last == Fin(PartOf(AxisOf(layers, n, j), p));
        if initHas {
          var i :| HasAxis(init, i, j) && before == Fin(PartOf(AxisOf(init, i, j), p));
          assert m == before || m == last;
        } else {
          assert m == last;
        }
      } else {
        assert FromEnd(layers[n], j) == Fill;
        if initHas {
          var i :| HasAxis(init, i, j) && before == Fin(PartOf(AxisOf(init, i, j), p));
          assert m == before;
        } else {
          forall i | 0 <= i < |layers| ensures !HasAxis(layers, i, j) {
            if i < n { assert !HasAxis(init, i, j); }
          }
        }
      }
    }
  }

  function Value(e: Ext): real
  {
    if e.Fin? then e.v else 0.0
  }

  /** Layer `i` has the axis sitting at position `k` of an `n`-axis result aligned at the last axis. */
  predicate Aligned(layers: seq<seq<Range>>, n: nat, i: int, k: int)
  {
    0 <= i < |layers| && 0 <= k < n && n - |layers[i]| <= k
  }

  function AlignedAxis(layers: seq<seq<Range>>, n: nat, i: int, k: int): Range
    requires Aligned(layers, n, i, k)
  {
    layers[i][k - (n - |layers[i]|)]
  }

  /** Axis `k` of the result is as far out as every aligned layer axis in each part. */
  ghost predicate CoversAll(layers: seq<seq<Range>>, n: nat, k: int, r: Range)
  {
    forall i :: Aligned(layers, n, i, k) ==>
      r.lo <= AlignedAxis(layers, n, i, k).lo &&
      AlignedAxis(layers, n, i, k).hi <= r.hi &&
      r.step <= AlignedAxis(layers, n, i, k).step
  }

  /** Part `p` of axis `k` of the result is that part of some aligned layer axis. */
  ghost predicate PartFromLayer(layers: seq<seq<Range>>, n: nat, k: int, r: Range, p: Part)
  {
    exists i :: Aligned(layers, n, i, k) && PartOf(r, p) == PartOf(AlignedAxis(layers, n, i, k), p)
  }

  /** Each part of axis `k` of the result is that part of some aligned layer axis. */
  ghost predicate FromSomeLayer(layers: seq<seq<Range>>, n: nat, k: int, r: Range)
  {
    forall p: Part :: PartFromLayer(layers, n, k, r, p)
  }

  /** `_calc_layers_ranges`: one `(min, max, step)` per axis of the widest layer, layers aligned at their last axis;
      each axis holds the least min, greatest max and least step of the layers that have it. */
  function LayersRanges(layers: seq<seq<Range>>): (r: seq<Range>)
    ensures |r| == NumDims(layers)
    ensures forall k :: 0 <= k < |r| ==> CoversAll(layers, |r|, k, r[k])
    ensures forall k :: 0 <= k < |r| ==> FromSomeLayer(layers, |r|, k, r[k])
  {
    var n := NumDims(layers);
    var m := Merged(layers, n);
    MergedIsAxisMerge(layers, n);
    var r := seq(n, k requires 0 <= k < n =>
      var e := Reverse(m)[k]; Range(Value(e.lo), Value(e.hi), Value(e.step)));
    forall k | 0 <= k < n
      ensures CoversAll(layers, n, k, r[k]) && FromSomeLayer(layers, n, k, r[k])
    {
      AxisCorrect(layers, n, k, r[k]);
    }
    r
  }

  lemma AxisCorrect(layers: seq<seq<Range>>, n: nat, k: nat, rk: Range)
    requires n == NumDims(layers) && k < n
    requires |Merged(layers, n)| == n && Merged(layers, n)[n - 1 - k] == AxisMerge(layers, n - 1 - k)
    requires var e := AxisMerge(layers, n - 1 - k); rk == Range(Value(e.lo), Value(e.hi), Value(e.step))
    ensures CoversAll(layers, n, k, rk) && FromSomeLayer(layers, n, k, rk)
  {
    var j := n - 1 - k;
    var e := AxisMerge(layers, j);
    var w :| 0 <= w < |layers| && |layers[w]| == n;
    assert HasAxis(layers, w, j);
    forall i | Aligned(layers, n, i, k) ensures HasAxis(layers, i, j) && AxisOf(layers, i, j) == AlignedAxis(layers, n, i, k) {
    }
    forall i | HasAxis(layers, i, j) ensures Aligned(layers, n, i, k) {
    }
    forall p: Part ensures exists i :: Aligned(layers, n, i, k) && PartOf(rk, p) == PartOf(AlignedAxis(layers, n, i, k), p) {
      AxisMergeAttained(layers, j, p);
      var i :| HasAxis(layers, i, j) && ExtPart(e, p) == Fin(PartOf(AxisOf(layers, i, j), p));
      assert PartOf(rk, p) == Value(ExtPart(e, p));
      assert Aligned(layers, n, i, k);
    }
    forall i | Aligned(layers, n, i, k)
      ensures rk.lo <= AlignedAxis(layers, n, i, k).lo && AlignedAxis(layers, n, i, k).hi <= rk.hi &&
              rk.step <= AlignedAxis(layers, n, i, k).step
    {
      AxisMergeCovers(layers, j, Lo, i);
      AxisMergeCovers(layers, j, Hi, i);
      AxisMergeCovers(layers, j, Step, i);
      AxisMergeAttained(layers, j, Lo);
      AxisMergeAttained(layers, j, Hi);
      AxisMergeAttained(layers, j, Step);
    }
  }

  /** Adding a layer never shrinks an axis interval that was already there (axes counted from the end). */
  lemma AddingLayerWidens(layers: seq<seq<Range>>, layer: seq<Range>, j: nat)
    requires j < NumDims(layers)
    ensures var before := LayersRanges(layers);
            var after := LayersRanges(layers + [layer]);
            && j < |after|
            && after[|after| - 1 - j].lo <= before[|before| - 1 - j].lo
            && before[|before| - 1 - j].hi <= after[|after| - 1 - j].hi
            && after[|after| - 1 - j].step <= before[|before| - 1 - j].step
  {
    var all := layers + [layer];
    AxisMergeAppend(layers, layer, j);
    AxisMergeFinite(layers, j);
    MergeAxisWidens(AxisMerge(layers, j), FromEnd(layer, j));
    assert j < NumDims(all) by {
      var w :| 0 <= w < |layers| && |layers[w]| == NumDims(layers);
      assert all[w] == layers[w];
    }
    LayersRangesAxis(layers, j);
    LayersRangesAxis(all, j);
  }

  lemma AxisMergeAppend(layers: seq<seq<Range>>, layer: seq<Range>, j: nat)
    ensures AxisMerge(layers + [layer], j) == MergeAxis(AxisMerge(layers, j), FromEnd(layer, j))
  {
    var all := layers + [layer];
    assert all[..|all| - 1] == layers;
  }

  /** Once some layer has axis `j`, its merged bounds are finite. */
  lemma AxisMergeFinite(layers: seq<seq<Range>>, j: nat)
    requires j < NumDims(layers)
    ensures var e := AxisMerge(layers, j); e.lo.Fin? && e.hi.Fin? && e.step.Fin?
  {
    var w :| 0 <= w < |layers| && |layers[w]| == NumDims(layers);
    assert HasAxis(layers, w, j);
    var e := AxisMerge(layers, j);
    forall p: Part ensures ExtPart(e, p).Fin? {
      AxisMergeAttained(layers, j, p);
      var i :| HasAxis(layers, i, j) && ExtPart(e, p) == Fin(PartOf(AxisOf(layers, i, j), p));
    }
    assert ExtPart(e, Lo).Fin? && ExtPart(e, Hi).Fin? && ExtPart(e, Step).Fin?;
  }

  /** Merging finite bounds with a layer's axis or the fill value moves them outward only. */
  lemma MergeAxisWidens(e: ExtRange, b: ExtRange)
    requires e.lo.Fin? && e.hi.Fin? && e.step.Fin?
    requires !b.lo.NegInf? && !b.hi.PosInf? && !b.step.NegInf?
    ensures var m := MergeAxis(e, b);
            && m.lo.Fin? && m.hi.Fin? && m.step.Fin?
            && Value(m.lo) <= Value(e.lo) && Value(e.hi) <= Value(m.hi) && Value(m.step) <= Value(e.step)
  {
  }

  /** Axis `j` counted from the end of `LayersRanges` is the per-axis reference merge with infinities dropped. */
  lemma LayersRangesAxis(layers: seq<seq<Range>>, j: nat)
    requires j < NumDims(layers)
    ensures var r := LayersRanges(layers);
            var e := AxisMerge(layers, j);
            r[|r| - 1 - j] == Range(Value(e.lo), Value(e.hi), Value(e.step))
  {
    MergedIsAxisMerge(layers, NumDims(layers));
  }

  /** `_calc_max_shape` / the max half of `_calc_bbox`: each axis's max. */
  function MaxShape(ranges: seq<Range>): (s: seq<real>)
    ensures |s| == |ranges| && forall k :: 0 <= k < |s| ==> s[k] == ranges[k].hi
  {
    seq(|ranges|, k requires 0 <= k < |ranges| => ranges[k].hi)
  }

  /** `_calc_min_shape` / the min half of `_calc_bbox`: each axis's min. */
  function MinShape(ranges: seq<Range>): (s: seq<real>)
    ensures |s| == |ranges| && forall k :: 0 <= k < |s| ==> s[k] == ranges[k].lo
  {
    seq(|ranges|, k requires 0 <= k < |ranges| => ranges[k].lo)
  }

  /** `max_shape` and `min_shape` of the merged ranges bound the layers: on every axis (layers aligned at
      their last axis) no layer reaches above the max or below the min, and some layer attains each. */
  lemma ShapesBoundLayers(layers: seq<seq<Range>>, k: int)
    requires 0 <= k < NumDims(layers)
    ensures var n, mx, mn := NumDims(layers), MaxShape(LayersRanges(layers)), MinShape(LayersRanges(layers));
      |mx| == |mn| == n &&
      (forall i :: Aligned(layers, n, i, k) ==>
         mn[k] <= AlignedAxis(layers, n, i, k).lo && AlignedAxis(layers, n, i, k).hi <= mx[k]) &&
      (exists i :: Aligned(layers, n, i, k) && AlignedAxis(layers, n, i, k).hi == mx[k]) &&
      (exists i :: Aligned(layers, n, i, k) && AlignedAxis(layers, n, i, k).lo == mn[k])
  {
    var r := LayersRanges(layers);
    assert CoversAll(layers, |r|, k, r[k]);
    assert PartFromLayer(layers, |r|, k, r[k], Hi) && PartFromLayer(layers, |r|, k, r[k], Lo);
  }
}

=== FILE: legacy_viewer.dfy ===
/** The earlier viewer model (`napari/components/_viewer/model.py`): guarded
    properties, of which status, help and title emit events while
    interactivity and cursor call into the Qt view; the topmost-selected-layer
    rule; the range projections and the default SVG view box.

    Calls into the Qt viewer (`_qtviewer`) are recorded in a log of `Call`s,
    events in a log of `Event`s. Layers are the viewer model's `Layer`. */
module LegacyViewer {
  import opened Common
  import LR = LayerRanges
  import VM = ViewerModel

  datatype Event =
    | StatusEvent(text: string)
    | HelpEvent(text: string)
    | TitleEvent(text: string)
    | ActiveMarkersEvent(index: int)

  /** A call into the Qt side of the viewer. */
  datatype Call =
    | SetViewInteractive(interactive: bool)
    | SetCursor(cursor: string, size: Option<int>)
    | Display(layer: Option<nat>)
    | SetFocus

  datatype Viewer = Viewer(
    status: string,
    help: string,
    title: string,
    interactive: bool,
    cursor: string,
    cursorSize: Option<int>,
    activeMarkers: Option<int>,   // None while the attribute has never been assigned
    top: Option<nat>,
    layers: seq<VM.Layer>,
    events: seq<Event>,
    calls: seq<Call>)

  /** The state `__init__` leaves; it never assigns `_active_markers`. */
  function Initial(title: string): (v: Viewer)
    ensures v.status == "Ready" && v.help == "" && v.cursor == "standard" && v.interactive
    ensures v.top.None? && v.activeMarkers.None? && v.layers == [] && v.events == [] && v.calls == []
  {
    Viewer("Ready", "", title, true, "standard", None, None, None, [], [], [])
  }

  // ---------------------------------------------------------------------
  // Guarded properties

  datatype Assignment =
    | StatusTo(status: string)
    | HelpTo(help: string)
    | TitleTo(title: string)
    | InteractiveTo(interactive: bool)
    | CursorTo(cursor: string)
    | CursorSizeTo(size: Option<int>)

  predicate Holds(v: Viewer, a: Assignment)
  {
    match a
    case StatusTo(s) => v.status == s
    case HelpTo(s) => v.help == s
    case TitleTo(s) => v.title == s
    case InteractiveTo(b) => v.interactive == b
    case CursorTo(s) => v.cursor == s
    case CursorSizeTo(n) => v.cursorSize == n
  }

  /** Status, help and title are observed through events. */
  predicate EmitsEvent(a: Assignment)
  {
    a.StatusTo? || a.HelpTo? || a.TitleTo?
  }

  /** Every property other than the one `a` writes, the layers and the selection agree. */
  predicate OthersUnchanged(v: Viewer, w: Viewer, a: Assignment)
  {
    && (!a.StatusTo? ==> v.status == w.status)
    && (!a.HelpTo? ==> v.help == w.help)
    && (!a.TitleTo? ==> v.title == w.title)
    && (!a.InteractiveTo? ==> v.interactive == w.interactive)
    && (!a.CursorTo? ==> v.cursor == w.cursor)
    && (!a.CursorSizeTo? ==> v.cursorSize == w.cursorSize)
    && v.activeMarkers == w.activeMarkers && v.top == w.top && v.layers == w.layers
  }

  /** A guarded setter. The current value changes nothing. Otherwise the value
      is stored and exactly one effect is recorded: an event for status, help
      and title; for interactivity and the cursor, one call to the Qt view
      (the cursor call passes the size and the size call passes the cursor). */
  function SetProperty(v: Viewer, a: Assignment): (r: Viewer)
    ensures Holds(r, a)
    ensures Holds(v, a) ==> r == v
    ensures !Holds(v, a) && EmitsEvent(a) ==> r.calls == v.calls && |r.events| == |v.events| + 1
    ensures !Holds(v, a) && !EmitsEvent(a) ==> r.events == v.events && |r.calls| == |v.calls| + 1
    ensures a.CursorTo? && !Holds(v, a) ==> r.calls[|r.calls| - 1] == SetCursor(a.cursor, v.cursorSize)
    ensures a.CursorSizeTo? && !Holds(v, a) ==> r.calls[|r.calls| - 1] == SetCursor(v.cursor, a.size)
    ensures OthersUnchanged(r, v, a)
  {
    if Holds(v, a) then v
    else
      match a
      case StatusTo(s) => v.(status := s, events := v.events + [StatusEvent(s)])
      case HelpTo(s) => v.(help := s, events := v.events + [HelpEvent(s)])
      case TitleTo(s) => v.(title := s, events := v.events + [TitleEvent(s)])
      case InteractiveTo(b) => v.(interactive := b, calls := v.calls + [SetViewInteractive(b)])
      case CursorTo(c) => v.(cursor := c, calls := v.calls + [SetCursor(c, v.cursorSize)])
      case CursorSizeTo(n) => v.(cursorSize := n, calls := v.calls + [SetCursor(v.cursor, n)])
  }

  /** Assigning the same value twice is the same as assigning it once. */
  lemma SetPropertyIdempotent(v: Viewer, a: Assignment)
    ensures SetProperty(SetProperty(v, a), a) == SetProperty(v, a)
  {
  }

  /** The `active_markers` setter as written: its getter reads an attribute that
      `__init__` never assigns, so the first assignment raises AttributeError. */
  function SetActiveMarkers(v: Viewer, index: int): (r: Result<Viewer>)
    ensures r.Err? <==> v.activeMarkers.None?
    ensures r.Err? ==> r.error.AttributeError?
    ensures r.Ok? ==> r.value.activeMarkers == Some(index)
    ensures r.Ok? && v.activeMarkers == Some(index) ==> r.value == v
    ensures r.Ok? && v.activeMarkers != Some(index) ==> r.value.events == v.events + [ActiveMarkersEvent(index)]
  {
    match v.activeMarkers
    case None => Err(AttributeError("_active_markers"))
    case Some(current) =>
      if current == index then Ok(v)
      else Ok(v.(activeMarkers := Some(index), events := v.events + [ActiveMarkersEvent(index)]))
  }

  /** A fresh viewer cannot take an active markers index. */
  lemma ActiveMarkersFailsOnFreshViewer(title: string, index: int)
    ensures SetActiveMarkers(Initial(title), index) == Err(AttributeError("_active_markers"))
  {
  }

  /** The `active_markers` setter once the attribute starts out as Python's None
      (`self._active_markers = None` in `__init__`): None never equals an
      index, so the first assignment stores it and emits one event. */
  function SetActiveMarkersInitialised(v: Viewer, index: int): (r: Viewer)
    ensures r.activeMarkers == Some(index)
    ensures v.activeMarkers == Some(index) ==> r == v
    ensures v.activeMarkers != Some(index) ==> r.events == v.events + [ActiveMarkersEvent(index)]
    ensures r.calls == v.calls && r.layers == v.layers
  {
    if v.activeMarkers == Some(index) then v
    else v.(activeMarkers := Some(index), events := v.events + [ActiveMarkersEvent(index)])
  }

  /** On a fresh viewer the initialised setter always succeeds and the getter then returns the index. */
  lemma ActiveMarkersRoundTrip(title: string, index: int)
    ensures var r := SetActiveMarkersInitialised(Initial(title), index);
            r.activeMarkers == Some(index) && r.events == [ActiveMarkersEvent(index)]
  {
  }

  // ---------------------------------------------------------------------
  // Layer selection

  /** Position of the topmost (last-in-list) selected layer. */
  function TopSelected(layers: seq<VM.Layer>): (r: Option<nat>)
    ensures r.None? <==> forall k :: 0 <= k < |layers| ==> !layers[k].selected
    ensures r.Some? ==> r.value < |layers| && layers[r.value].selected
    ensures r.Some? ==> forall k :: r.value < k < |layers| ==> !layers[k].selected
  {
    if layers == [] then None
    else if layers[|layers| - 1].selected then Some(|layers| - 1)
    else
      var init := layers[..|layers| - 1];
      assert forall k :: 0 <= k < |init| ==> init[k] == layers[k];
      TopSelected(init)
  }

  /** `_update_layer_selection`: the topmost selected layer is displayed in the
      control panel, its status, help, cursor and interactivity are copied and it
      becomes `_top`; with none selected the panel shows nothing, the values reset
      to 'Ready', '', 'standard', True and `_top` is None. The canvas takes focus last. */
  function UpdateLayerSelection(v: Viewer): (r: Viewer)
    ensures r.layers == v.layers && r.title == v.title && r.cursorSize == v.cursorSize
    ensures r.activeMarkers == v.activeMarkers
    ensures r.top == TopSelected(v.layers)
    ensures r.top.Some? <==> exists k :: 0 <= k < |v.layers| && v.layers[k].selected
    ensures r.top.Some? ==>
      var l := v.layers[r.top.value];
      && l.selected && (forall k :: r.top.value < k < |v.layers| ==> !v.layers[k].selected)
      && r.status == l.status && r.help == l.help && r.cursor == l.cursor && r.interactive == l.interactive
    ensures r.top.None? ==> r.status == "Ready" && r.help == "" && r.cursor == "standard" && r.interactive
    ensures |r.calls| >= |v.calls| + 2 && r.calls[|v.calls|] == Display(r.top) && r.calls[|r.calls| - 1] == SetFocus
  {
    var top := TopSelected(v.layers);
    var (s, h, c, i) :=
      match top
      case None => ("Ready", "", "standard", true)
      case Some(k) => (v.layers[k].status, v.layers[k].help, v.layers[k].cursor, v.layers[k].interactive);
    var v0 := v.(calls := v.calls + [Display(top)]);
    var v4 := SetProperty(SetProperty(SetProperty(SetProperty(v0, StatusTo(s)), HelpTo(h)), CursorTo(c)), InteractiveTo(i));
    assert v4.calls[..|v0.calls|] == v0.calls by {
      CallsGrow(v0, [StatusTo(s), HelpTo(h), CursorTo(c), InteractiveTo(i)]);
    }
    assert v4.calls[|v.calls|] == v4.calls[..|v0.calls|][|v.calls|];
    v4.(top := top, calls := v4.calls + [SetFocus])
  }

  function SetAll(v: Viewer, as_: seq<Assignment>): Viewer
    decreases as_
  {
    if as_ == [] then v else SetAll(SetProperty(v, as_[0]), as_[1..])
  }

  /** Setters only append to the call log. */
  lemma {:induction false} CallsGrow(v: Viewer, as_: seq<Assignment>)
    ensures |v.calls| <= |SetAll(v, as_).calls|
    ensures SetAll(v, as_).calls[..|v.calls|] == v.calls
    decreases as_
  {
    if as_ != [] {
      var w := SetProperty(v, as_[0]);
      CallsGrow(w, as_[1..]);
      assert w.calls[..|v.calls|] == v.calls;
    }
  }

  // ---------------------------------------------------------------------
  // Ranges and SVG view box

  /** `_calc_layers_ranges`: the same trailing-aligned merge as the viewer model. */
  function LayersRanges(v: Viewer): (r: seq<LR.Range>)
    ensures |r| == LR.NumDims(VM.Ranges(v.layers))
    ensures forall k :: 0 <= k < |r| ==> LR.CoversAll(VM.Ranges(v.layers), |r|, k, r[k])
    ensures forall k :: 0 <= k < |r| ==> LR.FromSomeLayer(VM.Ranges(v.layers), |r|, k, r[k])
  {
    LR.LayersRanges(VM.Ranges(v.layers))
  }

  /** The default view box of `to_svg`: the last two axes' mins and then their
      extents, each pair reversed so that the last axis comes first. */
  function SvgViewBox(ranges: seq<LR.Range>): (box: seq<real>)
    ensures |box| == 2 * (if |ranges| < 2 then |ranges| else 2)
    ensures |ranges| >= 2 ==>
      var x := ranges[|ranges| - 1];
      var y := ranges[|ranges| - 2];
      box[0] == x.lo && box[1] == y.lo && box[2] == x.hi - x.lo && box[3] == y.hi - y.lo
    ensures |ranges| == 1 ==> box[0] == ranges[0].lo && box[1] == ranges[0].hi - ranges[0].lo
  {
    var lo := LastN(LR.MinShape(ranges), 2);
    var hi := LastN(LR.MaxShape(ranges), 2);
    var extent := seq(|hi|, k requires 0 <= k < |hi| => hi[k] - lo[k]);
    var box := Reverse(lo) + Reverse(extent);
    SvgViewBoxParts(ranges, lo, hi, extent, box);
    box
  }

  lemma ReverseTwo<T>(a: seq<T>)
    requires |a| == 2
    ensures Reverse(a) == [a[1], a[0]]
  {
  }

  lemma ReverseOne<T>(a: seq<T>)
    requires |a| == 1
    ensures Reverse(a) == a
  {
  }

  lemma SvgViewBoxParts(ranges: seq<LR.Range>, lo: seq<real>, hi: seq<real>, extent: seq<real>, box: seq<real>)
    requires lo == LastN(LR.MinShape(ranges), 2) && hi == LastN(LR.MaxShape(ranges), 2)
    requires |extent| == |hi| && forall k :: 0 <= k < |hi| ==> extent[k] == hi[k] - lo[k]
    requires box == Reverse(lo) + Reverse(extent)
    ensures |box| == 2 * (if |ranges| < 2 then |ranges| else 2)
    ensures |ranges| >= 2 ==>
      var x := ranges[|ranges| - 1];
      var y := ranges[|ranges| - 2];
      box[0] == x.lo && box[1] == y.lo && box[2] == x.hi - x.lo && box[3] == y.hi - y.lo
    ensures |ranges| == 1 ==> box[0] == ranges[0].lo && box[1] == ranges[0].hi - ranges[0].lo
  {
    var n := |ranges|;
    if n >= 2 {
      SvgViewBoxTwo(ranges, lo, hi, extent, box);
    } else if n == 1 {
      ReverseOne(lo);
      ReverseOne(extent);
    }
  }

  lemma SvgViewBoxTwo(ranges: seq<LR.Range>, lo: seq<real>, hi: seq<real>, extent: seq<real>, box: seq<real>)
    requires |ranges| >= 2
    requires lo == LastN(LR.MinShape(ranges), 2) && hi == LastN(LR.MaxShape(ranges), 2)
    requires |extent| == |hi| && forall k :: 0 <= k < |hi| ==> extent[k] == hi[k] - lo[k]
    requires box == Reverse(lo) + Reverse(extent)
    ensures var x := ranges[|ranges| - 1];
      var y := ranges[|ranges| - 2];
      |box| == 4 && box[0] == x.lo && box[1] == y.lo && box[2] == x.hi - x.lo && box[3] == y.hi - y.lo
  {
    var n := |ranges|;
    assert |lo| == 2 && |hi| == 2;
    assert lo[0] == ranges[n - 2].lo && lo[1] == ranges[n - 1].lo;
    assert hi[0] == ranges[n - 2].hi && hi[1] == ranges[n - 1].hi;
    ReverseTwo(lo);
    ReverseTwo(extent);
  }
}
=== FILE: linalg.dfy ===
/** Real vectors and matrices, as much as affine composition needs:
    dot products, matrix-vector and matrix-matrix products, and the laws
    that make `(A1 A2) x = A1 (A2 x)`. Matrices are sequences of rows. */
module LinAlg {

  type Vec = seq<real>

  type Mat = seq<seq<real>>

  /** `m` has `rows` rows of `cols` entries each. */
  predicate IsMatrix(m: Mat, rows: nat, cols: nat)
  {
    |m| == rows && forall i :: 0 <= i < rows ==> |m[i]| == cols
  }

  /** `a[0] * b[0] + ... + a[n - 1] * b[n - 1]`. */
  function DotN(a: Vec, b: Vec, n: nat): real
    requires n <= |a| && n <= |b|
  {
    if n == 0 then 0.0 else DotN(a, b, n - 1) + a[n - 1] * b[n - 1]
  }

  function Dot(a: Vec, b: Vec): real
    requires |a| == |b|
  {
    DotN(a, b, |a|)
  }

  function Add(a: Vec, b: Vec): (r: Vec)
    requires |a| == |b|
    ensures |r| == |a| && forall i :: 0 <= i < |a| ==> r[i] == a[i] + b[i]
  {
    seq(|a|, i requires 0 <= i < |a| => a[i] + b[i])
  }

  function Zeros(n: nat): (r: Vec)
    ensures |r| == n && forall i :: 0 <= i < n ==> r[i] == 0.0
  {
    seq(n, _ => 0.0)
  }

  /** The `n` by `n` identity (`np.eye(n)`). */
  function Eye(n: nat): (m: Mat)
    ensures IsMatrix(m, n, n)
    ensures forall i, j :: 0 <= i < n && 0 <= j < n ==> m[i][j] == if i == j then 1.0 else 0.0
  {
    seq(n, i => seq(n, j => if i == j then 1.0 else 0.0))
  }

  /** Column `j` of an `rows`-row matrix. */
  function Col(m: Mat, j: nat): (c: Vec)
    requires forall i :: 0 <= i < |m| ==> j < |m[i]|
    ensures |c| == |m| && forall i :: 0 <= i < |m| ==> c[i] == m[i][j]
  {
    seq(|m|, i requires 0 <= i < |m| => m[i][j])
  }

  /** `m @ x`. */
  function MatVec(m: Mat, x: Vec): (r: Vec)
    requires forall i :: 0 <= i < |m| ==> |m[i]| == |x|
    ensures |r| == |m| && forall i :: 0 <= i < |m| ==> r[i] == Dot(m[i], x)
  {
    seq(|m|, i requires 0 <= i < |m| => Dot(m[i], x))
  }

  /** `a @ m`: the row vector `a` times a matrix with `|a|` rows of `cols` entries. */
  function VecMat(a: Vec, m: Mat, cols: nat): (r: Vec)
    requires IsMatrix(m, |a|, cols)
    ensures |r| == cols && forall j :: 0 <= j < cols ==> r[j] == Dot(a, Col(m, j))
  {
    seq(cols, j requires 0 <= j < cols => Dot(a, Col(m, j)))
  }

  /** `a @ b` for an `n`-column `a` and an `n` by `cols` matrix `b`. */
  function MatMul(a: Mat, b: Mat, n: nat, cols: nat): (r: Mat)
    requires IsMatrix(a, |a|, n) && IsMatrix(b, n, cols)
    ensures IsMatrix(r, |a|, cols)
    ensures forall i :: 0 <= i < |a| ==> r[i] == VecMat(a[i], b, cols)
  {
    seq(|a|, i requires 0 <= i < |a| => VecMat(a[i], b, cols))
  }

  /** `u + c * w`. */
  function AddScaled(u: Vec, c: real, w: Vec): (r: Vec)
    requires |u| == |w|
    ensures |r| == |u| && forall j :: 0 <= j < |u| ==> r[j] == u[j] + c * w[j]
  {
    seq(|u|, j requires 0 <= j < |u| => u[j] + c * w[j])
  }

  lemma {:induction false} DotNLinear(u: Vec, w: Vec, c: real, x: Vec, n: nat)
    requires |u| == |w| == |x| && n <= |u|
    ensures DotN(AddScaled(u, c, w), x, n) == DotN(u, x, n) + c * DotN(w, x, n)
  {
    if n > 0 {
      DotNLinear(u, w, c, x, n - 1);
      var k := n - 1;
      assert AddScaled(u, c, w)[k] * x[k] == u[k] * x[k] + c * (w[k] * x[k]);
    }
  }

  /** The dot product is linear in its first argument. */
  lemma DotLinear(u: Vec, w: Vec, c: real, x: Vec)
    requires |u| == |w| == |x|
    ensures Dot(AddScaled(u, c, w), x) == Dot(u, x) + c * Dot(w, x)
  {
    DotNLinear(u, w, c, x, |u|);
  }

  lemma {:induction false} DotNAdd(a: Vec, u: Vec, v: Vec, n: nat)
    requires |a| == |u| == |v| && n <= |a|
    ensures DotN(a, Add(u, v), n) == DotN(a, u, n) + DotN(a, v, n)
  {
    if n > 0 {
      DotNAdd(a, u, v, n - 1);
      var k := n - 1;
      assert a[k] * (u[k] + v[k]) == a[k] * u[k] + a[k] * v[k];
    }
  }

  /** The dot product distributes over vector addition in its second argument. */
  lemma DotAdd(a: Vec, u: Vec, v: Vec)
    requires |a| == |u| == |v|
    ensures Dot(a, Add(u, v)) == Dot(a, u) + Dot(a, v)
  {
    DotNAdd(a, u, v, |a|);
  }

  lemma {:induction false} DotNZeros(x: Vec, n: nat)
    requires n <= |x|
    ensures DotN(Zeros(|x|), x, n) == 0.0
  {
    if n > 0 {
      DotNZeros(x, n - 1);
    }
  }

  /** `a[..k] @ m[..k]`: the row combination of the first `k` rows. */
  function PartialVecMat(a: Vec, m: Mat, cols: nat, k: nat): (r: Vec)
    requires IsMatrix(m, |a|, cols) && k <= |a|
    ensures |r| == cols && forall j :: 0 <= j < cols ==> r[j] == DotN(a, Col(m, j), k)
  {
    seq(cols, j requires 0 <= j < cols => DotN(a, Col(m, j), k))
  }

  /** `a[..k] . (m x)[..k] = (a[..k] m[..k]) . x`. */
  lemma {:induction false} DotNMatVec(a: Vec, m: Mat, x: Vec, k: nat)
    requires IsMatrix(m, |a|, |x|) && k <= |a|
    ensures DotN(a, MatVec(m, x), k) == Dot(PartialVecMat(a, m, |x|, k), x)
  {
    if k == 0 {
      assert PartialVecMat(a, m, |x|, 0) == Zeros(|x|);
      DotNZeros(x, |x|);
    } else {
      var i := k - 1;
      DotNMatVec(a, m, x, i);
      var p := PartialVecMat(a, m, |x|, i);
      var q := PartialVecMat(a, m, |x|, k);
      forall j | 0 <= j < |x| ensures q[j] == AddScaled(p, a[i], m[i])[j] {
        assert Col(m, j)[i] == m[i][j];
        assert a[i] * m[i][j] == m[i][j] * a[i];
      }
      assert q == AddScaled(p, a[i], m[i]);
      DotLinear(p, m[i], a[i], x);
    }
  }

  /** `a . (m x) = (a m) . x`: the two ways of summing `a[k] m[k][j] x[j]`. */
  lemma DotMatVec(a: Vec, m: Mat, x: Vec)
    requires IsMatrix(m, |a|, |x|)
    ensures Dot(a, MatVec(m, x)) == Dot(VecMat(a, m, |x|), x)
  {
    DotNMatVec(a, m, x, |a|);
    assert PartialVecMat(a, m, |x|, |a|) == VecMat(a, m, |x|);
  }

  /** Matrix product and application agree: `(a @ b) @ x == a @ (b @ x)`. */
  lemma MatMulApply(a: Mat, b: Mat, n: nat, x: Vec)
    requires IsMatrix(a, |a|, n) && IsMatrix(b, n, |x|)
    ensures MatVec(MatMul(a, b, n, |x|), x) == MatVec(a, MatVec(b, x))
  {
    forall i | 0 <= i < |a|
      ensures MatVec(MatMul(a, b, n, |x|), x)[i] == MatVec(a, MatVec(b, x))[i]
    {
      DotMatVec(a[i], b, x);
    }
  }

  /** Matrix application distributes over vector addition. */
  lemma MatVecAdd(m: Mat, u: Vec, v: Vec)
    requires |u| == |v| && forall i :: 0 <= i < |m| ==> |m[i]| == |u|
    ensures MatVec(m, Add(u, v)) == Add(MatVec(m, u), MatVec(m, v))
  {
    forall i | 0 <= i < |m|
      ensures MatVec(m, Add(u, v))[i] == Add(MatVec(m, u), MatVec(m, v))[i]
    {
      DotAdd(m[i], u, v);
    }
  }
}

=== FILE: misc.dfy ===
/** Shape and metadata helpers of the image layer (`gui/util/misc.py`):
    whether metadata marks an image as multichannel, the shape-based guess,
    the metadata merge, and the left-aligned maximum of several shapes. */
module Misc {
  import opened Common

  /** A metadata value: only strings matter to `is_multichannel`. */
  datatype MetaValue = Str(s: string) | Other(code: int)

  type Meta = map<string, MetaValue>

  /** The `itype` values that mean multichannel. */
  predicate MultichannelType(s: string)
  {
    s == "rgb" || s == "rgba" || s == "multi" || s == "multichannel"
  }

  /** `is_multichannel`: `meta['itype']` is one of the multichannel names; a missing key gives False. */
  function IsMultichannel(meta: Meta): (r: bool)
    ensures r <==> "itype" in meta && meta["itype"].Str? && MultichannelType(meta["itype"].s)
    ensures "itype" !in meta ==> !r
  {
    if "itype" in meta then
      match meta["itype"]
      case Str(s) => s == "rgb" || s == "rgba" || s == "multi" || s == "multichannel"
      case Other(_) => false
    else false
  }

  function Sum(xs: seq<int>): int
  {
    if xs == [] then 0 else xs[0] + Sum(xs[1..])
  }

  /** The mean of all dims but the last, as the true division `sum / len` computes it. */
  function Average(shape: seq<int>): real
    requires |shape| >= 2
  {
    Sum(shape[..|shape| - 1]) as real / (|shape| - 1) as real
  }

  /** The last dim is within 5% (plus one) of the average of the others. */
  predicate InBand(average: real, last: real)
  {
    average * 0.95 - 1.0 <= last <= average * 1.05 + 1.0
  }

  /** `guess_multichannel`: False when the last dim is about the size of the
      others; True for 3 or 4 channels over an average above 10; otherwise
      whether the average exceeds the last dim by more than 100 times it.
      An empty shape raises IndexError, a one-dim shape ZeroDivisionError. */
  function GuessMultichannel(shape: seq<int>): (r: Result<bool>)
    ensures |shape| == 0 <==> r.Err? && r.error.IndexError?
    ensures |shape| == 1 <==> r.Err? && r.error.ZeroDivisionError?
    ensures r.Ok? <==> |shape| >= 2
    ensures r.Ok? && InBand(Average(shape), shape[|shape| - 1] as real) ==> !r.value
    ensures r.Ok? && !InBand(Average(shape), shape[|shape| - 1] as real) ==>
      var last := shape[|shape| - 1];
      var avg := Average(shape);
      (r.value <==> ((last == 3 || last == 4) && avg > 10.0) || avg - last as real > last as real * 100.0)
  {
    if |shape| == 0 then Err(IndexError("tuple index out of range"))
    else if |shape| == 1 then Err(ZeroDivisionError("division by zero"))
    else
      var last := shape[|shape| - 1] as real;
      var average := Average(shape);
      if InBand(average, last) then Ok(false)
      else if (last == 3.0 || last == 4.0) && average > 10.0 then Ok(true)
      else Ok(average - last > last * 100.0)
  }

  /** A guessed multichannel image with non-negative dims has a last dim of 3
      or 4, or one over a hundred times smaller than the average of the others. */
  lemma GuessedMultichannelShape(shape: seq<int>)
    requires GuessMultichannel(shape) == Ok(true)
    requires forall k :: 0 <= k < |shape| ==> shape[k] >= 0
    ensures var last := shape[|shape| - 1];
            ((last == 3 || last == 4) && Average(shape) > 10.0) || Average(shape) > 101.0 * last as real
  {
  }

  /** `guess_metadata`: a dict `meta` is copied and updated with `kwargs`
      (kwargs win), a missing one is replaced by `kwargs`; when `multichannel`
      is given true, or is missing and guessed true from the shape, `itype`
      becomes 'multi'. A failing guess raises its error. */
  function GuessMetadata(shape: seq<int>, meta: Option<Meta>, multichannel: Option<bool>, kwargs: Meta): (r: Result<Meta>)
    ensures r.Err? <==> multichannel.None? && GuessMultichannel(shape).Err?
    ensures r.Ok? ==>
      var multi := if multichannel.Some? then multichannel.value else GuessMultichannel(shape).value;
      var base := if meta.Some? then meta.value else map[];
      && r.value.Keys == base.Keys + kwargs.Keys + (if multi then {"itype"} else {})
      && (forall k :: k in kwargs && !(multi && k == "itype") ==> r.value[k] == kwargs[k])
      && (forall k :: k in base && k !in kwargs && !(multi && k == "itype") ==> r.value[k] == base[k])
      && (multi ==> r.value["itype"] == Str("multi"))
  {
    var merged := if meta.Some? then meta.value + kwargs else kwargs;
    var guess := if multichannel.Some? then Ok(multichannel.value) else GuessMultichannel(shape);
    match guess
    case Err(e) => Err(e)
    case Ok(multi) => if multi then Ok(merged["itype" := Str("multi")]) else Ok(merged)
  }

  /** Metadata built with `multichannel=True` is recognised as multichannel, whatever the inputs said. */
  lemma MetadataRoundTrip(shape: seq<int>, meta: Option<Meta>, kwargs: Meta)
    ensures GuessMetadata(shape, meta, Some(true), kwargs).Ok?
    ensures IsMultichannel(GuessMetadata(shape, meta, Some(true), kwargs).value)
  {
  }

  // ---------------------------------------------------------------------
  // compute_max_shape

  function MaxLen(shapes: seq<seq<int>>): (n: nat)
    requires shapes != []
    ensures forall i :: 0 <= i < |shapes| ==> |shapes[i]| <= n
    ensures exists i :: 0 <= i < |shapes| && |shapes[i]| == n
  {
    if |shapes| == 1 then |shapes[0]|
    else
      var rest := MaxLen(shapes[1..]);
      assert forall i :: 1 <= i < |shapes| ==> shapes[i] == shapes[1..][i - 1];
      if |shapes[0]| > rest then |shapes[0]| else rest
  }

  /** Reference value of axis `d`: the largest entry at position `d` over the
      first `count` shapes that have that axis, starting from 0. */
  function AxisMax(shapes: seq<seq<int>>, d: nat, count: nat): int
    requires count <= |shapes|
  {
    if count == 0 then 0
    else
      var rest := AxisMax(shapes, d, count - 1);
      var s := shapes[count - 1];
      if d < |s| && s[d] > rest then s[d] else rest
  }

  lemma {:induction false} AxisMaxBounds(shapes: seq<seq<int>>, d: nat, count: nat)
    requires count <= |shapes|
    ensures AxisMax(shapes, d, count) >= 0
    ensures forall i :: 0 <= i < count && d < |shapes[i]| ==> shapes[i][d] <= AxisMax(shapes, d, count)
    ensures AxisMax(shapes, d, count) == 0 ||
            exists i :: 0 <= i < count && d < |shapes[i]| && shapes[i][d] == AxisMax(shapes, d, count)
  {
    if count > 0 {
      AxisMaxBounds(shapes, d, count - 1);
    }
  }

  /** `compute_max_shape`: `max_dims` axes (by default the longest shape's length;
      ValueError for no shapes), each the largest entry any shape has on that
      axis, shapes aligned at their first axis, never below 0. */
  method ComputeMaxShape(shapes: seq<seq<int>>, maxDims: Option<int>) returns (r: Result<seq<int>>)
    ensures r.Err? <==> maxDims.None? && shapes == []
    ensures r.Err? ==> r.error.ValueError?
    ensures r.Ok? ==> |r.value| == if maxDims.Some? then (if maxDims.value < 0 then 0 else maxDims.value) else MaxLen(shapes)
    ensures r.Ok? ==> forall d :: 0 <= d < |r.value| ==> r.value[d] == AxisMax(shapes, d, |shapes|)
    ensures r.Ok? ==> forall i, d :: 0 <= i < |shapes| && 0 <= d < |r.value| && d < |shapes[i]| ==> shapes[i][d] <= r.value[d]
  {
    var n: int;
    if maxDims.None? {
      if shapes == [] {
        return Err(ValueError("max() arg is an empty sequence"));
      }
      n := MaxLen(shapes);
    } else {
      n := maxDims.value;
    }
    var count: nat := if n < 0 then 0 else n;
    var maxShape := seq(count, _ => 0);
    var dim := 0;
    while dim < count
      invariant 0 <= dim <= count && |maxShape| == count
      invariant forall d :: 0 <= d < dim ==> maxShape[d] == AxisMax(shapes, d, |shapes|)
      invariant forall d :: dim <= d < count ==> maxShape[d] == 0
    {
      var j := 0;
      while j < |shapes|
        invariant 0 <= j <= |shapes| && |maxShape| == count
        invariant maxShape[dim] == AxisMax(shapes, dim, j)
        invariant forall d :: 0 <= d < dim ==> maxShape[d] == AxisMax(shapes, d, |shapes|)
        invariant forall d :: dim < d < count ==> maxShape[d] == 0
      {
        var shape := shapes[j];
        if dim < |shape| {
          if shape[dim] > maxShape[dim] {
            maxShape := maxShape[dim := shape[dim]];
          }
        }
        j := j + 1;
      }
      dim := dim + 1;
    }
    forall d | 0 <= d < count {
      AxisMaxBounds(shapes, d, |shapes|);
    }
    return Ok(maxShape);
  }
}

=== FILE: rectangles.dfy ===
/** The rectangles annotation layer's selection and editing state:
    the boxes, the current selection, the drag start and the corner held
    fixed while a vertex is dragged, with `_add`, `_remove` and `_move`. */
module Rectangles {
  import opened Common
  import opened BoxGeometry
  import opened BoxEdit

  datatype Layer = Layer(
    data: seq<Box>,
    dim: nat,
    size: real,
    name: string,
    selected: Option<Selection>,
    dragStart: Option<Point>,
    fixed: Option<Point>)

  /** The states the layer's operations keep: well-formed data, a
      selection naming an existing box and one of its four vertices, and a
      fixed corner on the two displayed axes. */
  predicate Valid(l: Layer)
  {
    && WellFormed(l.data, l.dim)
    && (l.selected.Some? ==>
          l.selected.value.index < |l.data| && (l.selected.value.vertex.Some? ==> l.selected.value.vertex.value < 4))
    && (l.dragStart.Some? ==> |l.dragStart.value| == l.dim)
    && (l.fixed.Some? ==> |l.fixed.value| == 2)
  }

  /** `_add`: appends the clamped new box and selects it, with vertex 2 (the
      far corner) when it was dragged out. A click-added box has two
      displayed coordinates, so appending it to wider data raises ValueError. */
  function Add(l: Layer, coord: Point, second: Option<Point>, maxShape: seq<real>): (r: Result<Layer>)
    requires Valid(l) && |coord| == l.dim && (second.Some? ==> |second.value| == l.dim) && |maxShape| >= 2
    ensures r.Err? <==> second.None? && l.dim != 2
    ensures r.Err? ==> r.error.ValueError?
    ensures r.Ok? ==>
      var c := AddedCorners(coord, second, maxShape);
      && r.value.data == l.data + [Box(c.0, c.1)]
      && r.value.selected == Some(Selection(|l.data|, if second.None? then None else Some(2)))
      && r.value.dim == l.dim && r.value.dragStart == l.dragStart && r.value.fixed == l.fixed
    ensures r.Ok? ==> Valid(r.value)
  {
    if second.None? && l.dim != 2 then
      Err(ValueError("all the input array dimensions except for the concatenation axis must match exactly"))
    else
      var c := AddedCorners(coord, second, maxShape);
      Ok(l.(data := l.data + [Box(c.0, c.1)],
            selected := Some(Selection(|l.data|, if second.None? then None else Some(2)))))
  }

  /** `_remove`: nothing happens without a selection; otherwise the
      selected box is deleted, the others keep their order, and the
      selection is recomputed at the cursor. */
  function Remove(l: Layer, coord: Point): (r: Result<Layer>)
    requires Valid(l) && |coord| == l.dim
    ensures l.selected.None? ==> r == Ok(l)
    ensures r.Ok? && Valid(r.value)
    ensures l.selected.Some? ==>
      && r.value.dim == l.dim && r.value.dragStart == l.dragStart && r.value.fixed == l.fixed
      && r.value.data == Delete(l.data, l.selected.value.index)
      && r.value.selected == SelectedAt(r.value.data, r.value.dim, l.size, coord)
  {
    match l.selected
    case None => Ok(l)
    case Some(s) =>
      var data := Delete(l.data, s.index);
      Ok(l.(data := data, selected := SelectedAt(data, l.dim, l.size, coord)))
  }

  /** Adding a box and removing it again (the add leaves it selected)
      restores the layer, with the selection recomputed at the cursor. */
  lemma RemoveUndoesAdd(l: Layer, coord: Point, second: Option<Point>, maxShape: seq<real>, cursor: Point)
    requires Valid(l) && |coord| == l.dim && (second.Some? ==> |second.value| == l.dim) && |maxShape| >= 2
    requires |cursor| == l.dim
    requires Add(l, coord, second, maxShape).Ok?
    ensures Remove(Add(l, coord, second, maxShape).value, cursor) ==
            Ok(l.(selected := SelectedAt(l.data, l.dim, l.size, cursor)))
  {
    var a := Add(l, coord, second, maxShape).value;
    assert Delete(a.data, |l.data|) == l.data;
  }

  /** `_move`: nothing happens without a selection. With a whole box
      selected, it is moved (centred on the cursor, or shifted by the
      cursor's motion since the drag start, which then becomes the cursor)
      and kept on the canvas. With a vertex selected, the corner opposite
      it is fixed on first use and kept for later moves, and the dragged
      corner follows the cursor. The stored corners have two coordinates,
      so data with more axes raises ValueError. Other boxes are unchanged. */
  function Move(l: Layer, coord: Point, maxShape: seq<real>): (r: Result<Layer>)
    requires Valid(l) && |coord| == l.dim && |maxShape| >= 2
    ensures l.selected.None? ==> r == Ok(l)
    ensures r.Err? <==> l.selected.Some? && l.dim != 2
    ensures r.Err? ==> r.error.ValueError?
    ensures r.Ok? && l.selected.Some? ==>
      var i := l.selected.value.index;
      && |r.value.data| == |l.data|
      && (forall j :: 0 <= j < |l.data| && j != i ==> r.value.data[j] == l.data[j])
      && r.value.selected == l.selected
    ensures r.Ok? && l.selected.Some? && l.selected.value.vertex.None? ==>
      var i := l.selected.value.index;
      var m := MovedBox(l.data[i], coord, l.dragStart, maxShape);
      && r.value.data[i] == Box(m.0, m.1)
      && r.value.dragStart == (if l.dragStart.None? then None else Some(coord))
      && r.value.fixed == l.fixed
    ensures r.Ok? && l.selected.Some? && l.selected.value.vertex.Some? ==>
      var i := l.selected.value.index;
      var v := l.selected.value.vertex.value;
      var f := if l.fixed.Some? then l.fixed.value else Expand(l.data[i], RectangleOrder)[Opposite(v)];
      && r.value.fixed == Some(f)
      && r.value.data[i] == Box(DraggedCorner(coord, f, v), f)
      && r.value.dragStart == l.dragStart
    ensures r.Ok? ==> Valid(r.value)
  {
    match l.selected
    case None => Ok(l)
    case Some(Selection(i, vertex)) =>
      if l.dim != 2 then Err(ValueError("could not broadcast input array into the box's row"))
      else
        match vertex
        case None =>
          var m := MovedBox(l.data[i], coord, l.dragStart, maxShape);
          Ok(l.(data := l.data[i := Box(m.0, m.1)],
                dragStart := if l.dragStart.None? then None else Some(coord)))
        case Some(v) =>
          var f := if l.fixed.Some? then l.fixed.value else Expand(l.data[i], RectangleOrder)[Opposite(v)];
          Ok(l.(data := l.data[i := Box(DraggedCorner(coord, f, v), f)], fixed := Some(f)))
  }

  /** A vertex drag never collapses the box: the moved box has positive
      extent on both displayed axes and the fixed corner is one of its vertices. */
  lemma VertexMoveKeepsArea(l: Layer, coord: Point, maxShape: seq<real>)
    requires Valid(l) && |coord| == l.dim && |maxShape| >= 2
    requires l.selected.Some? && l.selected.value.vertex.Some? && l.dim == 2
    ensures var b := Move(l, coord, maxShape).value.data[l.selected.value.index];
      && (forall k :: 0 <= k < 2 ==> b.p[k] != b.q[k])
      && exists w :: 0 <= w < 4 && Expand(b, RectangleOrder)[w] == b.q
  {
    var b := Move(l, coord, maxShape).value.data[l.selected.value.index];
    StoredCornersAreVertices(b, RectangleOrder);
    assert b.q[..2] == b.q;
  }

  /** A whole-box move within a canvas that fits the box keeps the box on
      the canvas and keeps its extent. */
  lemma WholeMoveStaysOnCanvas(l: Layer, coord: Point, maxShape: seq<real>)
    requires Valid(l) && |coord| == l.dim && |maxShape| >= 2
    requires l.selected.Some? && l.selected.value.vertex.None? && l.dim == 2
    ensures var i := l.selected.value.index;
      var c := Expand(l.data[i], RectangleOrder);
      var b := Move(l, coord, maxShape).value.data[i];
      forall k :: 0 <= k < 2 ==>
        && MaxReal(b.p[k], b.q[k]) - MinReal(b.p[k], b.q[k]) == c[2][k] - c[0][k]
        && (c[2][k] - c[0][k] <= maxShape[k] - 1.0 ==> 0.0 <= MinReal(b.p[k], b.q[k]) && MaxReal(b.p[k], b.q[k]) <= maxShape[k] - 1.0)
  {
    var i := l.selected.value.index;
    MovedBoxStaysOnCanvas(l.data[i], coord, l.dragStart, maxShape);
    var c := Expand(l.data[i], RectangleOrder);
    ExpandSpansBox(l.data[i], RectangleOrder);
    assert c[0][0] <= c[2][0] && c[0][1] <= c[2][1];
  }
}

=== FILE: texture.dfy ===
/** Fitting image data into a GPU texture (`napari/_vispy/vispy_image_layer.py`):
    the dtype coercion table, the extra leading axis for 2-D data shown in 3-D,
    and the downsampling of axes longer than the maximum texture size.
    Arrays are modelled by their dtype and shape only. */
module ImageTexture {
  import opened Common

  /** numpy's `dtype.kind` letters: i, u, f, b, and everything else. */
  datatype Kind = SignedInt | UnsignedInt | Float | Bool | OtherKind(letter: char)

  datatype DType = DType(kind: Kind, bits: nat)

  const Int8 := DType(SignedInt, 8)
  const UInt8 := DType(UnsignedInt, 8)
  const Int16 := DType(SignedInt, 16)
  const UInt16 := DType(UnsignedInt, 16)
  const Float32 := DType(Float, 32)

  /** `texture_dtypes`. */
  const TextureDTypes: seq<DType> := [Int8, UInt8, Int16, UInt16, Float32]

  /** The dtype a kind is cast to when its own size is not a texture dtype. */
  function KindTarget(k: Kind): Option<DType>
  {
    match k
    case SignedInt => Some(Int16)
    case Float => Some(Float32)
    case UnsignedInt => Some(UInt16)
    case Bool => Some(UInt8)
    case OtherKind(_) => None
  }

  /** The dtype coercion of `_set_node_data`: a texture dtype is kept, other
      integers, floats and booleans are cast by kind, anything else is a TypeError. */
  function CoerceDType(d: DType): (r: Result<DType>)
    ensures d in TextureDTypes ==> r == Ok(d)
    ensures r.Ok? ==> r.value in TextureDTypes
    ensures r.Ok? ==> r.value.kind == d.kind || (d.kind == Bool && r.value == UInt8)
    ensures r.Err? <==> d !in TextureDTypes && d.kind.OtherKind?
    ensures r.Err? ==> r.error.TypeError?
    ensures d !in TextureDTypes && d.kind == SignedInt ==> r == Ok(Int16)
    ensures d !in TextureDTypes && d.kind == Float ==> r == Ok(Float32)
    ensures d !in TextureDTypes && d.kind == UnsignedInt ==> r == Ok(UInt16)
    ensures d !in TextureDTypes && d.kind == Bool ==> r == Ok(UInt8)
  {
    if d in TextureDTypes then Ok(d)
    else
      match KindTarget(d.kind)
      case None => Err(TypeError("type not allowed for texture"))
      case Some(t) => Ok(t)
  }

  /** Coercing twice is coercing once: a coerced dtype is kept. */
  lemma CoerceIdempotent(d: DType)
    requires CoerceDType(d).Ok?
    ensures CoerceDType(CoerceDType(d).value) == CoerceDType(d)
  {
  }

  /** 2-D data shown in 3-D gains a leading axis of length 1. */
  function ExpandFor3D(shape: seq<nat>, ndisplay: nat, ndim: nat): (r: seq<nat>)
    ensures ndisplay == 3 && ndim == 2 ==> |r| == |shape| + 1 && r[0] == 1 && r[1..] == shape
    ensures !(ndisplay == 3 && ndim == 2) ==> r == shape
  {
    if ndisplay == 3 && ndim == 2 then [1] + shape else shape
  }

  /** `ceil(a / b)` on naturals. */
  function CeilDiv(a: nat, b: nat): (q: nat)
    requires b > 0
    ensures q * b >= a
    ensures q == 0 || (q - 1) * b < a
  {
    (a + b - 1) / b
  }


  /** Some axis is longer than the maximum texture size. */
  predicate Exceeds(shape: seq<nat>, maxSize: nat)
  {
    exists i :: 0 <= i < |shape| && shape[i] > maxSize
  }

  /** `np.ceil(np.divide(shape, max))`. */
  function Factors(shape: seq<nat>, maxSize: nat): (f: seq<nat>)
    requires maxSize > 0
    ensures |f| == |shape| && forall i :: 0 <= i < |shape| ==> f[i] == CeilDiv(shape[i], maxSize)
  {
    seq(|shape|, i requires 0 <= i < |shape| => CeilDiv(shape[i], maxSize))
  }

  /** An axis's downsampling factor is 0 exactly for an empty axis and 1
      exactly for a non-empty axis that already fits. */
  lemma AxisFactor(n: nat, maxSize: nat)
    requires maxSize > 0
    ensures CeilDiv(n, maxSize) == 0 <==> n == 0
    ensures CeilDiv(n, maxSize) == 1 <==> 0 < n <= maxSize
  {
  }

  /** Every factor is 1 exactly when no axis is empty and none is too long,
      i.e. the downsampling step leaves data that passes the check whole. */
  lemma FactorsAllOneIffFits(shape: seq<nat>, maxSize: nat)
    requires maxSize > 0
    ensures (forall i :: 0 <= i < |shape| ==> Factors(shape, maxSize)[i] == 1) <==>
            (!Exceeds(shape, maxSize) && forall i :: 0 <= i < |shape| ==> shape[i] > 0)
  {
    var f := Factors(shape, maxSize);
    forall i | 0 <= i < |shape|
      ensures f[i] == 1 <==> 0 < shape[i] <= maxSize
    {
      AxisFactor(shape[i], maxSize);
    }
  }

  /** `scale = ones(ndim)` with `scale[d] = factor[i]` for the `i`-th displayed axis `d`. */
  function TileScale(factors: seq<nat>, displayed: seq<nat>, ndim: nat): (r: Result<seq<nat>>)
    ensures r.Ok? <==> |displayed| <= |factors| && forall i :: 0 <= i < |displayed| ==> displayed[i] < ndim
    ensures r.Err? ==> r.error.IndexError?
    ensures r.Ok? ==> |r.value| == ndim
    ensures r.Ok? ==> forall d :: 0 <= d < ndim && d !in displayed ==> r.value[d] == 1
    ensures r.Ok? ==> forall d :: 0 <= d < ndim && d in displayed ==>
      exists i :: 0 <= i < |displayed| && displayed[i] == d && r.value[d] == factors[i]
  {
    if |displayed| > |factors| then Err(IndexError("index out of bounds"))
    else if exists i :: 0 <= i < |displayed| && displayed[i] >= ndim then Err(IndexError("index out of bounds"))
    else Ok(AssignScale(factors, displayed, ndim, |displayed|))
  }

  /** The scale after the first `k` assignments of the loop. */
  function AssignScale(factors: seq<nat>, displayed: seq<nat>, ndim: nat, k: nat): (r: seq<nat>)
    requires k <= |displayed| <= |factors|
    requires forall i :: 0 <= i < |displayed| ==> displayed[i] < ndim
    ensures |r| == ndim
    ensures forall d :: 0 <= d < ndim && d !in displayed[..k] ==> r[d] == 1
    ensures forall d :: 0 <= d < ndim && d in displayed[..k] ==>
      exists i :: 0 <= i < k && displayed[i] == d && r[d] == factors[i]
  {
    if k == 0 then seq(ndim, _ => 1)
    else
      var prev := AssignScale(factors, displayed, ndim, k - 1);
      assert displayed[..k] == displayed[..k - 1] + [displayed[k - 1]];
      prev[displayed[k - 1] := factors[k - 1]]
  }

  /** `len(range(0, n, step))`: the length of an axis sliced with `::step`. */
  function SlicedLength(n: nat, step: nat): nat
    requires step > 0
  {
    CeilDiv(n, step)
  }

  /** An axis of length `n` sliced with step `ceil(n / max)` fits in `max`. */
  lemma SlicedAxisFits(n: nat, maxSize: nat)
    requires maxSize > 0 && n > 0
    ensures CeilDiv(n, maxSize) > 0
    ensures SlicedLength(n, CeilDiv(n, maxSize)) <= maxSize
    ensures n <= maxSize ==> CeilDiv(n, maxSize) == 1 && SlicedLength(n, 1) == n
  {
    var f := CeilDiv(n, maxSize);
    assert f * maxSize >= n && (f == 0 || (f - 1) * maxSize < n);
    assert f > 0;
    var q := CeilDiv(n, f);
    assert q == 0 || (q - 1) * f < n;
    FitsCore(n, maxSize, f, q);
    if n <= maxSize && f >= 2 {
      MulMono(1, f - 1, maxSize);
    }
  }

  /** If `f * m >= n` and `(q - 1) * f < n` then `q <= m`. */
  lemma FitsCore(n: nat, m: nat, f: nat, q: nat)
    requires f * m >= n
    requires q == 0 || (q - 1) * f < n
    ensures q <= m
  {
    if q > m {
      MulMono(m, q - 1, f);
    }
  }

  lemma MulMono(a: nat, b: nat, c: nat)
    requires a <= b
    ensures a * c <= b * c
  {
  }

  /** Every axis of the downsampled shape fits. */
  lemma SlicedShapeFits(shape: seq<nat>, maxSize: nat)
    requires maxSize > 0
    requires forall i :: 0 <= i < |shape| ==> Factors(shape, maxSize)[i] != 0
    ensures forall i :: 0 <= i < |shape| ==> SlicedLength(shape[i], Factors(shape, maxSize)[i]) <= maxSize
  {
    forall i | 0 <= i < |shape|
      ensures SlicedLength(shape[i], Factors(shape, maxSize)[i]) <= maxSize
    {
      var f := Factors(shape, maxSize);
      assert f[i] != 0 && f[i] == CeilDiv(shape[i], maxSize);
      AxisFactor(shape[i], maxSize);
      SlicedAxisFits(shape[i], maxSize);
    }
  }

  /** Result of `downsample_texture`: the new shape and the tile-to-data scale
      it set (None when no axis was too long). */
  datatype Downsampled = Downsampled(shape: seq<nat>, scale: Option<seq<nat>>)

  /** `downsample_texture`: data within the limit is unchanged; too-long data on a
      multiscale layer is a ValueError; a displayed axis the scale cannot be assigned
      to is an IndexError; otherwise every axis is sliced with step `ceil(len / max)`,
      an empty axis making a zero step and so a ValueError. */
  function Downsample(shape: seq<nat>, maxSize: nat, multiscale: bool, displayed: seq<nat>, ndim: nat): (r: Result<Downsampled>)
    requires maxSize > 0
    ensures !Exceeds(shape, maxSize) ==> r == Ok(Downsampled(shape, None))
    ensures Exceeds(shape, maxSize) && multiscale ==> r.Err? && r.error.ValueError?
    ensures r.Ok? ==> |r.value.shape| == |shape|
    ensures r.Ok? ==> forall i :: 0 <= i < |shape| ==> r.value.shape[i] <= maxSize
    ensures r.Ok? && Exceeds(shape, maxSize) ==>
      && r.value.scale.Some?
      && TileScale(Factors(shape, maxSize), displayed, ndim) == Ok(r.value.scale.value)
      && forall i :: 0 <= i < |shape| ==>
           Factors(shape, maxSize)[i] > 0 && r.value.shape[i] == SlicedLength(shape[i], Factors(shape, maxSize)[i])
    ensures (Exceeds(shape, maxSize) && !multiscale &&
             !(|displayed| <= |shape| && forall i :: 0 <= i < |displayed| ==> displayed[i] < ndim)) ==>
      r.Err? && r.error.IndexError?
    ensures (Exceeds(shape, maxSize) && !multiscale &&
             |displayed| <= |shape| && forall i :: 0 <= i < |displayed| ==> displayed[i] < ndim) ==>
      && (r.Err? <==> exists i :: 0 <= i < |shape| && shape[i] == 0)
      && (r.Err? ==> r.error.ValueError?)
  {
    if !Exceeds(shape, maxSize) then
      Ok(Downsampled(shape, None))
    else if multiscale then
      Err(ValueError("Shape of individual tiles in multiscale cannot exceed GL_MAX_TEXTURE_SIZE"))
    else
      var f := Factors(shape, maxSize);
      assert forall i :: 0 <= i < |shape| ==> (f[i] == 0 <==> shape[i] == 0) by {
        forall i | 0 <= i < |shape| ensures f[i] == 0 <==> shape[i] == 0 {
          AxisFactor(shape[i], maxSize);
        }
      }
      match TileScale(f, displayed, ndim)
      case Err(e) => Err(e)
      case Ok(scale) =>
        if exists i :: 0 <= i < |shape| && f[i] == 0 then Err(ValueError("slice step cannot be zero"))
        else
          SlicedShapeFits(shape, maxSize);
          Ok(Downsampled(seq(|shape|, i requires 0 <= i < |shape| => SlicedLength(shape[i], f[i])), Some(scale)))
  }

  /** Downsampling only fails for a multiscale layer, an axis of length 0 or a
      displayed axis the scale cannot be assigned to. */
  lemma DownsampleSucceeds(shape: seq<nat>, maxSize: nat, displayed: seq<nat>, ndim: nat)
    requires maxSize > 0
    requires forall i :: 0 <= i < |shape| ==> shape[i] > 0
    requires |displayed| <= |shape| && forall i :: 0 <= i < |displayed| ==> displayed[i] < ndim
    ensures Downsample(shape, maxSize, false, displayed, ndim).Ok?
  {
  }

  /** What `_set_node_data` hands to the node: the coerced dtype and the shape
      after the 3-D expansion and the downsampling for the displayed mode. */
  function NodeData(dtype: DType, shape: seq<nat>, ndisplay: nat, ndim: nat,
                    max2D: Option<nat>, max3D: Option<nat>,
                    multiscale: bool, displayed: seq<nat>): (r: Result<(DType, Downsampled)>)
    requires max2D.Some? ==> max2D.value > 0
    requires max3D.Some? ==> max3D.value > 0
    ensures CoerceDType(dtype).Err? ==> r == Err(CoerceDType(dtype).error)
    ensures r.Ok? ==> r.value.0 == CoerceDType(dtype).value
    ensures r.Ok? && ndisplay == 2 && max2D.Some? ==>
      forall i :: 0 <= i < |r.value.1.shape| ==> r.value.1.shape[i] <= max2D.value
    ensures r.Ok? && ndisplay == 3 && max3D.Some? ==>
      forall i :: 0 <= i < |r.value.1.shape| ==> r.value.1.shape[i] <= max3D.value
    ensures r.Ok? ==> |r.value.1.shape| == |ExpandFor3D(shape, ndisplay, ndim)|
    ensures r.Ok? && !(ndisplay == 2 && max2D.Some?) && !(ndisplay == 3 && max3D.Some?) ==>
      r.value.1 == Downsampled(ExpandFor3D(shape, ndisplay, ndim), None)
  {
    match CoerceDType(dtype)
    case Err(e) => Err(e)
    case Ok(t) =>
      var expanded := ExpandFor3D(shape, ndisplay, ndim);
      if max2D.Some? && ndisplay == 2 then
        match Downsample(expanded, max2D.value, multiscale, displayed, ndim)
        case Err(e) => Err(e)
        case Ok(d) => Ok((t, d))
      else if max3D.Some? && ndisplay == 3 then
        match Downsample(expanded, max3D.value, multiscale, displayed, ndim)
        case Err(e) => Err(e)
        case Ok(d) => Ok((t, d))
      else Ok((t, Downsampled(expanded, None)))
  }
}

=== FILE: transforms.dfy ===
/** Coordinate transforms (`napari/layers/transforms.py`) on one coordinate
    row: the base transform and its inverse, identity, translate and scale with
    leading-axis padding, axis slicing, the scale/translate fold of a chain, and
    the affine constructor's validation and composition.

    numpy's broadcasting of two 1-D arrays is written out in `Broadcast`.
    A callable that is not the identity is an opaque `Callable(id)`. */
module Transforms {
  import opened Common
  import opened LinAlg

  // ---------------------------------------------------------------------
  // Broadcasting

  datatype Op = Plus | Times

  function Apply(op: Op, x: real, y: real): real
  {
    match op
    case Plus => x + y
    case Times => x * y
  }

  /** Entry `i` of `v` as broadcasting reads it: a length-1 array repeats its one entry. */
  function At(v: Vec, i: nat): real
    requires |v| == 1 || i < |v|
  {
    if |v| == 1 then v[0] else v[i]
  }

  /** Two 1-D lengths broadcast when they are equal or one of them is 1. */
  predicate Broadcastable(a: Vec, b: Vec)
  {
    |a| == |b| || |a| == 1 || |b| == 1
  }

  function BroadcastLen(a: Vec, b: Vec): nat
  {
    if |a| == |b| then |a| else if |a| == 1 then |b| else |a|
  }

  /** `a + b` or `a * b` on 1-D arrays, with numpy's broadcasting. */
  function Broadcast(op: Op, a: Vec, b: Vec): (r: Result<Vec>)
    ensures r.Ok? <==> Broadcastable(a, b)
    ensures r.Err? ==> r.error.ValueError?
    ensures r.Ok? ==> |r.value| == BroadcastLen(a, b)
    ensures r.Ok? ==> forall i :: 0 <= i < |r.value| ==> r.value[i] == Apply(op, At(a, i), At(b, i))
  {
    if !Broadcastable(a, b) then Err(ValueError("operands could not be broadcast together"))
    else
      var n := BroadcastLen(a, b);
      Ok(seq(n, i requires 0 <= i < n => Apply(op, At(a, i), At(b, i))))
  }

  /** `[fill] * k + v` with `k = d - |v|`, which is no padding when `d <= |v|`. */
  function PadLeading(v: Vec, d: nat, fill: real): (r: Vec)
    ensures |r| == if d > |v| then d else |v|
    ensures forall i :: 0 <= i < |r| ==> r[i] == if i < |r| - |v| then fill else v[i - (|r| - |v|)]
  {
    if d > |v| then seq(d, i requires 0 <= i < d => if i < d - |v| then fill else v[i - (d - |v|)]) else v
  }

  // ---------------------------------------------------------------------
  // Transforms

  /** A Python callable: `tz.identity` or some other function. */
  datatype Func = IdentityFunc | Callable(id: nat)

  datatype Transform =
    | Base(func: Func, inverseFunc: Option<Func>)
    | Identity(scale: Vec, translate: Vec)
    | Translate(translate: Vec)
    | Scale(scale: Vec)

  /** `Transform(func, inverse)`: the identity function is its own inverse, whatever was passed. */
  function MakeBase(func: Func, inverse: Option<Func>): (t: Transform)
    ensures t.Base? && t.func == func
    ensures func == IdentityFunc ==> t.inverseFunc == Some(IdentityFunc)
    ensures func != IdentityFunc ==> t.inverseFunc == inverse
  {
    Base(func, if func == IdentityFunc then Some(IdentityFunc) else inverse)
  }

  /** `Transform()`: the identity. */
  const Default: Transform := MakeBase(IdentityFunc, None)

  function Negate(v: Vec): (r: Vec)
    ensures |r| == |v| && forall i :: 0 <= i < |v| ==> r[i] == -v[i]
  {
    seq(|v|, i requires 0 <= i < |v| => -v[i])
  }

  predicate NoZero(v: Vec)
  {
    forall i :: 0 <= i < |v| ==> v[i] != 0.0
  }

  function Reciprocal(v: Vec): (r: Vec)
    requires NoZero(v)
    ensures |r| == |v| && forall i :: 0 <= i < |v| ==> r[i] == 1.0 / v[i]
  {
    seq(|v|, i requires 0 <= i < |v| => 1.0 / v[i])
  }

  /** The `inverse` property: a base transform swaps its two functions, or raises
      ValueError when no inverse was given; the identity is its own inverse;
      translate negates and scale takes reciprocals. */
  function Inverse(t: Transform): (r: Result<Transform>)
    ensures t.Base? ==> (r.Err? <==> t.inverseFunc.None?)
    ensures r.Err? ==> (t.Base? && r.error.ValueError?) || (t.Scale? && !NoZero(t.scale) && r.error.ZeroDivisionError?)
    ensures r.Ok? && t.Base? ==> r.value == MakeBase(t.inverseFunc.value, Some(t.func))
    ensures t.Identity? ==> r == Ok(t)
    ensures t.Translate? ==> (r.Ok? && r.value.Translate? && |r.value.translate| == |t.translate| &&
      (forall i :: 0 <= i < |t.translate| ==> r.value.translate[i] + t.translate[i] == 0.0))
    ensures t.Scale? ==> (r.Ok? <==> NoZero(t.scale))
    ensures t.Scale? && r.Ok? ==> (r.value.Scale? && |r.value.scale| == |t.scale| &&
      (forall i :: 0 <= i < |t.scale| ==> r.value.scale[i] * t.scale[i] == 1.0))
  {
    match t
    case Base(f, inv) =>
      if inv.Some? then Ok(MakeBase(inv.value, Some(f)))
      else Err(ValueError("Inverse function was not provided."))
    case Identity(_, _) => Ok(t)
    case Translate(v) => Ok(Translate(Negate(v)))
    case Scale(s) =>
      if NoZero(s) then Ok(Scale(Reciprocal(s)))
      else Err(ZeroDivisionError("divide by zero"))
  }

  /** The default transform is the identity and so is its inverse. */
  lemma DefaultInverseIsIdentity()
    ensures Default == Base(IdentityFunc, Some(IdentityFunc))
    ensures Inverse(Default) == Ok(Default)
  {
  }

  /** Inverting a base transform twice gives it back, except when its inverse is
      the identity and it is not: then the first inversion forgets the function. */
  lemma BaseDoubleInverse(f: Func, g: Func)
    ensures var t := MakeBase(f, Some(g));
            var r := Inverse(t);
            r.Ok? && Inverse(r.value).Ok? &&
            (Inverse(r.value).value == t <==> f == IdentityFunc || g != IdentityFunc)
  {
  }

  /** Broadcasting rows of equal length is elementwise. */
  lemma BroadcastSameLength(a: Vec, b: Vec)
    requires |a| == |b|
    ensures Broadcast(Plus, a, b) == Ok(Add(a, b))
    ensures Broadcast(Times, a, b) == Ok(Mul(a, b))
  {
    var p, m := Broadcast(Plus, a, b).value, Broadcast(Times, a, b).value;
    forall i | 0 <= i < |a| ensures p[i] == Add(a, b)[i] && m[i] == Mul(a, b)[i] {
      assert At(a, i) == a[i] && At(b, i) == b[i];
    }
    assert p == Add(a, b);
    assert m == Mul(a, b);
  }

  /** Elementwise product of rows of equal length. */
  function Mul(a: Vec, b: Vec): (r: Vec)
    requires |a| == |b|
    ensures |r| == |a| && forall i :: 0 <= i < |a| ==> r[i] == a[i] * b[i]
  {
    seq(|a|, i requires 0 <= i < |a| => a[i] * b[i])
  }

  /** Translate's `__call__`: adds the vector padded with leading zeros. */
  function TranslateCall(v: Vec, x: Vec): (r: Result<Vec>)
    ensures r.Ok? <==> |x| >= |v| || |v| == 1 || |x| == 1
    ensures |x| >= |v| ==> (r.Ok? && |r.value| == |x| &&
      (forall i :: 0 <= i < |x| ==> r.value[i] == x[i] + PadLeading(v, |x|, 0.0)[i]))
  {
    var w := PadLeading(v, |x|, 0.0);
    if |x| >= |v| then Ok(Add(x, w)) else Broadcast(Plus, x, w)
  }

  /** Scale's `__call__` as written: the scale vector padded with leading ones
      is bound only when the row is longer than it; otherwise the
      multiplication reads an unbound local. */
  function ScaleCallAsWritten(s: Vec, x: Vec): (r: Result<Vec>)
    ensures r.Err? <==> |x| <= |s|
    ensures r.Err? ==> r.error == UnboundLocalError("scale")
    ensures r.Ok? ==> (|r.value| == |x| &&
      (forall i :: 0 <= i < |x| ==> r.value[i] == x[i] * PadLeading(s, |x|, 1.0)[i]))
  {
    if |x| > |s| then
      Ok(Mul(x, PadLeading(s, |x|, 1.0)))
    else Err(UnboundLocalError("scale"))
  }

  /** Scale's `__call__` with `scale = self.scale` bound when no padding is needed. */
  function ScaleCall(s: Vec, x: Vec): (r: Result<Vec>)
    ensures |x| >= |s| ==> (r.Ok? && |r.value| == |x| &&
      (forall i :: 0 <= i < |x| ==> r.value[i] == x[i] * PadLeading(s, |x|, 1.0)[i]))
  {
    if |x| >= |s| then Ok(Mul(x, PadLeading(s, |x|, 1.0)))
    else Broadcast(Times, x, PadLeading(s, |x|, 1.0))
  }

  /** The row operations are numpy's broadcast `x + pad(v)` and `x * pad(s)`, and
      the bound scale agrees with the source wherever the source binds it. */
  lemma CallsBroadcast(v: Vec, x: Vec)
    ensures TranslateCall(v, x) == Broadcast(Plus, x, PadLeading(v, |x|, 0.0))
    ensures ScaleCall(v, x) == Broadcast(Times, x, PadLeading(v, |x|, 1.0))
    ensures |x| > |v| ==> ScaleCall(v, x) == ScaleCallAsWritten(v, x)
  {
    if |x| >= |v| {
      BroadcastSameLength(x, PadLeading(v, |x|, 0.0));
      BroadcastSameLength(x, PadLeading(v, |x|, 1.0));
    }
  }

  /** A scale transform on a row as long as its vector fails, although the
      multiplication it means is well defined. */
  lemma ScaleCallFailsAtFullLength()
    ensures ScaleCallAsWritten([2.0], [3.0]) == Err(UnboundLocalError("scale"))
    ensures ScaleCall([2.0], [3.0]) == Ok([6.0])
  {
    var r := ScaleCall([2.0], [3.0]).value;
    assert PadLeading([2.0], 1, 1.0) == [2.0];
    assert r[0] == 6.0;
    assert r == [6.0];
  }

  /** `__call__` on one coordinate row: a base transform runs its function
      (`run` gives the behaviour of the callables), the identity returns the row. */
  function Call(t: Transform, x: Vec, run: (nat, Vec) -> Vec): (r: Result<Vec>)
    ensures t.Identity? || (t.Base? && t.func == IdentityFunc) ==> r == Ok(x)
    ensures t.Base? && t.func.Callable? ==> r == Ok(run(t.func.id, x))
    ensures t.Translate? ==> r == TranslateCall(t.translate, x)
    ensures t.Scale? ==> r == ScaleCallAsWritten(t.scale, x)
  {
    match t
    case Base(f, _) => if f == IdentityFunc then Ok(x) else Ok(run(f.id, x))
    case Identity(_, _) => Ok(x)
    case Translate(v) => TranslateCall(v, x)
    case Scale(s) => ScaleCallAsWritten(s, x)
  }

  /** Translating and translating back returns the original row. */
  lemma TranslateRoundTrip(v: Vec, x: Vec)
    requires |x| >= |v|
    ensures var y := TranslateCall(v, x);
            y.Ok? && TranslateCall(Inverse(Translate(v)).value.translate, y.value) == Ok(x)
  {
    var y := TranslateCall(v, x).value;
    var w := Inverse(Translate(v)).value.translate;
    var z := TranslateCall(w, y).value;
    var p := PadLeading(v, |x|, 0.0);
    var q := PadLeading(w, |x|, 0.0);
    assert w == Negate(v);
    forall i | 0 <= i < |x| ensures z[i] == x[i] {
      assert q[i] == -p[i];
    }
    assert z == x;
  }

  lemma Cancel(a: real, p: real)
    requires p != 0.0
    ensures a * p * (1.0 / p) == a
  {
  }

  /** Multiplying by a row and then by its reciprocals is the identity. */
  lemma MulCancel(x: Vec, p: Vec, q: Vec)
    requires |x| == |p| == |q|
    requires forall i :: 0 <= i < |p| ==> p[i] != 0.0 && q[i] == 1.0 / p[i]
    ensures Mul(Mul(x, p), q) == x
  {
    var y := Mul(x, p);
    var z := Mul(y, q);
    forall i | 0 <= i < |x| ensures z[i] == x[i] {
      var a, b, c := x[i], p[i], q[i];
      assert y[i] == a * b && c == 1.0 / b && b != 0.0;
      Cancel(a, b);
      assert z[i] == a * b * c;
    }
  }

  /** The inverse of a scale without zeros scales by the reciprocals. */
  lemma ScaleInverse(s: Vec)
    requires NoZero(s)
    ensures Inverse(Scale(s)) == Ok(Scale(Reciprocal(s)))
  {
  }

  /** Padding a scale and its reciprocal with ones keeps them reciprocal. */
  lemma PadReciprocal(s: Vec, n: nat)
    requires NoZero(s) && n >= |s|
    ensures forall i :: 0 <= i < n ==>
      PadLeading(s, n, 1.0)[i] != 0.0 && PadLeading(Reciprocal(s), n, 1.0)[i] == 1.0 / PadLeading(s, n, 1.0)[i]
  {
    var inv := Reciprocal(s);
    var p := PadLeading(s, n, 1.0);
    var q := PadLeading(inv, n, 1.0);
    forall i | 0 <= i < n ensures p[i] != 0.0 && q[i] == 1.0 / p[i] {
      if i >= n - |s| {
        var k := i - (n - |s|);
        assert q[i] == inv[k] && p[i] == s[k];
      }
    }
  }

  /** Scaling by the (bound) scale and by its inverse returns the original row. */
  lemma ScaleRoundTrip(s: Vec, x: Vec)
    requires NoZero(s) && |x| >= |s|
    ensures var y := ScaleCall(s, x);
            y.Ok? && ScaleCall(Reciprocal(s), y.value) == Ok(x)
  {
    var p := PadLeading(s, |x|, 1.0);
    var y := Mul(x, p);
    assert ScaleCall(s, x) == Ok(y);
    var inv := Reciprocal(s);
    var q := PadLeading(inv, |x|, 1.0);
    assert ScaleCall(inv, y) == Ok(Mul(y, q));
    PadReciprocal(s, |x|);
    MulCancel(x, p, q);
  }

  // ---------------------------------------------------------------------
  // set_slice

  /** Index `a` of a length-`n` array, negative from the end. */
  predicate ValidIndex(a: int, n: nat)
  {
    -(n as int) <= a < n
  }

  function Wrap(a: int, n: nat): (k: nat)
    requires ValidIndex(a, n)
    ensures k < n
  {
    if a < 0 then a + n else a
  }

  /** `v[axes]` with a list of integers: IndexError on an index out of range. */
  function Take(v: Vec, axes: seq<int>): (r: Result<Vec>)
    ensures r.Ok? <==> forall k :: 0 <= k < |axes| ==> ValidIndex(axes[k], |v|)
    ensures r.Err? ==> r.error.IndexError?
    ensures r.Ok? ==> |r.value| == |axes| && forall k :: 0 <= k < |axes| ==> r.value[k] == v[Wrap(axes[k], |v|)]
  {
    if forall k :: 0 <= k < |axes| ==> ValidIndex(axes[k], |v|) then
      Ok(seq(|axes|, k requires 0 <= k < |axes| => v[Wrap(axes[k], |v|)]))
    else Err(IndexError("index out of bounds"))
  }

  /** `set_slice(axes)`: the same kind of transform on the listed axes only;
      NotImplementedError for a base transform. */
  function SetSlice(t: Transform, axes: seq<int>): (r: Result<Transform>)
    ensures t.Base? ==> r.Err? && r.error.NotImplementedError?
    ensures t.Identity? ==> (r.Ok? <==> Take(t.scale, axes).Ok? && Take(t.translate, axes).Ok?)
    ensures t.Identity? && r.Ok? ==> r.value == Identity(Take(t.scale, axes).value, Take(t.translate, axes).value)
    ensures t.Translate? ==> (r.Ok? <==> Take(t.translate, axes).Ok?)
    ensures t.Translate? && r.Ok? ==> r.value == Translate(Take(t.translate, axes).value)
    ensures t.Scale? ==> (r.Ok? <==> Take(t.scale, axes).Ok?)
    ensures t.Scale? && r.Ok? ==> r.value == Scale(Take(t.scale, axes).value)
    ensures r.Err? && !t.Base? ==> r.error.IndexError?
  {
    match t
    case Base(_, _) => Err(NotImplementedError("Cannot subset arbitrary transforms."))
    case Identity(s, tr) =>
      (match Take(s, axes)
       case Err(e) => Err(e)
       case Ok(s') =>
         match Take(tr, axes)
         case Err(e) => Err(e)
         case Ok(tr') => Ok(Identity(s', tr')))
    case Translate(v) =>
      (match Take(v, axes)
       case Err(e) => Err(e)
       case Ok(v') => Ok(Translate(v')))
    case Scale(s) =>
      (match Take(s, axes)
       case Err(e) => Err(e)
       case Ok(s') => Ok(Scale(s'))
      )
  }

  /** Slicing a full-length translate (the vector `SetSlice` keeps is `Take(v, axes)`)
      and then applying it to the sliced row is the same as applying it and then
      slicing the result. */
  lemma TranslateSliceCommutes(v: Vec, x: Vec, axes: seq<int>)
    requires |v| == |x|
    requires forall k :: 0 <= k < |axes| ==> ValidIndex(axes[k], |x|)
    ensures var vs := Take(v, axes);
            var xs := Take(x, axes);
            var y := TranslateCall(v, x);
            vs.Ok? && xs.Ok? && y.Ok? &&
            TranslateCall(vs.value, xs.value) == Take(y.value, axes)
  {
    var xs := Take(x, axes).value;
    var vs := Take(v, axes).value;
    assert PadLeading(v, |x|, 0.0) == v;
    assert PadLeading(vs, |xs|, 0.0) == vs;
    var y := TranslateCall(v, x).value;
    var lhs := TranslateCall(vs, xs).value;
    var rhs := Take(y, axes).value;
    assert lhs == rhs;
  }

  lemma TakeMul(x: Vec, s: Vec, axes: seq<int>)
    requires |s| == |x|
    requires forall k :: 0 <= k < |axes| ==> ValidIndex(axes[k], |x|)
    ensures Take(Mul(x, s), axes).Ok?
    ensures Mul(Take(x, axes).value, Take(s, axes).value) == Take(Mul(x, s), axes).value
  {
    var xs, ss := Take(x, axes).value, Take(s, axes).value;
    var lhs, rhs := Mul(xs, ss), Take(Mul(x, s), axes).value;
    forall k | 0 <= k < |axes| ensures lhs[k] == rhs[k] {
      var a := Wrap(axes[k], |x|);
      assert xs[k] == x[a] && ss[k] == s[a];
    }
    assert lhs == rhs;
  }

  /** The same for scale, with the scale vector bound. */
  lemma ScaleSliceCommutes(s: Vec, x: Vec, axes: seq<int>)
    requires |s| == |x|
    requires forall k :: 0 <= k < |axes| ==> ValidIndex(axes[k], |x|)
    ensures var ss := Take(s, axes);
            var xs := Take(x, axes);
            var y := ScaleCall(s, x);
            ss.Ok? && xs.Ok? && y.Ok? &&
            ScaleCall(ss.value, xs.value) == Take(y.value, axes)
  {
    var xs := Take(x, axes).value;
    var ss := Take(s, axes).value;
    assert PadLeading(s, |x|, 1.0) == s;
    assert PadLeading(ss, |xs|, 1.0) == ss;
    var y := ScaleCall(s, x).value;
    var lhs := ScaleCall(ss, xs).value;
    var rhs := Take(y, axes).value;
    assert lhs == Mul(xs, ss);
    assert y == Mul(x, s);
    TakeMul(x, s, axes);
  }

  // ---------------------------------------------------------------------
  // TransformChain

  /** The `scale` attribute a member carries (None for a base transform and a translate). */
  function ScaleAttr(t: Transform): Option<Vec>
  {
    match t
    case Identity(s, _) => Some(s)
    case Scale(s) => Some(s)
    case _ => None
  }

  /** The `translate` attribute a member carries (None for a base transform and a scale). */
  function TranslateAttr(t: Transform): Option<Vec>
  {
    match t
    case Identity(_, tr) => Some(tr)
    case Translate(v) => Some(v)
    case _ => None
  }

  function ScaleOrOne(t: Transform): Vec
  {
    if ScaleAttr(t).Some? then ScaleAttr(t).value else [1.0]
  }

  function TranslateOrZero(t: Transform): Vec
  {
    if TranslateAttr(t).Some? then TranslateAttr(t).value else [0.0]
  }

  /** `_update_attributes`: `([1], [0])` for an empty chain; otherwise the first
      member's scale and translate, each later member folding in as
      `scale * s` and `translate * s + t`, a missing scale counting as `[1]`
      and a missing translate as `[0]`. ValueError when lengths do not broadcast. */
  function ChainAttributes(members: seq<Transform>): (r: Result<(Vec, Vec)>)
    ensures members == [] ==> r == Ok(([1.0], [0.0]))
    ensures |members| == 1 ==> r == Ok((ScaleOrOne(members[0]), TranslateOrZero(members[0])))
    ensures r.Err? ==> r.error.ValueError?
  {
    if members == [] then Ok(([1.0], [0.0]))
    else if |members| == 1 then Ok((ScaleOrOne(members[0]), TranslateOrZero(members[0])))
    else
      match ChainAttributes(members[..|members| - 1])
      case Err(e) => Err(e)
      case Ok(acc) => FoldMember(acc.0, acc.1, members[|members| - 1])
  }

  /** Folding one more member into the running `(scale, translate)`. */
  function FoldMember(s: Vec, tr: Vec, t: Transform): (r: Result<(Vec, Vec)>)
    ensures r.Ok? <==> Broadcastable(s, ScaleOrOne(t)) && Broadcastable(tr, ScaleOrOne(t)) &&
                       Broadcastable(Broadcast(Times, tr, ScaleOrOne(t)).value, TranslateOrZero(t))
    ensures r.Err? ==> r.error.ValueError?
  {
    match Broadcast(Times, s, ScaleOrOne(t))
    case Err(e) => Err(e)
    case Ok(s') =>
      match Broadcast(Times, tr, ScaleOrOne(t))
      case Err(e) => Err(e)
      case Ok(scaled) =>
        match Broadcast(Plus, scaled, TranslateOrZero(t))
        case Err(e) => Err(e)
        case Ok(tr') => Ok((s', tr'))
  }

  /** `TransformChain.set_slice`: every member sliced, the first failure raised. */
  function ChainSetSlice(members: seq<Transform>, axes: seq<int>): (r: Result<seq<Transform>>)
    ensures r.Ok? <==> forall k :: 0 <= k < |members| ==> SetSlice(members[k], axes).Ok?
    ensures r.Ok? ==> (|r.value| == |members| &&
      forall k :: 0 <= k < |members| ==> r.value[k] == SetSlice(members[k], axes).value)
    ensures r.Err? ==> exists k :: 0 <= k < |members| && SetSlice(members[k], axes) == Err(r.error)
  {
    if members == [] then Ok([])
    else
      match SetSlice(members[0], axes)
      case Err(e) => Err(e)
      case Ok(t) =>
        match ChainSetSlice(members[1..], axes)
        case Err(e) => Err(e)
        case Ok(rest) => Ok([t] + rest)
  }

  /** A translate or scale whose vector has length `d`. */
  predicate Linear(t: Transform, d: nat)
  {
    (t.Translate? && |t.translate| == d) || (t.Scale? && |t.scale| == d)
  }

  /** Applying a linear member, with the scale vector bound. */
  function CallLinear(t: Transform, x: Vec): (r: Vec)
    requires Linear(t, |x|)
    ensures |r| == |x|
  {
    if t.Translate? then Add(x, t.translate)
    else seq(|x|, i requires 0 <= i < |x| => x[i] * t.scale[i])
  }

  /** `tz.pipe(coords, *chain)` over linear members. */
  function Pipe(members: seq<Transform>, x: Vec): (r: Vec)
    requires forall k :: 0 <= k < |members| ==> Linear(members[k], |x|)
    ensures |r| == |x|
  {
    if members == [] then x
    else
      var init := members[..|members| - 1];
      assert forall k :: 0 <= k < |init| ==> init[k] == members[k];
      CallLinear(members[|members| - 1], Pipe(init, x))
  }

  /** `CallLinear` is the corrected member call: a translate is `TranslateCall`,
      a scale is `ScaleCall`. As written, `__call__` on a scale as long as the
      row raises UnboundLocalError, so only translates agree with `Call`. */
  lemma CallLinearIsCorrectedCall(t: Transform, x: Vec, run: (nat, Vec) -> Vec)
    requires Linear(t, |x|)
    ensures t.Translate? ==> Call(t, x, run) == Ok(CallLinear(t, x))
    ensures t.Scale? ==> ScaleCall(t.scale, x) == Ok(CallLinear(t, x))
    ensures t.Scale? ==> Call(t, x, run) == Err(UnboundLocalError("scale"))
  {
  }

  /** `TransformChain.__call__`, i.e. `tz.pipe(coords, *chain)` with each
      member's `__call__` as written: the first failing member's error is
      raised. Only translate and scale members can fail. */
  function ChainCall(members: seq<Transform>, x: Vec, run: (nat, Vec) -> Vec): (r: Result<Vec>)
    ensures members == [] ==> r == Ok(x)
    ensures r.Err? ==> exists k :: 0 <= k < |members| && (members[k].Translate? || members[k].Scale?)
  {
    if members == [] then Ok(x)
    else
      var init := members[..|members| - 1];
      var last := members[|members| - 1];
      match ChainCall(init, x, run)
      case Err(e) =>
        assert forall k :: 0 <= k < |init| ==> init[k] == members[k];
        Err(e)
      case Ok(y) => Call(last, y, run)
  }

  /** A chain of translates over rows of their length runs, as written,
      exactly as `Pipe` does. */
  lemma {:induction false} ChainCallTranslates(members: seq<Transform>, x: Vec, run: (nat, Vec) -> Vec)
    requires forall k :: 0 <= k < |members| ==> Linear(members[k], |x|) && members[k].Translate?
    ensures ChainCall(members, x, run) == Ok(Pipe(members, x))
  {
    if members != [] {
      var n := |members|;
      var init := members[..n - 1];
      assert forall k :: 0 <= k < |init| ==> init[k] == members[k];
      ChainCallTranslates(init, x, run);
      CallLinearIsCorrectedCall(members[n - 1], Pipe(init, x), run);
    }
  }

  /** A chain of translates and scales over rows of their length raises, as
      written, the scale call's UnboundLocalError as soon as any member is a
      scale, although `Pipe` (the corrected calls) is defined. */
  lemma {:induction false} ChainCallFailsOnScale(members: seq<Transform>, x: Vec, run: (nat, Vec) -> Vec)
    requires forall k :: 0 <= k < |members| ==> Linear(members[k], |x|)
    requires exists k :: 0 <= k < |members| && members[k].Scale?
    ensures ChainCall(members, x, run) == Err(UnboundLocalError("scale"))
  {
    var n := |members|;
    var init := members[..n - 1];
    var last := members[n - 1];
    assert forall k :: 0 <= k < |init| ==> init[k] == members[k];
    if exists k :: 0 <= k < |init| && init[k].Scale? {
      ChainCallFailsOnScale(init, x, run);
    } else {
      var j :| 0 <= j < n && members[j].Scale?;
      assert j == n - 1 && last.Scale?;
      assert forall k :: 0 <= k < |init| ==> Linear(init[k], |x|) && init[k].Translate?;
      ChainCallTranslates(init, x, run);
      CallLinearIsCorrectedCall(last, Pipe(init, x), run);
    }
  }

  /** Attributes a linear chain can fold to: length 1 or the row length. */
  predicate FoldShape(v: Vec, d: nat)
  {
    |v| == 1 || |v| == d
  }

  /** One member of the fold at index `i`: if `y = x * s + tr`, then the member's
      output is `x * s' + tr'` with the attributes `FoldMember` computes. */
  lemma FoldStep(s: Vec, tr: Vec, t: Transform, x: Vec, s': Vec, tr': Vec, i: nat)
    requires i < |x| && Linear(t, |x|)
    requires FoldShape(s, |x|) && FoldShape(tr, |x|)
    requires FoldShape(s', |x|) && FoldShape(tr', |x|)
    requires t.Scale? ==> At(s', i) == At(s, i) * t.scale[i] && At(tr', i) == At(tr, i) * t.scale[i] + 0.0
    requires t.Translate? ==> At(s', i) == At(s, i) * 1.0 && At(tr', i) == At(tr, i) * 1.0 + t.translate[i]
    ensures CallLinear(t, ScaleTranslate(x, s, tr))[i] == ScaleTranslate(x, s', tr')[i]
  {
    var y := ScaleTranslate(x, s, tr);
    var a, p, b := x[i], At(s, i), At(tr, i);
    assert y[i] == a * p + b;
    if t.Scale? {
      var c := t.scale[i];
      assert CallLinear(t, y)[i] == y[i] * c;
      assert ScaleTranslate(x, s', tr')[i] == a * (p * c) + (b * c + 0.0);
      Distrib(a, p, b, c);
    } else {
      var v := t.translate[i];
      assert CallLinear(t, y)[i] == y[i] + v;
      assert ScaleTranslate(x, s', tr')[i] == a * (p * 1.0) + (b * 1.0 + v);
    }
  }

  /** Entry `i` of the folded attributes. */
  lemma FoldMemberAt(s: Vec, tr: Vec, t: Transform, d: nat, s': Vec, tr': Vec, i: nat)
    requires i < d && Linear(t, d)
    requires FoldShape(s, d) && FoldShape(tr, d)
    requires FoldMember(s, tr, t) == Ok((s', tr'))
    requires FoldShape(s', d) && FoldShape(tr', d)
    ensures t.Scale? ==> At(s', i) == At(s, i) * t.scale[i] && At(tr', i) == At(tr, i) * t.scale[i] + 0.0
    ensures t.Translate? ==> At(s', i) == At(s, i) * 1.0 && At(tr', i) == At(tr, i) * 1.0 + t.translate[i]
  {
    var u, w := ScaleOrOne(t), TranslateOrZero(t);
    var scaled := Broadcast(Times, tr, u).value;
    assert s' == Broadcast(Times, s, u).value && tr' == Broadcast(Plus, scaled, w).value;
    BroadcastAt(Times, s, u, i);
    BroadcastAt(Times, tr, u, i);
    BroadcastAt(Plus, scaled, w, i);
  }

  lemma Distrib(a: real, p: real, b: real, c: real)
    ensures (a * p + b) * c == a * (p * c) + (b * c + 0.0)
  {
  }

  /** A linear member folds without a broadcast error and keeps the attribute shapes. */
  lemma FoldShapes(s: Vec, tr: Vec, t: Transform, d: nat)
    requires d >= 1 && Linear(t, d)
    requires FoldShape(s, d) && FoldShape(tr, d)
    ensures var r := FoldMember(s, tr, t);
            r.Ok? && FoldShape(r.value.0, d) && FoldShape(r.value.1, d)
  {
  }

  /** The row `x * scale + translate`, with broadcasting attributes. */
  function ScaleTranslate(x: Vec, s: Vec, tr: Vec): (r: Vec)
    requires FoldShape(s, |x|) && FoldShape(tr, |x|)
    ensures |r| == |x| && forall i :: 0 <= i < |x| ==> r[i] == x[i] * At(s, i) + At(tr, i)
  {
    seq(|x|, i requires 0 <= i < |x| => x[i] * At(s, i) + At(tr, i))
  }

  /** The folded attributes describe the chain with the scale call corrected
      (`ScaleCall`, see `CallLinearIsCorrectedCall`): for translates and scales
      over rows of length `d`, running the chain maps `x` to
      `x * scale + translate`. As written, a chain holding a scale fails
      instead (`ChainCallFailsOnScale`). */
  lemma {:induction false} ChainAttributesDescribeChain(members: seq<Transform>, x: Vec)
    requires members != [] && |x| >= 1
    requires forall k :: 0 <= k < |members| ==> Linear(members[k], |x|)
    ensures var r := ChainAttributes(members);
            && r.Ok?
            && FoldShape(r.value.0, |x|) && FoldShape(r.value.1, |x|)
            && Pipe(members, x) == ScaleTranslate(x, r.value.0, r.value.1)
  {
    var n := |members|;
    var t := members[n - 1];
    if n == 1 {
      assert Pipe(members, x) == CallLinear(t, x);
      var r := ScaleTranslate(x, ScaleOrOne(t), TranslateOrZero(t));
      forall i | 0 <= i < |x| ensures CallLinear(t, x)[i] == r[i] {
        if t.Scale? {
          assert At(TranslateOrZero(t), i) == 0.0;
        } else {
          assert At(ScaleOrOne(t), i) == 1.0;
        }
      }
      assert CallLinear(t, x) == r;
    } else {
      var init := members[..n - 1];
      assert forall k :: 0 <= k < |init| ==> init[k] == members[k];
      ChainAttributesDescribeChain(init, x);
      var acc := ChainAttributes(init).value;
      assert ChainAttributes(members) == FoldMember(acc.0, acc.1, t);
      assert Pipe(members, x) == CallLinear(t, Pipe(init, x));
      FoldAll(acc.0, acc.1, t, x);
    }
  }

  /** `FoldStep` at every index. */
  lemma FoldAll(s: Vec, tr: Vec, t: Transform, x: Vec)
    requires |x| >= 1 && Linear(t, |x|)
    requires FoldShape(s, |x|) && FoldShape(tr, |x|)
    ensures var r := FoldMember(s, tr, t);
            && r.Ok? && FoldShape(r.value.0, |x|) && FoldShape(r.value.1, |x|)
            && CallLinear(t, ScaleTranslate(x, s, tr)) == ScaleTranslate(x, r.value.0, r.value.1)
  {
    FoldShapes(s, tr, t, |x|);
    var r := FoldMember(s, tr, t).value;
    var lhs, rhs := CallLinear(t, ScaleTranslate(x, s, tr)), ScaleTranslate(x, r.0, r.1);
    forall i | 0 <= i < |x| ensures lhs[i] == rhs[i] {
      FoldMemberAt(s, tr, t, |x|, r.0, r.1, i);
      FoldStep(s, tr, t, x, r.0, r.1, i);
    }
    assert lhs == rhs;
  }

  /** Reading a broadcast result is broadcasting the reads. */
  lemma BroadcastAt(op: Op, a: Vec, b: Vec, i: nat)
    requires Broadcastable(a, b)
    requires |a| == 1 || i < |a|
    requires |b| == 1 || i < |b|
    ensures var r := Broadcast(op, a, b).value;
            (|r| == 1 || i < |r|) && At(r, i) == Apply(op, At(a, i), At(b, i))
  {
  }

  // ---------------------------------------------------------------------
  // Affine

  /** A numpy array as the affine constructor sees it. Matrices are rectangular;
      arrays of three or more dimensions are only told apart by their shape. */
  datatype Array =
    | Scalar(x: real)
    | Vector(v: Vec)
    | Matrix(m: Mat, cols: nat)
    | Higher(shape: seq<nat>)

  predicate WellFormed(a: Array)
  {
    match a
    case Matrix(m, cols) => IsMatrix(m, |m|, cols)
    case Higher(shape) => |shape| >= 3
    case _ => true
  }

  function NDim(a: Array): nat
  {
    match a
    case Scalar(_) => 0
    case Vector(_) => 1
    case Matrix(_, _) => 2
    case Higher(shape) => |shape|
  }

  /** `len(a)`: the first axis; TypeError for a 0-d array. */
  function Len(a: Array): Result<nat>
    requires WellFormed(a)
  {
    match a
    case Scalar(_) => Err(TypeError("len() of unsized object"))
    case Vector(v) => Ok(|v|)
    case Matrix(m, _) => Ok(|m|)
    case Higher(shape) => Ok(shape[0])
  }

  datatype Affine = Affine(a: Mat, b: Vec, ndim: nat)

  /** A constructed affine: an `ndim` by `ndim` matrix and a length-`ndim` vector. */
  predicate ValidAffine(t: Affine)
  {
    IsMatrix(t.a, t.ndim, t.ndim) && |t.b| == t.ndim
  }

  /** The checks of `Affine.__init__` once the defaults are filled in. */
  function CheckAffine(A: Array, b: Array): (r: Result<Affine>)
    requires WellFormed(A) && WellFormed(b)
    ensures r.Ok? <==> A.Matrix? && |A.m| == A.cols && b.Vector? && |b.v| == |A.m|
    ensures r.Err? ==> r.error.ValueError?
    ensures r.Ok? ==> ValidAffine(r.value) && r.value == Affine(A.m, b.v, |b.v|)
  {
    if NDim(A) != 2 then Err(ValueError("A matrix must be two dimensional"))
    else if |A.m| != A.cols then Err(ValueError("A matrix must be two square"))
    else if NDim(b) != 1 then Err(ValueError("b vector must be one dimensional"))
    else if |A.m| != |b.v| then Err(ValueError("A matrix and b vector must map from same space"))
    else Ok(Affine(A.m, b.v, |b.v|))
  }

  /** The affine's `scale` setter while `Transform.__init__` runs, before `A`
      exists: `np.diag(None)` rejects the `None` default with ValueError, and
      any other value would first read the missing `A`. */
  function ScaleSetterBeforeA(z: Option<Vec>): (e: Error)
    ensures z.None? <==> e.ValueError?
    ensures z.Some? <==> e == AttributeError("A")
  {
    if z.None? then ValueError("Input must be 1- or 2-d.") else AttributeError("A")
  }

  /** `Affine.__init__` as written. Its first step, `Transform.__init__`, assigns
      `self.translate = None` and `self.scale = None`; on an affine these go
      through the affine's own setters, and the scale setter raises. So no
      affine is ever constructed, whatever `A` and `b` are. */
  function AffineInitAsWritten(A: Option<Array>, b: Option<Array>): (r: Result<Affine>)
    requires A.Some? ==> WellFormed(A.value)
    requires b.Some? ==> WellFormed(b.value)
    ensures r.Err? && r.error.ValueError?
  {
    // `self.translate = None` stores `b = None` and cannot fail.
    Err(ScaleSetterBeforeA(None))
  }

  /** The identity on the plane, which the constructor's checks accept, is
      rejected as written. */
  lemma AffineNeverConstructed()
    ensures MakeAffineCorrected(Some(Matrix(Eye(2), 2)), None) == Ok(Affine(Eye(2), Zeros(2), 2))
    ensures AffineInitAsWritten(Some(Matrix(Eye(2), 2)), None).Err?
  {
  }

  /** `Affine.__init__` from line 235 on, i.e. with the base initialisation not
      failing: ValueError without A and b; a missing A is the identity of
      `len(b)`; a missing b is `zeros(A.ndim)`, which has length 2 because A
      is two-dimensional by then. */
  function MakeAffine(A: Option<Array>, b: Option<Array>): (r: Result<Affine>)
    requires A.Some? ==> WellFormed(A.value)
    requires b.Some? ==> WellFormed(b.value)
    ensures A.None? && b.None? ==> r.Err? && r.error.ValueError?
    ensures r.Ok? ==> ValidAffine(r.value)
    ensures A.None? && b.Some? && b.value.Vector? ==> r == Ok(Affine(Eye(|b.value.v|), b.value.v, |b.value.v|))
    ensures A.Some? && b.None? ==>
      (r.Ok? <==> A.value.Matrix? && |A.value.m| == A.value.cols == 2)
  {
    if A.None? && b.None? then Err(ValueError("One of A or b must be set for Affine transform"))
    else
      var A' :=
        if A.Some? then Ok(A.value)
        else match Len(b.value)
          case Err(e) => Err(e)
          case Ok(n) => Ok(Matrix(Eye(n), n));
      match A'
      case Err(e) => Err(e)
      case Ok(mat) =>
        if NDim(mat) != 2 then Err(ValueError("A matrix must be two dimensional"))
        else if |mat.m| != mat.cols then Err(ValueError("A matrix must be two square"))
        else CheckAffine(mat, if b.Some? then b.value else Vector(Zeros(NDim(mat))))
  }

  /** A 3 by 3 matrix without a translation vector is rejected. */
  lemma AffineDefaultTranslationRejects3D()
    ensures MakeAffine(Some(Matrix(Eye(3), 3)), None).Err?
    ensures MakeAffineCorrected(Some(Matrix(Eye(3), 3)), None) == Ok(Affine(Eye(3), Zeros(3), 3))
  {
  }

  /** `Affine.__init__` with the missing b defaulting to `zeros(A.shape[0])`. */
  function MakeAffineCorrected(A: Option<Array>, b: Option<Array>): (r: Result<Affine>)
    requires A.Some? ==> WellFormed(A.value)
    requires b.Some? ==> WellFormed(b.value)
    ensures A.None? && b.None? ==> r.Err? && r.error.ValueError?
    ensures r.Ok? ==> ValidAffine(r.value)
    ensures A.None? && b.Some? && b.value.Vector? ==> r == Ok(Affine(Eye(|b.value.v|), b.value.v, |b.value.v|))
    ensures A.Some? && b.None? ==>
      (r.Ok? <==> A.value.Matrix? && |A.value.m| == A.value.cols)
    ensures A.Some? && b.None? && r.Ok? ==> r.value == Affine(A.value.m, Zeros(|A.value.m|), |A.value.m|)
    ensures b.Some? ==> r == MakeAffine(A, b)
  {
    if A.None? && b.None? then Err(ValueError("One of A or b must be set for Affine transform"))
    else
      var A' :=
        if A.Some? then Ok(A.value)
        else match Len(b.value)
          case Err(e) => Err(e)
          case Ok(n) => Ok(Matrix(Eye(n), n));
      match A'
      case Err(e) => Err(e)
      case Ok(mat) =>
        if NDim(mat) != 2 then Err(ValueError("A matrix must be two dimensional"))
        else if |mat.m| != mat.cols then Err(ValueError("A matrix must be two square"))
        else CheckAffine(mat, if b.Some? then b.value else Vector(Zeros(|mat.m|)))
  }

  /** The mathematical map `x -> A x + b`. */
  function AffineMap(t: Affine, x: Vec): (y: Vec)
    requires ValidAffine(t) && |x| == t.ndim
    ensures |y| == t.ndim
  {
    Add(MatVec(t.a, x), t.b)
  }

  /** `compose` as written: the products raise ValueError for different
      dimensions, and otherwise the constructor does. */
  function ComposeAsWritten(t1: Affine, t2: Affine): (r: Result<Affine>)
    requires ValidAffine(t1) && ValidAffine(t2)
    ensures r.Err? && r.error.ValueError?
    ensures t1.ndim == t2.ndim ==> r == AffineInitAsWritten(Some(Matrix(MatMul(t1.a, t2.a, t1.ndim, t1.ndim), t1.ndim)),
                                                          Some(Vector(Add(t1.b, MatVec(t1.a, t2.b)))))
  {
    if t1.ndim != t2.ndim then Err(ValueError("matmul: mismatch in its core dimension"))
    else
      var n := t1.ndim;
      AffineInitAsWritten(Some(Matrix(MatMul(t1.a, t2.a, n, n), n)), Some(Vector(Add(t1.b, MatVec(t1.a, t2.b)))))
  }

  /** `compose` with a working constructor: `A = A1 @ A2` and `b = b1 + A1 @ b2`,
      validated by the constructor; ValueError when the dimensions differ. */
  function Compose(t1: Affine, t2: Affine): (r: Result<Affine>)
    requires ValidAffine(t1) && ValidAffine(t2)
    ensures r.Ok? <==> t1.ndim == t2.ndim
    ensures r.Err? ==> r.error.ValueError?
    ensures r.Ok? ==> ValidAffine(r.value) && r.value.ndim == t1.ndim
  {
    if t1.ndim != t2.ndim then Err(ValueError("matmul: mismatch in its core dimension"))
    else
      var n := t1.ndim;
      var A := MatMul(t1.a, t2.a, n, n);
      var b := Add(t1.b, MatVec(t1.a, t2.b));
      MakeAffine(Some(Matrix(A, n)), Some(Vector(b)))
  }

  /** The composite maps `x` where the second transform and then the first would. */
  lemma ComposeMeansSequence(t1: Affine, t2: Affine, x: Vec)
    requires ValidAffine(t1) && ValidAffine(t2) && t1.ndim == t2.ndim == |x|
    ensures Compose(t1, t2).Ok?
    ensures AffineMap(Compose(t1, t2).value, x) == AffineMap(t1, AffineMap(t2, x))
  {
    var n := |x|;
    var c := Compose(t1, t2).value;
    assert c.a == MatMul(t1.a, t2.a, n, n) && c.b == Add(t1.b, MatVec(t1.a, t2.b));
    MatMulApply(t1.a, t2.a, n, x);
    MatVecAdd(t1.a, MatVec(t2.a, x), t2.b);
    var lhs := AffineMap(c, x);
    var rhs := AffineMap(t1, AffineMap(t2, x));
    forall i | 0 <= i < n ensures lhs[i] == rhs[i] {
    }
  }

  /** `A[axes, axes]`: the entries `A[axes[k]][axes[k]]`. */
  function Paired(t: Affine, axes: seq<int>): (d: Vec)
    requires ValidAffine(t)
    requires forall k :: 0 <= k < |axes| ==> ValidIndex(axes[k], t.ndim)
    ensures |d| == |axes|
    ensures forall k :: 0 <= k < |axes| ==> d[k] == t.a[Wrap(axes[k], t.ndim)][Wrap(axes[k], t.ndim)]
  {
    seq(|axes|, k requires 0 <= k < |axes| => t.a[Wrap(axes[k], t.ndim)][Wrap(axes[k], t.ndim)])
  }

  /** `set_slice` on an affine with a working constructor: `A[axes, axes]`
      pairs the two index lists, giving the 1-D diagonal entries, so the
      constructor's checks always reject it. (As written, no affine exists to
      call it on; see `AffineInitAsWritten`.) */
  function AffineSetSlice(t: Affine, axes: seq<int>): (r: Result<Affine>)
    requires ValidAffine(t)
    ensures r.Err?
    ensures (forall k :: 0 <= k < |axes| ==> ValidIndex(axes[k], t.ndim)) <==> r.error.ValueError?
  {
    match Take(t.b, axes)
    case Err(e) => Err(e)
    case Ok(b) => MakeAffine(Some(Vector(Paired(t, axes))), Some(Vector(b)))
  }

  /** `set_slice` on an affine selecting the sub-matrix (`A[np.ix_(axes, axes)]`). */
  function AffineSetSliceCorrected(t: Affine, axes: seq<int>): (r: Result<Affine>)
    requires ValidAffine(t)
    ensures r.Ok? <==> forall k :: 0 <= k < |axes| ==> ValidIndex(axes[k], t.ndim)
    ensures r.Err? ==> r.error.IndexError?
    ensures r.Ok? ==> ValidAffine(r.value) && r.value.ndim == |axes|
    ensures r.Ok? ==> forall i, j :: 0 <= i < |axes| && 0 <= j < |axes| ==>
      r.value.a[i][j] == t.a[Wrap(axes[i], t.ndim)][Wrap(axes[j], t.ndim)] &&
      r.value.b[i] == t.b[Wrap(axes[i], t.ndim)]
  {
    if forall k :: 0 <= k < |axes| ==> ValidIndex(axes[k], t.ndim) then
      var n := |axes|;
      var sub := seq(n, i requires 0 <= i < n =>
        seq(n, j requires 0 <= j < n => t.a[Wrap(axes[i], t.ndim)][Wrap(axes[j], t.ndim)]));
      var b := Take(t.b, axes).value;
      MakeAffine(Some(Matrix(sub, n)), Some(Vector(b)))
    else Err(IndexError("index out of bounds"))
  }
}

=== FILE: viewer_model.dfy ===
/** The viewer model (`napari/components/viewer_model.py`): guarded
    properties that emit an event only on change, the theme/palette pair,
    the active-layer rule (the unique selected layer), the reset-view box and
    the order of effects when a layer is added.

    Events are kept as an appended log; Dims is reduced to the two values the
    viewer writes and reads (its range and its current indices). */
module ViewerModel {
  import opened Common
  import LR = LayerRanges

  /** A colour palette: a dict of str to str. */
  type Palette = map<string, string>

  /** The preset themes, in dict iteration order. */
  type Themes = seq<(string, Palette)>

  /** The part of a layer the viewer reads and writes. */
  datatype Layer = Layer(
    id: nat,
    range: seq<LR.Range>,
    selected: bool,
    status: string,
    help: string,
    cursor: string,
    interactive: bool,
    indices: seq<int>)

  /** `(x, y, width, height)` of the camera, x along the last axis. */
  datatype ViewBox = ViewBox(x: real, y: real, w: real, h: real)

  datatype Event =
    | PaletteEvent(palette: Option<Palette>)
    | StatusEvent(text: string)
    | HelpEvent(text: string)
    | TitleEvent(text: string)
    | InteractiveEvent
    | CursorEvent
    | ActiveLayerEvent(item: Option<nat>)
    | ResetViewEvent(viewbox: ViewBox)

  datatype Viewer = Viewer(
    palette: Option<Palette>,
    status: string,
    help: string,
    title: string,
    interactive: bool,
    cursor: string,
    cursorSize: Option<int>,
    activeLayer: Option<nat>,
    layers: seq<Layer>,
    dimsRange: seq<LR.Range>,
    dimsIndices: seq<int>,
    events: seq<Event>)

  /** The state `__init__` leaves before it sets the theme. */
  function Initial(title: string, dimsIndices: seq<int>): (v: Viewer)
    ensures v.layers == [] && v.events == [] && v.activeLayer.None? && v.palette.None?
    ensures v.status == "Ready" && v.help == "" && v.cursor == "standard" && v.interactive
  {
    Viewer(None, "Ready", "", title, true, "standard", None, None, [], [], dimsIndices, [])
  }

  // ---------------------------------------------------------------------
  // Guarded properties

  /** One assignment to one of the guarded properties. */
  datatype Assignment =
    | PaletteTo(palette: Option<Palette>)
    | StatusTo(status: string)
    | HelpTo(help: string)
    | TitleTo(title: string)
    | InteractiveTo(interactive: bool)
    | CursorTo(cursor: string)
    | CursorSizeTo(size: Option<int>)
    | ActiveLayerTo(layer: Option<nat>)

  datatype Property = PaletteP | StatusP | HelpP | TitleP | InteractiveP | CursorP | CursorSizeP | ActiveLayerP

  function PropertyOf(a: Assignment): Property
  {
    match a
    case PaletteTo(_) => PaletteP
    case StatusTo(_) => StatusP
    case HelpTo(_) => HelpP
    case TitleTo(_) => TitleP
    case InteractiveTo(_) => InteractiveP
    case CursorTo(_) => CursorP
    case CursorSizeTo(_) => CursorSizeP
    case ActiveLayerTo(_) => ActiveLayerP
  }

  /** The property `a` writes already has the value `a` writes (the getter's view). */
  predicate Holds(v: Viewer, a: Assignment)
  {
    match a
    case PaletteTo(p) => v.palette == p
    case StatusTo(s) => v.status == s
    case HelpTo(s) => v.help == s
    case TitleTo(s) => v.title == s
    case InteractiveTo(b) => v.interactive == b
    case CursorTo(s) => v.cursor == s
    case CursorSizeTo(n) => v.cursorSize == n
    case ActiveLayerTo(l) => v.activeLayer == l
  }

  /** The event each setter emits; `cursor_size` emits the cursor event. */
  function EventFor(a: Assignment): Event
  {
    match a
    case PaletteTo(p) => PaletteEvent(p)
    case StatusTo(s) => StatusEvent(s)
    case HelpTo(s) => HelpEvent(s)
    case TitleTo(s) => TitleEvent(s)
    case InteractiveTo(_) => InteractiveEvent
    case CursorTo(_) => CursorEvent
    case CursorSizeTo(_) => CursorEvent
    case ActiveLayerTo(l) => ActiveLayerEvent(l)
  }

  function Store(v: Viewer, a: Assignment): Viewer
  {
    match a
    case PaletteTo(p) => v.(palette := p)
    case StatusTo(s) => v.(status := s)
    case HelpTo(s) => v.(help := s)
    case TitleTo(s) => v.(title := s)
    case InteractiveTo(b) => v.(interactive := b)
    case CursorTo(s) => v.(cursor := s)
    case CursorSizeTo(n) => v.(cursorSize := n)
    case ActiveLayerTo(l) => v.(activeLayer := l)
  }

  /** Every guarded property other than `p` has the same value in `v` and `w`. */
  predicate OthersUnchanged(v: Viewer, w: Viewer, p: Property)
  {
    && (p != PaletteP ==> v.palette == w.palette)
    && (p != StatusP ==> v.status == w.status)
    && (p != HelpP ==> v.help == w.help)
    && (p != TitleP ==> v.title == w.title)
    && (p != InteractiveP ==> v.interactive == w.interactive)
    && (p != CursorP ==> v.cursor == w.cursor)
    && (p != CursorSizeP ==> v.cursorSize == w.cursorSize)
    && (p != ActiveLayerP ==> v.activeLayer == w.activeLayer)
  }

  /** The layers and dims agree. */
  predicate SameContents(v: Viewer, w: Viewer)
  {
    v.layers == w.layers && v.dimsRange == w.dimsRange && v.dimsIndices == w.dimsIndices
  }

  /** A guarded setter: the current value changes nothing and emits nothing;
      any other value is stored and emits exactly one event, and no other
      property, layer or dims value changes. */
  function SetProperty(v: Viewer, a: Assignment): (r: Viewer)
    ensures Holds(r, a)
    ensures Holds(v, a) ==> r == v
    ensures !Holds(v, a) ==> r.events == v.events + [EventFor(a)]
    ensures |v.events| <= |r.events| <= |v.events| + 1 && r.events[..|v.events|] == v.events
    ensures OthersUnchanged(r, v, PropertyOf(a))
    ensures SameContents(r, v)
  {
    if Holds(v, a) then v
    else Store(v, a).(events := v.events + [EventFor(a)])
  }

  /** Assigning the same value twice is the same as assigning it once. */
  lemma SetPropertyIdempotent(v: Viewer, a: Assignment)
    ensures SetProperty(SetProperty(v, a), a) == SetProperty(v, a)
  {
  }

  /** An event is emitted exactly when the value changes. */
  lemma SetPropertyEmitsIffChanged(v: Viewer, a: Assignment)
    ensures |SetProperty(v, a).events| == |v.events| + (if Holds(v, a) then 0 else 1)
  {
  }

  // ---------------------------------------------------------------------
  // Theme

  /** Python dict keys are distinct. */
  predicate DistinctThemeNames(themes: Themes)
  {
    forall i, j :: 0 <= i < j < |themes| ==> themes[i].0 != themes[j].0
  }

  /** Position of the first theme whose palette is `p`, or `|themes|`. */
  function PaletteIndex(themes: Themes, p: Option<Palette>): (i: nat)
    ensures i <= |themes|
    ensures forall k :: 0 <= k < i ==> Some(themes[k].1) != p
    ensures i < |themes| ==> Some(themes[i].1) == p
  {
    if themes == [] then 0
    else if Some(themes[0].1) == p then 0
    else 1 + PaletteIndex(themes[1..], p)
  }

  /** Position of the theme named `name`, or `|themes|`. */
  function NameIndex(themes: Themes, name: string): (i: nat)
    ensures i <= |themes|
    ensures forall k :: 0 <= k < i ==> themes[k].0 != name
    ensures i < |themes| ==> themes[i].0 == name
  {
    if themes == [] then 0
    else if themes[0].0 == name then 0
    else 1 + NameIndex(themes[1..], name)
  }

  /** The `theme` getter: the first theme whose palette equals the current one, else None. */
  function Theme(themes: Themes, v: Viewer): (r: Option<string>)
    ensures r.None? <==> forall k :: 0 <= k < |themes| ==> Some(themes[k].1) != v.palette
    ensures r.Some? ==> exists k :: 0 <= k < |themes| && themes[k] == (r.value, v.palette.value)
  {
    var i := PaletteIndex(themes, v.palette);
    if i < |themes| then Some(themes[i].0) else None
  }

  /** The `theme` setter: nothing when `name` is the current theme, ValueError
      when no theme has that name, otherwise the palette setter with that
      theme's palette. */
  function SetTheme(themes: Themes, v: Viewer, name: string): (r: Result<Viewer>)
    requires DistinctThemeNames(themes)
    ensures r.Err? <==> NameIndex(themes, name) == |themes|
    ensures r.Err? ==> r.error.ValueError?
    ensures r.Ok? ==> r.value.palette == Some(themes[NameIndex(themes, name)].1)
    ensures r.Ok? ==> r.value == SetProperty(v, PaletteTo(Some(themes[NameIndex(themes, name)].1)))
  {
    var i := NameIndex(themes, name);
    if Theme(themes, v) == Some(name) then
      assert themes[PaletteIndex(themes, v.palette)].0 == name;
      Ok(v)
    else if i == |themes| then Err(ValueError("Theme '" + name + "' not found"))
    else Ok(SetProperty(v, PaletteTo(Some(themes[i].1))))
  }

  /** `ViewerModel(title)`: the initial state with the theme then set to
      `'dark'`. The new viewer carries the dark palette and exactly one
      palette event; without a theme named `'dark'` construction fails. */
  function New(themes: Themes, title: string, dimsIndices: seq<int>): (r: Result<Viewer>)
    requires DistinctThemeNames(themes)
    ensures r.Err? <==> forall k :: 0 <= k < |themes| ==> themes[k].0 != "dark"
    ensures r.Err? ==> r.error.ValueError?
    ensures r.Ok? ==> r.value.palette.Some? && exists k :: 0 <= k < |themes| && themes[k] == ("dark", r.value.palette.value)
    ensures r.Ok? ==> r.value.events == [PaletteEvent(r.value.palette)]
    ensures r.Ok? ==> r.value == Initial(title, dimsIndices).(palette := r.value.palette, events := r.value.events)
  {
    var r := SetTheme(themes, Initial(title, dimsIndices), "dark");
    if r.Ok? then
      var i := NameIndex(themes, "dark");
      assert themes[i] == ("dark", r.value.palette.value);
      r
    else r
  }

  /** With distinct palettes, the getter returns the name just set. */
  lemma ThemeRoundTrip(themes: Themes, v: Viewer, name: string)
    requires DistinctThemeNames(themes)
    requires forall i, j :: 0 <= i < j < |themes| ==> themes[i].1 != themes[j].1
    requires NameIndex(themes, name) < |themes|
    ensures SetTheme(themes, v, name).Ok?
    ensures Theme(themes, SetTheme(themes, v, name).value) == Some(name)
  {
    var i := NameIndex(themes, name);
    var w := SetTheme(themes, v, name).value;
    assert PaletteIndex(themes, w.palette) <= i;
  }

  // ---------------------------------------------------------------------
  // Active layer

  function SelectedCount(layers: seq<Layer>): (n: nat)
    ensures n <= |layers|
  {
    if layers == [] then 0
    else (if layers[0].selected then 1 else 0) + SelectedCount(layers[1..])
  }

  /** The loop of `_update_active_layer` from position `offset` on, `found`
      being the layer kept so far: a second selected layer breaks with None. */
  function ScanSelected(rest: seq<Layer>, offset: nat, found: Option<nat>): Option<nat>
  {
    if rest == [] then found
    else if found.None? && rest[0].selected then ScanSelected(rest[1..], offset + 1, Some(offset))
    else if found.Some? && rest[0].selected then None
    else ScanSelected(rest[1..], offset + 1, found)
  }

  lemma {:induction false} ScanSelectedFound(rest: seq<Layer>, offset: nat, k: nat)
    ensures ScanSelected(rest, offset, Some(k)) == if SelectedCount(rest) == 0 then Some(k) else None
  {
    if rest != [] {
      if !rest[0].selected {
        ScanSelectedFound(rest[1..], offset + 1, k);
      }
    }
  }

  lemma {:induction false} ScanSelectedNone(rest: seq<Layer>, offset: nat)
    ensures var r := ScanSelected(rest, offset, None);
            && (r.Some? <==> SelectedCount(rest) == 1)
            && (r.Some? ==> offset <= r.value < offset + |rest| && rest[r.value - offset].selected)
  {
    if rest != [] {
      if rest[0].selected {
        ScanSelectedFound(rest[1..], offset + 1, offset);
      } else {
        ScanSelectedNone(rest[1..], offset + 1);
      }
    }
  }

  /** The active layer: the position of the only selected layer, None when zero or several are selected. */
  function ActiveIndex(layers: seq<Layer>): (r: Option<nat>)
    ensures r.Some? <==> SelectedCount(layers) == 1
    ensures r.Some? ==> r.value < |layers| && layers[r.value].selected
  {
    ScanSelectedNone(layers, 0);
    ScanSelected(layers, 0, None)
  }

  /** Exactly one selected layer means no other layer is selected. */
  lemma {:induction false} SingleSelectedIsUnique(layers: seq<Layer>, i: nat, k: nat)
    requires SelectedCount(layers) == 1
    requires i < |layers| && k < |layers| && layers[i].selected && layers[k].selected
    ensures i == k
  {
    if i != k {
      if i == 0 || k == 0 {
        var other := if i == 0 then k else i;
        SelectedCountPositive(layers[1..], other - 1);
      } else if layers[0].selected {
        SelectedCountPositive(layers[1..], i - 1);
      } else {
        SingleSelectedIsUnique(layers[1..], i - 1, k - 1);
      }
    }
  }

  lemma {:induction false} SelectedCountPositive(layers: seq<Layer>, i: nat)
    requires i < |layers| && layers[i].selected
    ensures SelectedCount(layers) > 0
  {
    if i > 0 {
      SelectedCountPositive(layers[1..], i - 1);
    }
  }

  lemma PrefixTrans<T>(a: seq<T>, b: seq<T>, c: seq<T>)
    requires |a| <= |b| <= |c| && b[..|a|] == a && c[..|b|] == b
    ensures c[..|a|] == a
  {
    assert c[..|a|] == c[..|b|][..|a|];
  }

  /** The five setter calls of `_update_active_layer`, in the source's order. */
  function SetSelectionProperties(v: Viewer, status: string, help: string, cursor: string,
                                  interactive: bool, active: Option<nat>): (r: Viewer)
    ensures SameContents(r, v)
    ensures r.status == status && r.help == help && r.cursor == cursor && r.interactive == interactive
    ensures r.activeLayer == active
    ensures r.palette == v.palette && r.title == v.title && r.cursorSize == v.cursorSize
    ensures |v.events| <= |r.events| <= |v.events| + 5 && r.events[..|v.events|] == v.events
  {
    var v1 := SetProperty(v, StatusTo(status));
    var v2 := SetProperty(v1, HelpTo(help));
    var v3 := SetProperty(v2, CursorTo(cursor));
    var v4 := SetProperty(v3, InteractiveTo(interactive));
    var v5 := SetProperty(v4, ActiveLayerTo(active));
    assert v2.status == status && |v2.events| <= |v.events| + 2;
    PrefixTrans(v.events, v1.events, v2.events);
    assert v3.status == status && v3.help == help && |v3.events| <= |v.events| + 3;
    PrefixTrans(v.events, v2.events, v3.events);
    assert v4.status == status && v4.help == help && v4.cursor == cursor && |v4.events| <= |v.events| + 4;
    PrefixTrans(v.events, v3.events, v4.events);
    assert v5.status == status && v5.help == help && v5.cursor == cursor && v5.interactive == interactive;
    PrefixTrans(v.events, v4.events, v5.events);
    v5
  }

  /** `_update_active_layer`: copy the active layer's status, help, cursor and
      interactivity and make it active, or reset them all when there is none. */
  function UpdateActiveLayer(v: Viewer): (r: Viewer)
    ensures SameContents(r, v)
    ensures ActiveIndex(v.layers).None? ==>
      r.status == "Ready" && r.help == "" && r.cursor == "standard" && r.interactive && r.activeLayer.None?
    ensures ActiveIndex(v.layers).Some? ==>
      var l := v.layers[ActiveIndex(v.layers).value];
      r.status == l.status && r.help == l.help && r.cursor == l.cursor && r.interactive == l.interactive &&
      r.activeLayer == Some(l.id)
    ensures r.palette == v.palette && r.title == v.title && r.cursorSize == v.cursorSize
    ensures |v.events| <= |r.events| <= |v.events| + 5 && r.events[..|v.events|] == v.events
  {
    match ActiveIndex(v.layers)
    case None => SetSelectionProperties(v, "Ready", "", "standard", true, None)
    case Some(k) =>
      var l := v.layers[k];
      SetSelectionProperties(v, l.status, l.help, l.cursor, l.interactive, Some(l.id))
  }

  // ---------------------------------------------------------------------
  // Ranges, reset view, add layer

  function Ranges(layers: seq<Layer>): seq<seq<LR.Range>>
  {
    seq(|layers|, i requires 0 <= i < |layers| => layers[i].range)
  }

  /** `_calc_layers_num_dims`: the largest layer ndim, 0 without layers. */
  function NumDims(v: Viewer): (n: nat)
    ensures forall i :: 0 <= i < |v.layers| ==> |v.layers[i].range| <= n
    ensures n == 0 || exists i :: 0 <= i < |v.layers| && |v.layers[i].range| == n
  {
    var n := LR.NumDims(Ranges(v.layers));
    assert forall i :: 0 <= i < |v.layers| ==> Ranges(v.layers)[i] == v.layers[i].range;
    n
  }

  /** `_calc_layers_ranges` for this viewer's layers. */
  function LayersRanges(v: Viewer): (r: seq<LR.Range>)
    ensures |r| == NumDims(v)
  {
    LR.LayersRanges(Ranges(v.layers))
  }

  /** The camera box `reset_view` emits for the given ranges: the last two axes'
      bounding box grown by 5% on every side, x along the last axis. IndexError
      when there are fewer than two axes. */
  function ViewBoxOf(ranges: seq<LR.Range>): (r: Result<ViewBox>)
    ensures r.Err? <==> |ranges| < 2
    ensures r.Err? ==> r.error.IndexError?
    ensures r.Ok? ==>
      var x := ranges[|ranges| - 1];
      var y := ranges[|ranges| - 2];
      && r.value.w == 1.1 * (x.hi - x.lo) && r.value.h == 1.1 * (y.hi - y.lo)
      && r.value.x + r.value.w / 2.0 == (x.lo + x.hi) / 2.0
      && r.value.y + r.value.h / 2.0 == (y.lo + y.hi) / 2.0
      && (x.lo <= x.hi ==> r.value.x <= x.lo && x.hi <= r.value.x + r.value.w)
      && (y.lo <= y.hi ==> r.value.y <= y.lo && y.hi <= r.value.y + r.value.h)
  {
    var lo := LastN(LR.MinShape(ranges), 2);
    var hi := LastN(LR.MaxShape(ranges), 2);
    if |lo| < 2 then Err(IndexError("index 1 is out of bounds"))
    else
      var shape := [hi[0] - lo[0], hi[1] - lo[1]];
      var corner := [lo[0] - 0.05 * shape[0], lo[1] - 0.05 * shape[1]];
      Ok(ViewBox(corner[1], corner[0], 1.1 * shape[1], 1.1 * shape[0]))
  }

  /** `reset_view`: emit the reset-view event with the camera box of the current layers. */
  function ResetView(v: Viewer): (r: Result<Viewer>)
    ensures r.Err? <==> NumDims(v) < 2
    ensures r.Ok? ==> r.value == v.(events := v.events + [ResetViewEvent(ViewBoxOf(LayersRanges(v)).value)])
  {
    match ViewBoxOf(LayersRanges(v))
    case Err(e) => Err(e)
    case Ok(box) => Ok(v.(events := v.events + [ResetViewEvent(box)]))
  }

  /** The active layer's id, as `_update_active_layer` records it. */
  function ActiveId(layers: seq<Layer>): Option<nat>
  {
    match ActiveIndex(layers)
    case None => None
    case Some(k) => Some(layers[k].id)
  }

  /** The part of `add_layer` before the view reset: append the layer; the list's
      `added` event recomputes the dims range and the active layer; then the
      layer takes the dims indices. */
  function AppendLayer(v: Viewer, layer: Layer): (w: Viewer)
    ensures |w.layers| == |v.layers| + 1
    ensures w.layers[..|v.layers|] == v.layers
    ensures w.layers[|v.layers|] == layer.(indices := v.dimsIndices)
    ensures w.dimsIndices == v.dimsIndices
    ensures w.dimsRange == LayersRanges(w)
    ensures w.activeLayer == ActiveId(w.layers)
    ensures |v.events| <= |w.events| <= |v.events| + 5 && w.events[..|v.events|] == v.events
  {
    var appended := v.(layers := v.layers + [layer]);
    var ranged := appended.(dimsRange := LayersRanges(appended));
    var active := UpdateActiveLayer(ranged);
    var last := |active.layers| - 1;
    var indexed := active.(layers := active.layers[last := layer.(indices := v.dimsIndices)]);
    SelectionIgnoresIndices(active.layers, last, v.dimsIndices);
    assert ActiveId(indexed.layers) == ActiveId(active.layers);
    assert Ranges(indexed.layers) == Ranges(active.layers);
    assert active.layers[..|v.layers|] == v.layers;
    indexed
  }

  /** `add_layer`: `AppendLayer`, then a view reset when the layer is the only one.
      A failing reset leaves the rest done. */
  function AddLayer(v: Viewer, layer: Layer): (r: (Viewer, Option<Error>))
    ensures r.0.layers == v.layers + [layer.(indices := v.dimsIndices)]
    ensures r.0.dimsRange == LayersRanges(r.0) && r.0.activeLayer == ActiveId(r.0.layers)
    ensures r.1.Some? <==> v.layers == [] && |layer.range| < 2
    ensures r.1.Some? ==> r.1.value.IndexError?
    ensures v.layers != [] ==> r.0 == AppendLayer(v, layer)
    ensures (v.layers == [] && r.1.None?) ==> |r.0.events| > 0 && r.0.events[|r.0.events| - 1].ResetViewEvent?
  {
    var w := AppendLayer(v, layer);
    assert w.layers == v.layers + [layer.(indices := v.dimsIndices)];
    if |w.layers| == 1 then ResetFirst(w) else (w, None)
  }

  /** The reset `add_layer` runs after adding the first layer: it fails
      exactly when that layer has fewer than two axes, and otherwise only
      appends the reset event. */
  function ResetFirst(w: Viewer): (r: (Viewer, Option<Error>))
    requires |w.layers| == 1
    ensures r.0.layers == w.layers && r.0.dimsRange == w.dimsRange && r.0.activeLayer == w.activeLayer
    ensures r.1.Some? <==> |w.layers[0].range| < 2
    ensures r.1.Some? ==> r.1.value.IndexError? && r.0 == w
    ensures r.1.None? ==> |r.0.events| > 0 && r.0.events[|r.0.events| - 1].ResetViewEvent?
  {
    SingleLayerDims(w);
    match ResetView(w)
    case Err(e) => (w, Some(e))
    case Ok(w') => (w', None)
  }

  lemma SingleLayerDims(v: Viewer)
    requires |v.layers| == 1
    ensures NumDims(v) == |v.layers[0].range|
  {
    assert Ranges(v.layers) == [v.layers[0].range];
    assert LR.NumDims(Ranges(v.layers)) == MaxInt(|v.layers[0].range|, LR.NumDims([]));
  }

  /** Writing a layer's indices does not change which layer is active. */
  lemma SelectionIgnoresIndices(layers: seq<Layer>, i: nat, indices: seq<int>)
    requires i < |layers|
    ensures ActiveIndex(layers[i := layers[i].(indices := indices)]) == ActiveIndex(layers)
  {
    var changed := layers[i := layers[i].(indices := indices)];
    SelectionOnly(layers, changed, 0);
  }

  lemma {:induction false} SelectionOnly(a: seq<Layer>, b: seq<Layer>, offset: nat)
    requires |a| == |b|
    requires forall k :: 0 <= k < |a| ==> a[k].selected == b[k].selected && a[k].id == b[k].id
    ensures forall f :: ScanSelected(a, offset, f) == ScanSelected(b, offset, f)
    ensures SelectedCount(a) == SelectedCount(b)
  {
    if a != [] {
      SelectionOnly(a[1..], b[1..], offset + 1);
    }
  }
}
